=== FILE: README.md ===
# Grounded RAG question answering, modelled in Dafny

This project models the question-answering pipeline of the grounded-rag-qa
repository. The pipeline works as follows:

- A document is cleaned and cut into overlapping, trimmed character windows (`chunk_text`).
- The texts are embedded in batches, and each batch is retried a bounded number of times.
- A query is validated, and the search results are filtered by the score threshold, sorted best-first and stably, and resolved against the chunk records.
- The decider accepts or refuses the hits.
- The prompt is rendered with numbered context blocks.
- The language model is called in a retry loop that strengthens the prompt on every retry.
- The answer is assembled:
  - a short question or a refused decision gives the fixed refusal;
  - citations are resolved through a `(doc_id, chunk_id, page)` map with a pageless fallback;
  - when no citation resolves, the first `TOP_N` hits are the sources.
- The evaluation runner loads its cases and scores each answer.

Module layout: one Dafny module per source file.

| Module | Source | Contents |
|---|---|---|
| `Wrappers` | — | `Option` and `Result` |
| `Text` | — | Python's whitespace set, `strip`, `split`/`join` squashing, `str(int)`, `in` on strings and ASCII `lower`, written out |
| `Types` | `app/rag/types.py` | record types |
| `Schemas` | `app/schemas.py` | record types |
| `Config` | `app/config.py` | the settings the core reads |
| `Chunking` | `app/rag/chunking.py` | |
| `Embedder` | `app/rag/embedder.py` | |
| `Retriever` | `app/rag/retriever.py` | |
| `Decider` | `app/rag/decider.py` | |
| `Prompt` | `app/rag/prompt.py` | |
| `Generator` | `app/rag/generator.py` | |
| `Pipeline` | `app/rag/pipeline.py` | |
| `Eval` | `eval/run_eval.py` | |

How the source is modelled:

- **Pure code** becomes functions: `clean_text`, `_snippet`, `decide`, `build`, `_extract_text`, `_extract_usage`, the eval checks and `_rate`.
- **Loops become methods** with loop invariants. Each method is proved equal to a specification function, and the properties are proved about that function:
  - the windowing loop of `chunk_text`;
  - the batch and retry loops of `embed_texts`;
  - the filter and hit-building loops of `retrieve`;
  - the attempt loop of `generate`;
  - the hit-map, citation and fallback loops of `answer`;
  - `load_cases` and the scoring loop of the eval runner.
- **External services are parameters** (oracles):
  - the embedding service, keyed by call number;
  - the vector search;
  - the language model, keyed by attempt;
  - the JSON decoder and validator.
- **Delays are recorded.** Waits are written into a trace rather than slept.
- **Scores and prices** are `real`. Only comparisons of scores matter.

Behaviour of the code as written that a reader might not expect:

- **Settings.** `app/config.py` defines neither `MIN_HITS`, `MAX_CONTEXT_HITS` nor `TOP_N`, so the `getattr` defaults at `app/rag/decider.py:26`, `:30` and `app/rag/pipeline.py:121` always apply as written. They are `Option` fields of `Config.Settings`, and `None` means the default.
- **Pageless fallback.** The fallback key `(doc_id, chunk_id, None)` matches only hits whose page is absent.
- **Vector-count mismatch.** A mismatch in one embedding batch is raised inside the `try`, so it is retried like any other failure.
- **Reinforcement text.** The JSON reinforcement text is appended on every retry of `generate`, whatever made the previous attempt fail, and it accumulates from one retry to the next.
- **Retriever errors.** `answer` does not catch exceptions from the retriever, so they reach its caller.
- **Empty-output counter.** The counter `empty_outputs` of the eval runner can grow by two for one case. That happens when a should-answer case has no sources and is also a refusal. The empty rate therefore lies in [0, 2], not [0, 1].

## Model

| member | source | states |
|---|---|---|
| Text.StripSlice | app/rag/chunking.py:17 | `strip` returns the slice between the first and one past the last non-whitespace character, and the result has no whitespace at either end |
| Text.StripTwice | app/rag/prompt.py:38 | stripping twice is the same as stripping once |
| Text.StripKeepsContent | app/rag/generator.py:67-70 | stripping removes whitespace only: the non-whitespace characters are kept in order |
| Text.SquashSpec | app/rag/retriever.py:34 | `" ".join(text.split())` keeps the non-whitespace characters in order, has no whitespace at either end and no two spaces in a row, and splits back into exactly the words of `text`; so it is the single-spaced text with those words |
| Text.SplitJoinWords | app/rag/retriever.py:34 | splitting a space-joined list of words gives the same words back |
| Text.AbbreviateSpec | app/rag/retriever.py:35 | a text no longer than `n` is kept; a longer one becomes its first `n` characters minus exactly their trailing whitespace, followed by the marker |
| Text.IsSubstringSpec | eval/run_eval.py:87 | Python's `sub in s` holds exactly when `sub` occurs at some position of `s` |
| Text.NatToStringRoundTrip | eval/run_eval.py:35 | the decimal rendering of a line number reads back as that number |
| Chunking.CleanTextIsClean | app/rag/chunking.py:9-17 | `clean_text` output has no carriage return, no space or tab before a line feed, no run of three line feeds, no run of two spaces or tabs, and no whitespace at either end |
| Chunking.CleanTextIdentity | app/rag/chunking.py:9-17 | text that is already clean is returned unchanged |
| Chunking.CleanTextIdempotent | app/rag/chunking.py:9-17 | applying `clean_text` twice is the same as applying it once |
| Chunking.DropHSpaceEstablishes | app/rag/chunking.py:14 | after `re.sub(r"[ \t]+\n", ...)` no space or tab precedes a line feed |
| Chunking.CollapseNewlinesEstablishes | app/rag/chunking.py:15 | after `re.sub(r"\n{3,}", ...)` there is no run of three line feeds |
| Chunking.CollapseHSpaceEstablishes | app/rag/chunking.py:16 | after `re.sub(r"[ \t]{2,}", ...)` there is no run of two spaces or tabs, and the earlier property is kept |
| Chunking.ChunkText | app/rag/chunking.py:20-80 | configuration errors are raised first, in source order; otherwise the result is the windowing outcome of the cleaned text. It fails only on a non-empty text whose document id or page is rejected. Success is well chunked: ids 0, 1, 2, … in order; each chunk is `cleaned[start_char:end_char]`, stripped and non-empty, inside its window; starts are non-decreasing; every non-whitespace position is covered; the caller's metadata is kept. The result is empty exactly when the cleaned text is empty |
| Chunking.Windows | app/rag/chunking.py:44-78 | the `while` loop returns what the windowing recursion describes |
| Chunking.WindowTurn | app/rag/chunking.py:51-74 | one loop body: strip the window and place the chunk using the lengths `lstrip` and `rstrip` remove |
| Chunking.WindowLoopChunks | app/rag/chunking.py:44-78 | the loop from any state ends with what it has emitted followed by the chunks of the remaining windows, or fails when one of those remains and the metadata is rejected |
| Chunking.WindowAtPlaced | app/rag/chunking.py:51-74 | a window yields no chunk exactly when it is all whitespace; otherwise its chunk starts on non-whitespace, with only whitespace trimmed on either side |
| Chunking.WindowsPlaced | app/rag/chunking.py:48-78 | the emitted chunks are numbered consecutively in output order, and a blank window consumes no id |
| Chunking.WindowsSorted | app/rag/chunking.py:50-78 | chunk start offsets are non-decreasing |
| Chunking.WindowsCover | app/rag/chunking.py:44-78 | every non-whitespace position from `start` on lies inside some emitted chunk |
| Chunking.WindowOutcomeWellChunked | app/rag/chunking.py:38-80 | on stripped text the windowing fails exactly when the text is non-empty and the metadata is rejected; otherwise it is well chunked and empty exactly when the text is |
| Chunking.PlacedChunksValid | app/rag/chunking.py:63-73 | placed chunks satisfy the `Chunk` and `ChunkMeta` field constraints when the document id and page do |
| Embedder.NewEmbedder | app/rag/embedder.py:21-40 | the batch size is clamped to at least 1 and the retry count to at least 0; a missing price is 0; other fields are kept |
| Embedder.CostUsd | app/rag/embedder.py:42-45 | nothing is charged when the price is not positive |
| Embedder.NormalizeTextSpec | app/rag/embedder.py:51-52 | a normalised text is never empty; it is the stripped text or a single space; normalising it again changes nothing |
| Embedder.NormalizeTexts | app/rag/embedder.py:47-53 | the loop keeps length and order and normalises each text |
| Embedder.BatchCountSpec | app/rag/embedder.py:72 | the batch count is the ceiling of `n / batch_size`, and it is zero exactly when there are no texts |
| Embedder.BatchStartMul | app/rag/embedder.py:75 | batch `b` starts at `b * batch_size` |
| Embedder.JoinBatchesCover | app/rag/embedder.py:74-76 | the batches are consecutive slices that cover the normalised texts in order |
| Embedder.AttemptsSpec | app/rag/embedder.py:79-123 | one batch makes at most `retries + 1` calls and waits only between attempts, never after the last. A success has one vector per text; a failure is the error of the last attempt |
| Embedder.MismatchRetried | app/rag/embedder.py:89-94 | a wrong number of vectors is retried exactly like a raised call |
| Embedder.EmbedBatch | app/rag/embedder.py:79-123 | the retry loop of one batch computes the attempt recursion |
| Embedder.BatchesFromWaits | app/rag/embedder.py:118-120 | every wait of the batch loop is `sleep_base_s * attempt` for some attempt between 1 and `retries` |
| Embedder.BatchesFromOks | app/rag/embedder.py:74-100 | a successful batch loop holds one reply per batch, each the service's answer to that batch with one vector per text; `all_vecs` is their vectors in batch order and `total_input_tokens` the sum of their prompt tokens |
| Embedder.EmbedOutcomeSpec | app/rag/embedder.py:55-151 | empty input gives no vectors, no batches and 0 input tokens without a call. A success has one vector per text and `ceil(n / batch_size)` batches; per batch of the normalised texts, in order, it holds the service's reply to that batch, the vectors being those replies' vectors concatenated and `input_tokens` the sum of their prompt tokens. The service is called at most `retries + 1` times per batch. A failure made at least `retries + 1` calls. Every wait is `sleep_base_s * attempt` for an attempt ≤ `retries` |
| Embedder.EmbedTexts | app/rag/embedder.py:55-151 | `embed_texts` computes that outcome |
| Embedder.EmbedBatches | app/rag/embedder.py:74-129 | the batch loop and its final count check compute the batch recursion |
| Retriever.OpenRetriever | app/rag/retriever.py:49-74 | explicit `min_score` and `top_k` win over the settings; a missing index, missing records and an empty record list are refused, in that order |
| Retriever.FilterCandidates | app/rag/retriever.py:105-113 | the loop counts the ids that are not negative, and keeps those pairs whose score reaches the threshold, in search order |
| Retriever.KeptSpec | app/rag/retriever.py:105-113 | each kept pair has a real id and reaches the threshold; kept ≤ candidates ≤ pairs |
| Retriever.KeptExact | app/rag/retriever.py:108-113 | a pair with a real id is kept exactly when its score reaches the threshold |
| Retriever.SortDescSpec | app/rag/retriever.py:116 | the sort is best-first and is a permutation of its input |
| Retriever.SortDescStable | app/rag/retriever.py:116 | pairs with equal scores keep their search order |
| Retriever.ResolveSpec | app/rag/retriever.py:122-131 | resolution fails exactly when a pair names a record whose metadata is rejected, and then with the id of the first such pair in ranking order |
| Retriever.ResolveFirstBad | app/rag/retriever.py:122-131 | a failed resolution names the first in-range pair, in ranking order, whose record is rejected |
| Retriever.ResolveFrom | app/rag/retriever.py:122-142 | a successful resolution is sound and complete: every pair whose id names a record yields that record's hit with the pair's score, in ranking order; ids past the records are skipped, and nothing else is returned |
| Retriever.ResolveExact | app/rag/retriever.py:122-142 | on success the hits are exactly those of the in-range pairs, one each, in ranking order |
| Retriever.InRangeMembers | app/rag/retriever.py:122-124 | a ranked pair is resolved, not skipped, exactly when its id names a record |
| Retriever.ResolveSorted | app/rag/retriever.py:116-142 | resolving a best-first ranking keeps it best-first |
| Retriever.ResolveHits | app/rag/retriever.py:119-142 | the hit-building loop computes the resolution; `top_score` is the first hit's score, and is absent when there are no hits |
| Retriever.RankedSpec | app/rag/retriever.py:105-153 | hits are best-first, reach the threshold and come from the records; every kept pair whose id names a record yields its hit, in ranking order; `returned` ≤ candidates; `top_score` is the first hit's score; a failure names the first rejected record in ranking order |
| Retriever.Retrieve | app/rag/retriever.py:76-153 | `retrieve` computes the retrieval outcome |
| Retriever.RetrieveSpec | app/rag/retriever.py:76-153 | a blank query is refused as empty; a stripped query of 1 or 2 characters as too short; then a `k ≤ 0`, each exactly in that case. The "failed to embed" branch is never taken. Past those checks and an embedding failure, the result is the ranking of the pairs the index returned: a success has best-first hits that reach the threshold, one for every kept pair whose id names a record, `returned` ≤ `candidates`, and the first hit's score as `top_score` |
| Retriever.Snippet | app/rag/retriever.py:33-35 | the squashed text is the words of the text joined by single spaces; when it has at most n characters it is returned as is, otherwise its first n characters minus exactly their trailing whitespace, then `…` |
| Config.TopN | app/rag/pipeline.py:121 | `TOP_N` defaults to `min(3, TOP_K)` |
| Config.PyPrefix | app/rag/decider.py:31 | Python's `xs[:k]`, including a negative `k` |
| Decider.MaxScore | app/rag/decider.py:21 | the top score bounds every hit's score and is reached by one of them |
| Decider.Decide | app/rag/decider.py:17-31 | no hits gives `no_hits` with no top score; otherwise the top score is the maximum. `ok` holds exactly when the reason is `enough_context`; every refusal uses no hits |
| Decider.DecideSpec | app/rag/decider.py:17-31 | the decision is accepted exactly when some hit reaches `MIN_SCORE` and there are at least `MIN_HITS` hits; the reasons follow the guard order; on acceptance `hits_used` is `hits[:max_ctx]`, in order |
| Decider.DecideDefaults | app/rag/decider.py:26-31 | with the settings as declared, the `getattr` defaults apply (`MIN_HITS` 1, `MAX_CONTEXT_HITS` `TOP_K`): one hit at the threshold suffices, and `min(TOP_K, len(hits))` hits are used |
| Prompt.SourceName | app/rag/prompt.py:30 | the shown source is either `path` or `doc_id`: `path` when it is set and non-empty, else `doc_id`; it is non-empty when the doc id is |
| Prompt.JoinPlaces | app/rag/prompt.py:35 | in `sep.join(blocks)` each block sits at its offset, and every block but the first is preceded by the separator |
| Prompt.FormatContextSpec | app/rag/prompt.py:22-35 | the context is empty exactly when there are no hits; otherwise blocks `[1]`..`[k]` appear in hit order, joined by `"\n---\n"` |
| Prompt.BlockLabel | app/rag/prompt.py:32 | a block starts with its `[i]` label |
| Prompt.BlockText | app/rag/prompt.py:33 | the hit text appears verbatim after `snippet:\n`, and a line feed ends the block |
| Prompt.BlockPage | app/rag/prompt.py:29 | the `, page=` segment is present exactly when the page is |
| Prompt.Build | app/rag/prompt.py:37-63 | `build` returns exactly two messages: the system rules, then the user message |
| Prompt.BuildSpec | app/rag/prompt.py:37-58 | the user message holds the stripped question, then the context or `(no context snippets)`, then the output rules; an already stripped question gives the same prompt |
| Generator.NewGenerator | app/rag/generator.py:46-63 | the retry count is clamped at 0; the model, temperature, output-token limit and timeout are kept |
| Generator.ExtractTextSpec | app/rag/generator.py:65-70 | the text has no whitespace at either end; a non-empty `output_text` is always used, keeping its non-whitespace characters in order, so one that is only whitespace gives `""` without falling back to the string form of the response |
| Generator.ExtractUsageSpec | app/rag/generator.py:72-90 | no usage exactly when the usage object is missing or all its counts are zero or missing; the total falls back to input plus output |
| Generator.ParseAnswer | app/rag/generator.py:92-94 | an answer is accepted exactly when the decoder yields one that passes the schema (a non-empty answer; citations with a non-empty doc id, `chunk_id ≥ 0` and a page that is absent or ≥ 1), and then it is that answer |
| Generator.Reinforce | app/rag/generator.py:103-111 | a retry sends two messages: the first one kept, and a user message whose content is the previous second message's content followed by the reinforcement |
| Generator.TryOnce | app/rag/generator.py:113-123 | an attempt that parses carries a valid answer; an attempt whose rebinding raises makes no call |
| Generator.TryOnceSpec | app/rag/generator.py:113-154 | for the service's reply to the messages sent: a raised call fails with its message; a response parses exactly when its extracted text decodes to a valid answer, which is then the attempt's answer, with the response's extracted usage; any other response is malformed (the JSON/validation branch); a rebinding that raises makes no call |
| Generator.Generate | app/rag/generator.py:96-167 | the retry loop computes the generation outcome and its trace |
| Generator.GenerateStep | app/rag/generator.py:100-164 | one pass of the loop either ends the run or moves to the next attempt, with the same eventual outcome |
| Generator.RunTries | app/rag/generator.py:100-167 | at least one attempt and at most `retries + 1`; all but the last fail; success exactly when the last parses, with its answer and usage (each attempt is tied to the service's reply by `Generator.RunCalls`) |
| Generator.RunWaits | app/rag/generator.py:141-164 | one wait per attempt but the last: `0.4 * attempt` after a malformed answer, `0.5 * attempt` after any other failure (stated over the service's replies in `Generator.GenerateReplies`) |
| Generator.RunCalls | app/rag/generator.py:100-139 | every attempt that called the service is what its reply comes to: try `j` is attempt `j + 1` on the `j`-th message list sent |
| Generator.RunSent | app/rag/generator.py:101-113 | with at least two messages every attempt calls the service, and attempt `a` sends the reinforcement appended `a - 1` times |
| Generator.RunShort | app/rag/generator.py:101-111 | with fewer than two messages only the first attempt calls the service; later attempts fail on the rebinding |
| Generator.RunReply | app/rag/generator.py:113-139 | a successful run's answer and usage are the validated parse and the extracted usage of the service's reply to the last messages sent, at the last attempt |
| Generator.GenerateSpec | app/rag/generator.py:96-167 | between 1 and `retries + 1` attempts, each with at most one call and each that called the service being what its reply comes to; a success carries the answer and usage of the service's reply to the last messages sent; a failure used every attempt and wraps the last one's error |
| Generator.GenerateReplies | app/rag/generator.py:113-164 | in terms of the service's replies: no reply before the last attempt decodes to a valid answer, so the first that does ends the loop; a run succeeds exactly when the last attempt called the service and its reply decodes to a valid answer; after a failed call the wait is `0.4 * attempt` when the service responded and `0.5 * attempt` when the call raised |
| Pipeline.GarbledSnippet | app/rag/pipeline.py:18-20 | as written, a 321-letter text gives a 323-character snippet: its first 320 letters, then the three characters `â€¦`, not an ellipsis |
| Pipeline.SourceSnippetSpec | app/rag/pipeline.py:18-20 | the corrected snippet: the squashed text (the words joined by single spaces) when it has at most 320 characters; otherwise its first 320 characters minus exactly their trailing whitespace, then `…` |
| Pipeline.HitMapKeys | app/rag/pipeline.py:93-104 | a key is in the hit map exactly when some used hit has it |
| Pipeline.LastIndexSpec | app/rag/pipeline.py:93-104 | the last index of a key is found exactly when some hit has the key, and no later hit has it |
| Pipeline.HitMapLast | app/rag/pipeline.py:93-104 | the entry for a key is built from the last hit with that key, so later hits overwrite earlier ones |
| Pipeline.BuildHitMap | app/rag/pipeline.py:93-104 | the loop builds the hit map |
| Pipeline.LookupSpec | app/rag/pipeline.py:109-117 | a citation resolves by its exact key first, then by `(doc_id, chunk_id, None)`, which only pageless hits have, and to nothing when neither key is present |
| Pipeline.ResolveCitations | app/rag/pipeline.py:106-117 | the loop appends each citation's lookup, in citation order |
| Pipeline.CitedSpec | app/rag/pipeline.py:106-117 | each citation adds at most one source, and each source is the entry of a used hit |
| Pipeline.FallbackSources | app/rag/pipeline.py:120-133 | the fallback loop gives the entries of `hits_used[:top_n]` |
| Pipeline.SourcesSpec | app/rag/pipeline.py:106-133 | each source comes from a used hit. They are the resolved citations when any resolve, at most one per citation; otherwise the first `TOP_N` hits in rank order |
| Pipeline.CalcCostUsd | app/rag/pipeline.py:149-156 | no usage or zero prices cost nothing; non-negative counts at non-negative prices give a non-negative cost |
| Pipeline.AnswerFromHits | app/rag/pipeline.py:54-147 | from the retrieved hits on, `answer` computes the response function |
| Pipeline.Answer | app/rag/pipeline.py:23-147 | `answer` computes the answer outcome |
| Pipeline.AnswerSpec | app/rag/pipeline.py:23-147 | a question shorter than 3 characters after stripping is refused, with latency 0 and no usage. Retriever errors pass through. A refused decision or a failed generation gives the refusal. Otherwise the answer is the generated one, its sources come from the used hits, its usage is the generator's, and without usage it costs nothing |
| Eval.ParseLineSpec | eval/run_eval.py:30-58 | a blank line is skipped. Any other line is rejected with its line number: as bad JSON exactly when it does not decode; then, each exactly in its case and in this order, for an empty stripped question, an expectation other than the two, a `must_include` that is not a list, a `keywords` that is not a list. Otherwise the case is valid and made from the object: its own id or `case_<line_no>`, the stripped question and expectation, and the two lists |
| Eval.LoadCases | eval/run_eval.py:26-60 | the loop computes the load of all lines |
| Eval.LoadSuccessSpec | eval/run_eval.py:26-60 | a successful load has one valid case per non-blank line |
| Eval.LoadFailureSpec | eval/run_eval.py:26-60 | a failed load names a non-blank line by its number, with that line's own rejection, and every earlier line was accepted or skipped |
| Eval.DocIdsSpec | eval/run_eval.py:63-69 | the doc ids are exactly the non-empty doc ids of the sources |
| Eval.HasMustIncludeSpec | eval/run_eval.py:76-80 | true for an empty list; otherwise true exactly when some listed id is a source's non-empty doc id |
| Eval.AnswerContainsKeywordsSpec | eval/run_eval.py:83-87 | every keyword occurs in the answer, ignoring ASCII case |
| Eval.ScoreAnswer | eval/run_eval.py:161-191 | the should-answer branch updates the counters, notes and pass flag as specified; the case passes exactly when there are no notes |
| Eval.ScoreRefuse | eval/run_eval.py:193-204 | the should-refuse branch updates the counters, notes and pass flag as specified; the case passes exactly when there are no notes |
| Eval.ScoreCase | eval/run_eval.py:129-204 | one case: a raised error is only reported; otherwise its latency and cost are collected and it is scored |
| Eval.Score | eval/run_eval.py:129-211 | the scoring loop computes the tally and verdicts of all cases |
| Eval.NotesSpec | eval/run_eval.py:161-204 | a should-answer case passes exactly when it has sources, is not a refusal, and meets its must-include and keyword checks when those lists are non-empty; any other case passes exactly when it is a refusal with no sources |
| Eval.CountSpec | eval/run_eval.py:161-185 | `empty_outputs` grows by at most 2, and by exactly 2 when a should-answer case has no sources and is a refusal; hit@k counts only non-empty, satisfied must-include lists |
| Eval.TalliedSpec | eval/run_eval.py:129-211 | over any number of cases each numerator is at most its denominator (twice it for empty outputs), and the cases that did not raise each give one latency and one cost |
| Eval.RateSpec | eval/run_eval.py:213-214 | a zero denominator gives 0; a numerator between 0 and `m` times the denominator gives a rate between 0 and `m` |
| Eval.RatesSpec | eval/run_eval.py:213-219 | hit@k, the grounded rate and the refusal quality lie in [0, 1]; the empty rate lies in [0, 2] |
| Eval.PipelineRefusalScored | eval/run_eval.py:90-92 | the pipeline's refusal is recognised: it passes a should-refuse case and adds two to `empty_outputs` on a should-answer case |

## Left out

- **Service clients.** The OpenAI embedding and response clients, the FAISS index load and search, and `json.loads` with pydantic validation are parameters (oracles). Their internals and floating-point vector arithmetic are not modelled.
- **Non-integer ids.** The `isinstance(i, int)` test of `retrieve` is not modelled: ids are integers in the model.
- **Timing and request ids.** `time.perf_counter` latencies and `uuid` request ids are parameters. `time.sleep` is recorded as a list of waits. None of the latency metrics of `retrieve` is modelled.
- **Rounding.** `round(..., 6)` in `_cost_usd` and `_calc_cost_usd`, and the average latency and cost of the eval summary, are not modelled. Costs are exact reals.
- Embedder.EmbedBatches: a reply's prompt-token count is a number here, so the `int(...)` conversion after `all_vecs.extend(vecs)` never raises. A batch is therefore never retried with its vectors already appended, and the final count check never fires. A failing conversion is not modelled.
- Embedder.CostUsd: states only that nothing is charged at a non-positive price and that the cost is otherwise non-negative. It omits the rounding to 6 places.
- Pipeline.Answer: every source snippet cut at 320 characters ends in the ellipsis `…`, where `app/rag/pipeline.py:20` as written appends the three characters `â€¦` (see "## Findings"). The same holds for Pipeline.AnswerFromHits, Pipeline.BuildHitMap, Pipeline.FallbackSources and Pipeline.AnswerSpec, which build their entries with the corrected snippet.
- Pipeline.AnswerFromHits: uses the corrected snippet, as Pipeline.Answer does.
- Pipeline.BuildHitMap: its entries carry the corrected snippet, as Pipeline.Answer does.
- Pipeline.FallbackSources: its entries carry the corrected snippet, as Pipeline.Answer does.
- Pipeline.AnswerSpec: the sources it describes carry the corrected snippet, as Pipeline.Answer does.
- Pipeline.CalcCostUsd: is stated for the zero cases and for the sign of the cost only. It omits the rounding to 6 places.
- **Chunk record parsing.** `_load_chunks_jsonl` file parsing is left out. The records are a sequence given to the retriever. A record whose `meta` pydantic would reject is a row without metadata, and resolving it raises.
- **The retriever's state.** The retriever's `_index` and `_rows` fields never change after construction, so the retriever is a datatype. `OpenRetriever` takes the existence of the two files as flags.
- Retriever.SortDesc: the in-place `pairs.sort` is a pure stable insertion sort on a sequence. The model does not capture that the list is updated in place.
- **Python string semantics.**
  - `str.split`/`strip` use a fixed whitespace set.
  - `lower()` in `_answer_contains_keywords` is ASCII-only (Eval.AnswerContainsKeywordsSpec therefore states case-insensitivity for ASCII letters only).
  - `str(x)` of non-string JSON values is left to the decoder parameter.
- **Eval input decoding.** The JSON decoding of a case line is a parameter that yields an object of values. The model has only truthiness, text and list-ness.
- **Command-line plumbing.** The `argparse`/`print` code of `retriever.py`, `pipeline.py` and `run_eval.py` is not modelled. Neither is the `_fmt_bool` formatting or the missing-cases-file check.
- **Other files.** `app/main.py`, `app/rag/index.py`, `app/rag/ingest.py`, `app/rag/store_faiss.py`, `app/rag/run_pipeline.py` and `app/utils/logging.py` are not part of this model, nor is environment loading in `app/config.py`. The settings are a record passed as a parameter.
- **Logging** calls inside the embedder and generator are not modelled.

## Findings

| source | as written | input that shows it | evidently intended | confidence | as-written member | corrected member |
|---|---|---|---|---|---|---|
| app/rag/pipeline.py:20 | the marker appended to a cut snippet is the three characters `â€¦`, the UTF-8 bytes of `…` decoded as Windows-1252 | a hit text of 321 `a` characters: the source snippet ends in `â€¦` | the single character `…` (U+2026), as `_snippet` in app/rag/retriever.py:35 appends | high (not executed) | Pipeline.GarbledSnippet | Pipeline.SourceSnippetSpec |

=== FILE: chunking.dfy ===
/**
 * Text cleaning and overlapping fixed-size windowing (app/rag/chunking.py).
 *
 * `CleanText` is the chain of substitutions of `clean_text`, one function per
 * step; `ChunkText` is the windowing loop of `chunk_text`.
 */
module Chunking {
  import opened Wrappers
  import opened Text
  import opened Types

  // ---------------------------------------------------------------------
  // clean_text, step by step
  // ---------------------------------------------------------------------

  /** `t.replace("\r\n", "\n")`. */
  function ReplaceCrLf(s: string): (r: string)
    ensures forall c :: c in r ==> c in s
  {
    if |s| == 0 then []
    else if |s| >= 2 && s[0] == '\r' && s[1] == '\n' then "\n" + ReplaceCrLf(s[2..])
    else [s[0]] + ReplaceCrLf(s[1..])
  }

  /** `t.replace("\r", "\n")`: every carriage return becomes a line feed. */
  function ReplaceCr(s: string): (r: string)
    ensures |r| == |s|
    ensures forall i :: 0 <= i < |s| ==> r[i] == (if s[i] == '\r' then '\n' else s[i])
  {
    if |s| == 0 then [] else [if s[0] == '\r' then '\n' else s[0]] + ReplaceCr(s[1..])
  }

  /** The first character of `s` that is not a space or tab is a line feed. */
  predicate RunEndsInNewline(s: string) {
    |s| > 0 && (s[0] == '\n' || (IsHSpace(s[0]) && RunEndsInNewline(s[1..])))
  }

  /** `re.sub(r"[ \t]+\n", "\n", t)`: a space or tab is removed exactly when
      the run of spaces and tabs it belongs to ends at a line feed. */
  function DropHSpaceBeforeNewline(s: string): (r: string)
    ensures forall c :: c in r ==> c in s
  {
    if |s| == 0 then []
    else if IsHSpace(s[0]) && RunEndsInNewline(s[1..]) then DropHSpaceBeforeNewline(s[1..])
    else [s[0]] + DropHSpaceBeforeNewline(s[1..])
  }

  /** `re.sub(r"\n{3,}", "\n\n", t)`; `k` counts the line feeds just before
      `s` in the input (at most 2 matter). A line feed is kept while fewer
      than two line feeds precede it in its run. */
  function CollapseNewlines(s: string, k: nat): (r: string)
    ensures forall c :: c in r ==> c in s
  {
    if |s| == 0 then []
    else if s[0] == '\n' then
      if k >= 2 then CollapseNewlines(s[1..], 2) else "\n" + CollapseNewlines(s[1..], k + 1)
    else [s[0]] + CollapseNewlines(s[1..], 0)
  }

  /** `re.sub(r"[ \t]{2,}", " ", t)`; `afterH` says the input character just
      before `s` is a space or tab. A run of two or more becomes one space; a
      single space or tab is left as it is. */
  function CollapseHSpace(s: string, afterH: bool): (r: string)
    ensures forall c :: c in r ==> c in s || c == ' '
  {
    if |s| == 0 then []
    else if IsHSpace(s[0]) then
      if afterH then CollapseHSpace(s[1..], true)
      else if |s| > 1 && IsHSpace(s[1]) then " " + CollapseHSpace(s[1..], true)
      else [s[0]] + CollapseHSpace(s[1..], true)
    else [s[0]] + CollapseHSpace(s[1..], false)
  }

  /** `clean_text`: the empty string stays empty; otherwise line endings are
      unified, trailing spaces and tabs before line feeds removed, runs of
      three or more line feeds cut to two, runs of two or more spaces and
      tabs cut to one space, and the result stripped. */
  function CleanText(text: string): string {
    if |text| == 0 then "" else Strip(Substitute(text))
  }

  /** The four substitutions of `clean_text`, in order, before the strip. */
  function Substitute(text: string): string {
    var t := ReplaceCr(ReplaceCrLf(text));
    CollapseHSpace(CollapseNewlines(DropHSpaceBeforeNewline(t), 0), false)
  }

  // ---------------------------------------------------------------------
  // What a cleaned text looks like
  // ---------------------------------------------------------------------

  ghost predicate NoHSpaceBeforeNewline(s: string) {
    forall i :: 0 <= i < |s| - 1 ==> !(IsHSpace(s[i]) && s[i + 1] == '\n')
  }

  ghost predicate NoNewlineTriple(s: string) {
    forall i :: 0 <= i < |s| - 2 ==> !(s[i] == '\n' && s[i + 1] == '\n' && s[i + 2] == '\n')
  }

  ghost predicate NoHSpacePair(s: string) {
    forall i :: 0 <= i < |s| - 1 ==> !(IsHSpace(s[i]) && IsHSpace(s[i + 1]))
  }

  /** No carriage return, no space or tab before a line feed, no run of three
      line feeds, no run of two spaces or tabs, no whitespace at either end. */
  ghost predicate IsClean(s: string) {
    '\r' !in s && NoHSpaceBeforeNewline(s) && NoNewlineTriple(s) && NoHSpacePair(s) && IsStripped(s)
  }

  /** Length of the run of line feeds that starts `s`. */
  function LeadingNewlines(s: string): (k: nat)
    ensures k <= |s|
    ensures forall i :: 0 <= i < k ==> s[i] == '\n'
    ensures k < |s| ==> s[k] != '\n'
  {
    if |s| == 0 || s[0] != '\n' then 0 else 1 + LeadingNewlines(s[1..])
  }

  // ---------------------------------------------------------------------
  // Each step establishes its property and keeps the earlier ones
  // ---------------------------------------------------------------------

  lemma {:induction false} DropHSpaceEstablishes(s: string)
    ensures NoHSpaceBeforeNewline(DropHSpaceBeforeNewline(s))
  {
    if |s| > 0 {
      DropHSpaceEstablishes(s[1..]);
      var rest := DropHSpaceBeforeNewline(s[1..]);
      if !(IsHSpace(s[0]) && RunEndsInNewline(s[1..])) {
        var r := [s[0]] + rest;
        if IsHSpace(s[0]) && |rest| > 0 {
          // the run after s[0] does not end at a line feed, so its first
          // character is kept and is not a line feed
          assert s[1] != '\n';
          assert rest[0] == s[1];
        }
        assert forall i :: 1 <= i < |r| ==> r[i] == rest[i - 1];
      }
    }
  }

  lemma {:induction false} CollapseNewlinesKeeps(s: string, k: nat)
    requires NoHSpaceBeforeNewline(s)
    ensures NoHSpaceBeforeNewline(CollapseNewlines(s, k))
  {
    if |s| > 0 {
      var k' := if s[0] == '\n' then (if k >= 2 then 2 else k + 1) else 0;
      CollapseNewlinesKeeps(s[1..], k');
      var rest := CollapseNewlines(s[1..], k');
      if !(s[0] == '\n' && k >= 2) {
        var r := [s[0]] + rest;
        if IsHSpace(s[0]) && |rest| > 0 {
          assert s[1] != '\n';
          assert rest[0] == s[1];
        }
        assert forall i :: 1 <= i < |r| ==> r[i] == rest[i - 1];
      }
    }
  }

  /** The collapsed text starts with at most `2 - k` line feeds. */
  lemma {:induction false} CollapseNewlinesLeading(s: string, k: nat)
    requires k <= 2
    ensures LeadingNewlines(CollapseNewlines(s, k)) <= 2 - k
  {
    if |s| > 0 && s[0] == '\n' {
      var k' := if k >= 2 then 2 else k + 1;
      CollapseNewlinesLeading(s[1..], k');
      if k < 2 {
        var rest := CollapseNewlines(s[1..], k');
        assert LeadingNewlines("\n" + rest) == 1 + LeadingNewlines(rest);
      }
    }
  }

  lemma {:induction false} CollapseNewlinesEstablishes(s: string, k: nat)
    requires k <= 2
    ensures NoNewlineTriple(CollapseNewlines(s, k))
  {
    if |s| > 0 {
      var k' := if s[0] == '\n' then (if k >= 2 then 2 else k + 1) else 0;
      CollapseNewlinesEstablishes(s[1..], k');
      var rest := CollapseNewlines(s[1..], k');
      if !(s[0] == '\n' && k >= 2) {
        var r := [s[0]] + rest;
        assert forall i :: 1 <= i < |r| ==> r[i] == rest[i - 1];
        if s[0] == '\n' {
          CollapseNewlinesLeading(s[1..], k');
        }
      }
    }
  }

  /** After a run of spaces and tabs, the collapsed rest starts with neither
      a space, a tab nor (when the input has none there) a line feed. */
  lemma {:induction false} AfterRun(t: string)
    requires NoHSpaceBeforeNewline(t) && (|t| == 0 || t[0] != '\n')
    ensures var r := CollapseHSpace(t, true); |r| == 0 || (!IsHSpace(r[0]) && r[0] != '\n')
  {
    if |t| > 0 && IsHSpace(t[0]) {
      AfterRun(t[1..]);
    }
  }

  lemma {:induction false} CollapseHSpaceEstablishes(s: string, afterH: bool)
    requires NoHSpaceBeforeNewline(s)
    ensures var r := CollapseHSpace(s, afterH); NoHSpacePair(r) && NoHSpaceBeforeNewline(r)
  {
    if |s| > 0 {
      var a' := IsHSpace(s[0]);
      CollapseHSpaceEstablishes(s[1..], a');
      var rest := CollapseHSpace(s[1..], a');
      if !(IsHSpace(s[0]) && afterH) {
        var x := if IsHSpace(s[0]) && |s| > 1 && IsHSpace(s[1]) then ' ' else s[0];
        var r := [x] + rest;
        assert r == CollapseHSpace(s, afterH);
        if IsHSpace(s[0]) {
          AfterRun(s[1..]);
        }
        assert forall i :: 1 <= i < |r| ==> r[i] == rest[i - 1];
      }
    }
  }

  /** Outside a run, collapsing starts with a line feed exactly when the
      input does. */
  lemma CollapseHSpaceFirst(t: string)
    ensures var r := CollapseHSpace(t, false); (|r| > 0 && r[0] == '\n') <==> (|t| > 0 && t[0] == '\n')
  {
  }

  lemma {:induction false} CollapseHSpaceKeepsTriple(s: string, afterH: bool)
    requires NoNewlineTriple(s)
    ensures NoNewlineTriple(CollapseHSpace(s, afterH))
  {
    if |s| > 0 {
      var a' := IsHSpace(s[0]);
      CollapseHSpaceKeepsTriple(s[1..], a');
      var rest := CollapseHSpace(s[1..], a');
      if !(IsHSpace(s[0]) && afterH) {
        var x := if IsHSpace(s[0]) && |s| > 1 && IsHSpace(s[1]) then ' ' else s[0];
        var r := [x] + rest;
        assert r == CollapseHSpace(s, afterH);
        if s[0] == '\n' && |rest| > 1 && rest[0] == '\n' {
          // rest starts with a line feed only if s[1] is one; then its next
          // character is a line feed only if s[2] is one
          CollapseHSpaceFirst(s[1..]);
          assert rest == [s[1]] + CollapseHSpace(s[2..], false);
          CollapseHSpaceFirst(s[2..]);
          assert rest[1] != '\n';
        }
        assert forall i :: 1 <= i < |r| ==> r[i] == rest[i - 1];
      }
    }
  }

  lemma {:induction false} SliceKeeps(s: string, a: int, b: int)
    requires 0 <= a <= b <= |s|
    requires '\r' !in s && NoHSpaceBeforeNewline(s) && NoNewlineTriple(s) && NoHSpacePair(s)
    ensures var t := s[a..b];
      '\r' !in t && NoHSpaceBeforeNewline(t) && NoNewlineTriple(t) && NoHSpacePair(t)
  {
    var t := s[a..b];
    assert forall i :: 0 <= i < |t| ==> t[i] == s[a + i];
  }

  /** `clean_text` produces clean text: no carriage return, no space or tab
      before a line feed, no run of three line feeds, no run of two spaces or
      tabs, and no whitespace at either end. */
  lemma {:induction false} CleanTextIsClean(text: string)
    ensures IsClean(CleanText(text))
  {
    if |text| > 0 {
      SubstituteEstablishes(text);
      StripKeepsClean(Substitute(text));
    }
  }

  /** Stripping keeps the four substitution properties and adds the fifth. */
  lemma {:induction false} StripKeepsClean(t: string)
    requires '\r' !in t && NoHSpaceBeforeNewline(t) && NoNewlineTriple(t) && NoHSpacePair(t)
    ensures IsClean(Strip(t))
  {
    StripSlice(t);
    var u := Strip(t);
    if u != [] {
      var a, b := LeadingSpaces(t), |t| - TrailingSpaces(t);
      SliceKeeps(t, a, b);
      assert u == t[a..b];
      assert IsStripped(u);
    }
  }

  lemma {:induction false} SubstituteEstablishes(text: string)
    ensures var t := Substitute(text);
      '\r' !in t && NoHSpaceBeforeNewline(t) && NoNewlineTriple(t) && NoHSpacePair(t)
  {
    var t1 := ReplaceCr(ReplaceCrLf(text));
    assert '\r' !in t1;
    var t2 := DropHSpaceBeforeNewline(t1);
    DropHSpaceEstablishes(t1);
    var t3 := CollapseNewlines(t2, 0);
    CollapseNewlinesKeeps(t2, 0);
    CollapseNewlinesEstablishes(t2, 0);
    CollapseHSpaceEstablishes(t3, false);
    CollapseHSpaceKeepsTriple(t3, false);
  }

  // ---------------------------------------------------------------------
  // Each step leaves clean text alone, hence idempotence
  // ---------------------------------------------------------------------

  lemma {:induction false} ReplaceCrLfIdentity(s: string)
    requires '\r' !in s
    ensures ReplaceCrLf(s) == s
  {
    if |s| > 0 {
      ReplaceCrLfIdentity(s[1..]);
    }
  }

  lemma {:induction false} DropHSpaceIdentity(s: string)
    requires NoHSpaceBeforeNewline(s) && NoHSpacePair(s)
    ensures DropHSpaceBeforeNewline(s) == s
  {
    if |s| > 0 {
      DropHSpaceIdentity(s[1..]);
      if IsHSpace(s[0]) && |s| > 1 {
        assert !RunEndsInNewline(s[1..]) by {
          assert s[1] != '\n' && !IsHSpace(s[1]);
        }
      }
    }
  }

  lemma {:induction false} NewlineRunAtMostTwo(s: string)
    requires NoNewlineTriple(s)
    ensures LeadingNewlines(s) <= 2
  {
    if |s| > 2 {
      assert !(s[0] == '\n' && s[1] == '\n' && s[2] == '\n');
    }
  }

  lemma {:induction false} CollapseNewlinesIdentity(s: string, k: nat)
    requires NoNewlineTriple(s) && k + LeadingNewlines(s) <= 2
    ensures CollapseNewlines(s, k) == s
  {
    if |s| > 0 {
      if s[0] == '\n' {
        assert LeadingNewlines(s) == 1 + LeadingNewlines(s[1..]);
        CollapseNewlinesIdentity(s[1..], k + 1);
      } else {
        NewlineRunAtMostTwo(s[1..]);
        CollapseNewlinesIdentity(s[1..], 0);
      }
    }
  }

  lemma {:induction false} CollapseHSpaceIdentity(s: string, afterH: bool)
    requires NoHSpacePair(s) && (afterH ==> |s| == 0 || !IsHSpace(s[0]))
    ensures CollapseHSpace(s, afterH) == s
  {
    if |s| > 0 {
      CollapseHSpaceIdentity(s[1..], IsHSpace(s[0]));
    }
  }

  /** Clean text is left unchanged by `clean_text`. */
  lemma {:induction false} CleanTextIdentity(t: string)
    requires IsClean(t)
    ensures CleanText(t) == t
  {
    if |t| > 0 {
      ReplaceCrLfIdentity(t);
      assert ReplaceCr(t) == t;
      DropHSpaceIdentity(t);
      NewlineRunAtMostTwo(t);
      CollapseNewlinesIdentity(t, 0);
      CollapseHSpaceIdentity(t, false);
      StripIdentity(t);
    }
  }

  /** Applying `clean_text` twice is the same as applying it once. */
  lemma {:induction false} CleanTextIdempotent(text: string)
    ensures CleanText(CleanText(text)) == CleanText(text)
  {
    CleanTextIsClean(text);
    CleanTextIdentity(CleanText(text));
  }

  // ---------------------------------------------------------------------
  // chunk_text
  // ---------------------------------------------------------------------

  datatype ChunkError = ChunkSizeTooSmall | NegativeOverlap | OverlapTooLarge | InvalidChunkMeta

  /** One emitted chunk with its metadata. */
  datatype ChunkPair = ChunkPair(chunk: Chunk, meta: ChunkMeta)

  /** The configuration errors, in the order the source checks them. */
  function ConfigError(chunkSize: int, overlap: int): Option<ChunkError> {
    if chunkSize < 50 then Some(ChunkSizeTooSmall)
    else if overlap < 0 then Some(NegativeOverlap)
    else if overlap >= chunkSize then Some(OverlapTooLarge)
    else None
  }

  /** A chunk numbered `id` as `chunk_text` emits it: it carries the caller's
      document id, source, page and path; its offsets satisfy
      `0 <= start < end <= |cleaned|` and span at most `chunkSize`
      characters; its text is exactly that slice of the cleaned text and has
      no whitespace at either end. */
  ghost predicate ChunkPlaced(c: ChunkPair, id: int, cleaned: string, chunkSize: int,
                              docId: string, source: SourceType, page: Option<int>, path: Option<string>)
  {
    var m := c.meta;
    m == ChunkMeta(docId, source, id, m.startChar, m.endChar, page, path)
    && 0 <= m.startChar < m.endChar <= |cleaned|
    && m.endChar - m.startChar <= chunkSize
    && c.chunk.text == cleaned[m.startChar..m.endChar]
    && IsStripped(c.chunk.text)
  }

  /** The chunk at position `j` of the output is placed and numbered `j`. */
  ghost predicate ChunkAt(out: seq<ChunkPair>, j: int, cleaned: string, chunkSize: int,
                          docId: string, source: SourceType, page: Option<int>, path: Option<string>)
    requires 0 <= j < |out|
  {
    ChunkPlaced(out[j], j, cleaned, chunkSize, docId, source, page, path)
  }

  /** Position `p` lies inside some emitted window `[startChar, endChar)`. */
  ghost predicate Covered(out: seq<ChunkPair>, p: int) {
    exists j :: 0 <= j < |out| && out[j].meta.startChar <= p < out[j].meta.endChar
  }

  /** Chunks appear in order of their start offsets. */
  ghost predicate StartsSorted(out: seq<ChunkPair>) {
    forall j, k :: 0 <= j < k < |out| ==> out[j].meta.startChar <= out[k].meta.startChar
  }

  /** What `chunk_text` promises of a successful result: each chunk placed
      as `ChunkAt` says and valid by the record constraints, chunks in order
      of their start, every non-whitespace character of the cleaned text
      inside some chunk. */
  ghost predicate WellChunked(out: seq<ChunkPair>, cleaned: string, chunkSize: int,
                              docId: string, source: SourceType, page: Option<int>, path: Option<string>)
  {
    && (forall j :: 0 <= j < |out| ==> ChunkAt(out, j, cleaned, chunkSize, docId, source, page, path))
    && (forall j :: 0 <= j < |out| ==> ValidChunk(out[j].chunk) && ValidChunkMeta(out[j].meta))
    && StartsSorted(out)
    && (forall p :: 0 <= p < |cleaned| && !IsSpace(cleaned[p]) ==> Covered(out, p))
  }

  /** The record constraints a chunk's metadata can fail, given that its
      number and offsets are never negative: the document id is empty or the
      page is below 1. */
  predicate MetaAccepted(docId: string, page: Option<int>) {
    |docId| >= 1 && ValidPage(page)
  }

  /** `min(n, start + chunkSize)`: where the window starting at `start` ends. */
  function WindowEnd(n: int, start: int, chunkSize: int): int {
    if n < start + chunkSize then n else start + chunkSize
  }

  /** The chunk the window `[start, end)` yields, numbered `id`: the window
      trimmed of whitespace at both ends, with its offsets in the cleaned
      text; nothing for a window of whitespace only. Its metadata is valid
      exactly when the document id and page are. */
  function WindowAt(cleaned: string, start: int, end: int, id: int, docId: string,
                    source: SourceType, page: Option<int>, path: Option<string>): (x: Option<ChunkPair>)
    requires 0 <= start <= end <= |cleaned|
    ensures id >= 0 && x.Some? ==> (ValidChunkMeta(x.value.meta) <==> MetaAccepted(docId, page))
  {
    var a := SkipSpaces(cleaned, start, end);
    if a < end then
      var b := TrimEnd(cleaned, a, end);
      Some(ChunkPair(Chunk(cleaned[a..b]), ChunkMeta(docId, source, id, a, b, page, path)))
    else None
  }

  /** The chunks the windowing loop of `chunk_text` builds from the window
      starting at `start` on, the first of them numbered `id`. A window of
      `chunkSize` characters yields its `WindowAt` chunk, if any, and only
      then uses up a number; the next window starts `chunkSize - overlap`
      characters later, unless this one reached the end of the text. */
  ghost function WindowChunks(cleaned: string, start: nat, id: nat, chunkSize: int, overlap: int,
                              docId: string, source: SourceType, page: Option<int>, path: Option<string>)
    : seq<ChunkPair>
    requires 0 <= overlap < chunkSize
    decreases |cleaned| - start, 1
  {
    if start >= |cleaned| then []
    else WindowChunksFrom(cleaned, start, id, chunkSize, overlap, docId, source, page, path)
  }

  /** `WindowChunks` at a window that starts inside the text. */
  ghost function WindowChunksFrom(cleaned: string, start: nat, id: nat, chunkSize: int, overlap: int,
                                  docId: string, source: SourceType, page: Option<int>, path: Option<string>)
    : seq<ChunkPair>
    requires 0 <= overlap < chunkSize && start < |cleaned|
    decreases |cleaned| - start, 0, 1
  {
    WindowChunksEmit(cleaned, start, WindowEnd(|cleaned|, start, chunkSize), id, chunkSize, overlap,
                     docId, source, page, path)
  }

  /** The window `[start, end)` yields its chunk, if any, followed by the
      chunks of the windows after it unless it reached the end of the text. */
  ghost function WindowChunksEmit(cleaned: string, start: nat, end: int, id: nat, chunkSize: int, overlap: int,
                                  docId: string, source: SourceType, page: Option<int>, path: Option<string>)
    : seq<ChunkPair>
    requires 0 <= overlap < chunkSize && start < |cleaned| && end == WindowEnd(|cleaned|, start, chunkSize)
    decreases |cleaned| - start, 0, 0
  {
    var x := WindowAt(cleaned, start, end, id, docId, source, page, path);
    var head := if x.Some? then [x.value] else [];
    if end >= |cleaned| then head
    else head + WindowChunks(cleaned, start + (chunkSize - overlap), id + |head|,
                             chunkSize, overlap, docId, source, page, path)
  }

  /** The outcome of the windowing loop: its chunks, unless there is one and
      building its metadata record raises, which the first one then does. */
  ghost function WindowOutcome(cleaned: string, chunkSize: int, overlap: int,
                               docId: string, source: SourceType, page: Option<int>, path: Option<string>)
    : Result<seq<ChunkPair>, ChunkError>
    requires 0 <= overlap < chunkSize
  {
    var all := WindowChunks(cleaned, 0, 0, chunkSize, overlap, docId, source, page, path);
    if all != [] && !MetaAccepted(docId, page) then Failure(InvalidChunkMeta) else Success(all)
  }

  /** The windowing loop of `chunk_text` run from the window starting at
      `start`, with `out` emitted so far and `id` the next chunk number: each
      window's `WindowAt` chunk, if any, is appended unless its metadata
      record fails validation, which ends the loop with `InvalidChunkMeta`;
      the loop stops after the window that reaches the end of the text. */
  ghost function WindowLoop(cleaned: string, start: nat, id: nat, out: seq<ChunkPair>,
                            chunkSize: int, overlap: int, docId: string, source: SourceType,
                            page: Option<int>, path: Option<string>): Result<seq<ChunkPair>, ChunkError>
    requires 0 <= overlap < chunkSize
    decreases |cleaned| - start, 1
  {
    if start >= |cleaned| then Success(out)
    else WindowLoopTurn(cleaned, start, id, out, chunkSize, overlap, docId, source, page, path)
  }

  /** One turn of `WindowLoop` at a window that starts inside the text: the
      window ends `chunkSize` characters later or at the end of the text. */
  ghost function WindowLoopTurn(cleaned: string, start: nat, id: nat, out: seq<ChunkPair>,
                                chunkSize: int, overlap: int, docId: string, source: SourceType,
                                page: Option<int>, path: Option<string>): Result<seq<ChunkPair>, ChunkError>
    requires 0 <= overlap < chunkSize && start < |cleaned|
    decreases |cleaned| - start, 0, 1
  {
    WindowLoopEmit(cleaned, start, WindowEnd(|cleaned|, start, chunkSize), id, out,
                   chunkSize, overlap, docId, source, page, path)
  }

  /** The window `[start, end)` emits its chunk, if it has one, and the loop
      goes on unless this window reached the end of the text. */
  ghost function WindowLoopEmit(cleaned: string, start: nat, end: int, id: nat, out: seq<ChunkPair>,
                                chunkSize: int, overlap: int, docId: string, source: SourceType,
                                page: Option<int>, path: Option<string>): Result<seq<ChunkPair>, ChunkError>
    requires 0 <= overlap < chunkSize && start < |cleaned| && end == WindowEnd(|cleaned|, start, chunkSize)
    decreases |cleaned| - start, 0, 0
  {
    var x := WindowAt(cleaned, start, end, id, docId, source, page, path);
    if x.Some? && !ValidChunkMeta(x.value.meta) then Failure(InvalidChunkMeta)
    else
      var out2 := if x.Some? then out + [x.value] else out;
      var id2 := if x.Some? then id + 1 else id;
      if end >= |cleaned| then Success(out2)
      else WindowLoop(cleaned, start + (chunkSize - overlap), id2, out2,
                      chunkSize, overlap, docId, source, page, path)
  }

  /** One window of `WindowChunks`: its chunk, if any, then the chunks of the
      windows after it unless it reached the end of the text. */
  lemma WindowChunksStep(cleaned: string, start: nat, id: nat, chunkSize: int, overlap: int,
                         docId: string, source: SourceType, page: Option<int>, path: Option<string>,
                         end: int, next: nat, head: seq<ChunkPair>)
    requires 0 <= overlap < chunkSize && start < |cleaned| && end == WindowEnd(|cleaned|, start, chunkSize)
    requires next == start + (chunkSize - overlap)
    requires var x := WindowAt(cleaned, start, end, id, docId, source, page, path);
      head == if x.Some? then [x.value] else []
    ensures WindowChunks(cleaned, start, id, chunkSize, overlap, docId, source, page, path)
            == if end >= |cleaned| then head
               else head + WindowChunks(cleaned, next, id + |head|, chunkSize, overlap, docId, source, page, path)
  {
    assert WindowChunks(cleaned, start, id, chunkSize, overlap, docId, source, page, path)
           == WindowChunksFrom(cleaned, start, id, chunkSize, overlap, docId, source, page, path)
           == WindowChunksEmit(cleaned, start, end, id, chunkSize, overlap, docId, source, page, path);
  }

  /** One turn of `WindowLoop`. */
  lemma WindowLoopStep(cleaned: string, start: nat, id: nat, out: seq<ChunkPair>,
                       chunkSize: int, overlap: int, docId: string, source: SourceType,
                       page: Option<int>, path: Option<string>,
                       end: int, next: nat, x: Option<ChunkPair>, out2: seq<ChunkPair>, id2: nat)
    requires 0 <= overlap < chunkSize && start < |cleaned| && end == WindowEnd(|cleaned|, start, chunkSize)
    requires next == start + (chunkSize - overlap)
    requires x == WindowAt(cleaned, start, end, id, docId, source, page, path)
    requires out2 == (if x.Some? then out + [x.value] else out) && id2 == (if x.Some? then id + 1 else id)
    ensures x.Some? && !ValidChunkMeta(x.value.meta)
            ==> WindowLoop(cleaned, start, id, out, chunkSize, overlap, docId, source, page, path)
                == Failure(InvalidChunkMeta)
    ensures !(x.Some? && !ValidChunkMeta(x.value.meta)) && end >= |cleaned|
            ==> WindowLoop(cleaned, start, id, out, chunkSize, overlap, docId, source, page, path) == Success(out2)
    ensures !(x.Some? && !ValidChunkMeta(x.value.meta)) && end < |cleaned|
            ==> WindowLoop(cleaned, start, id, out, chunkSize, overlap, docId, source, page, path)
                == WindowLoop(cleaned, next, id2, out2, chunkSize, overlap, docId, source, page, path)
  {
    assert WindowLoop(cleaned, start, id, out, chunkSize, overlap, docId, source, page, path)
           == WindowLoopTurn(cleaned, start, id, out, chunkSize, overlap, docId, source, page, path)
           == WindowLoopEmit(cleaned, start, end, id, out, chunkSize, overlap, docId, source, page, path);
  }

  /** The loop from any state ends with what was emitted followed by the
      chunks of the remaining windows, or fails exactly when one of those
      remains and the document id or page is rejected. */
  lemma {:induction false} WindowLoopChunks(cleaned: string, start: nat, id: nat, out: seq<ChunkPair>,
                                            chunkSize: int, overlap: int, docId: string, source: SourceType,
                                            page: Option<int>, path: Option<string>)
    requires 0 <= overlap < chunkSize
    ensures var rest := WindowChunks(cleaned, start, id, chunkSize, overlap, docId, source, page, path);
      WindowLoop(cleaned, start, id, out, chunkSize, overlap, docId, source, page, path)
      == if rest != [] && !MetaAccepted(docId, page) then Failure(InvalidChunkMeta) else Success(out + rest)
    decreases |cleaned| - start, 1
  {
    if start >= |cleaned| {
      var rest := WindowChunks(cleaned, start, id, chunkSize, overlap, docId, source, page, path);
      assert out + rest == out;
    } else {
      var end := WindowEnd(|cleaned|, start, chunkSize);
      var x := WindowAt(cleaned, start, end, id, docId, source, page, path);
      if x.Some? && !ValidChunkMeta(x.value.meta) {
        WindowLoopChunksReject(cleaned, start, id, out, chunkSize, overlap, docId, source, page, path, end, x);
      } else {
        WindowLoopChunksAccept(cleaned, start, id, out, chunkSize, overlap, docId, source, page, path, end, x);
      }
    }
  }

  /** The induction step when the window's chunk is rejected. */
  lemma WindowLoopChunksReject(cleaned: string, start: nat, id: nat, out: seq<ChunkPair>,
                               chunkSize: int, overlap: int, docId: string, source: SourceType,
                               page: Option<int>, path: Option<string>, end: int, x: Option<ChunkPair>)
    requires 0 <= overlap < chunkSize && start < |cleaned| && end == WindowEnd(|cleaned|, start, chunkSize)
    requires x == WindowAt(cleaned, start, end, id, docId, source, page, path)
    requires x.Some? && !ValidChunkMeta(x.value.meta)
    ensures var rest := WindowChunks(cleaned, start, id, chunkSize, overlap, docId, source, page, path);
      WindowLoop(cleaned, start, id, out, chunkSize, overlap, docId, source, page, path)
      == if rest != [] && !MetaAccepted(docId, page) then Failure(InvalidChunkMeta) else Success(out + rest)
  {
    var next := start + (chunkSize - overlap);
    WindowChunksStep(cleaned, start, id, chunkSize, overlap, docId, source, page, path, end, next, [x.value]);
    WindowLoopStep(cleaned, start, id, out, chunkSize, overlap, docId, source, page, path, end, next, x,
                   out + [x.value], id + 1);
  }

  /** The induction step when the window yields no chunk or an accepted one. */
  lemma {:induction false} WindowLoopChunksAccept(cleaned: string, start: nat, id: nat, out: seq<ChunkPair>,
                               chunkSize: int, overlap: int, docId: string, source: SourceType,
                               page: Option<int>, path: Option<string>, end: int, x: Option<ChunkPair>)
    requires 0 <= overlap < chunkSize && start < |cleaned| && end == WindowEnd(|cleaned|, start, chunkSize)
    requires x == WindowAt(cleaned, start, end, id, docId, source, page, path)
    requires x.Some? ==> ValidChunkMeta(x.value.meta)
    ensures var rest := WindowChunks(cleaned, start, id, chunkSize, overlap, docId, source, page, path);
      WindowLoop(cleaned, start, id, out, chunkSize, overlap, docId, source, page, path)
      == if rest != [] && !MetaAccepted(docId, page) then Failure(InvalidChunkMeta) else Success(out + rest)
    decreases |cleaned| - start, 0
  {
    var next := start + (chunkSize - overlap);
    var head := if x.Some? then [x.value] else [];
    var out2 := out + head;
    var id2 := id + |head|;
    WindowChunksStep(cleaned, start, id, chunkSize, overlap, docId, source, page, path, end, next, head);
    WindowLoopStep(cleaned, start, id, out, chunkSize, overlap, docId, source, page, path, end, next, x, out2, id2);
    if end < |cleaned| {
      var tail := WindowChunks(cleaned, next, id2, chunkSize, overlap, docId, source, page, path);
      WindowLoopChunks(cleaned, next, id2, out2, chunkSize, overlap, docId, source, page, path);
      AppendAssoc(out, head, tail);
    }
  }

  lemma WindowLoopOutcome(cleaned: string, chunkSize: int, overlap: int, docId: string,
                          source: SourceType, page: Option<int>, path: Option<string>)
    requires 0 <= overlap < chunkSize
    ensures WindowLoop(cleaned, 0, 0, [], chunkSize, overlap, docId, source, page, path)
            == WindowOutcome(cleaned, chunkSize, overlap, docId, source, page, path)
  {
    WindowLoopChunks(cleaned, 0, 0, [], chunkSize, overlap, docId, source, page, path);
    assert [] + WindowChunks(cleaned, 0, 0, chunkSize, overlap, docId, source, page, path)
           == WindowChunks(cleaned, 0, 0, chunkSize, overlap, docId, source, page, path);
  }

  /** The windowing loop of `chunk_text`, which `WindowLoop` describes turn
      by turn. */
  method Windows(cleaned: string, docId: string, source: SourceType, chunkSize: int, overlap: int,
                 path: Option<string>, page: Option<int>)
    returns (res: Result<seq<ChunkPair>, ChunkError>)
    requires 0 <= overlap < chunkSize
    ensures res == WindowLoop(cleaned, 0, 0, [], chunkSize, overlap, docId, source, page, path)
  {
    var out: seq<ChunkPair> := [];
    var step: nat := chunkSize - overlap;
    var start: nat := 0;
    var chunkId: nat := 0;

    while start < |cleaned|
      invariant WindowLoop(cleaned, start, chunkId, out, chunkSize, overlap, docId, source, page, path)
                == WindowLoop(cleaned, 0, 0, [], chunkSize, overlap, docId, source, page, path)
      decreases |cleaned| - start
    {
      var stop;
      stop, res, out, chunkId := WindowStep(cleaned, start, chunkId, out, chunkSize, overlap, docId, source, page, path);
      if stop {
        return;
      }
      start := start + step;
    }
    return Success(out);
  }

  /** One turn of the windowing loop from window `start`: emit the window's
      chunk if it has one, then either stop with the loop's result or go on
      to the next window with the new output and chunk id. */
  method WindowStep(cleaned: string, start: nat, chunkId: nat, out: seq<ChunkPair>, chunkSize: int, overlap: int,
                    docId: string, source: SourceType, page: Option<int>, path: Option<string>)
    returns (stop: bool, res: Result<seq<ChunkPair>, ChunkError>, out2: seq<ChunkPair>, id2: nat)
    requires 0 <= overlap < chunkSize && start < |cleaned|
    ensures stop ==> res == WindowLoop(cleaned, start, chunkId, out, chunkSize, overlap, docId, source, page, path)
    ensures !stop ==> start + (chunkSize - overlap) < |cleaned|
    ensures !stop ==> WindowLoop(cleaned, start + (chunkSize - overlap), id2, out2, chunkSize, overlap,
                                 docId, source, page, path)
                      == WindowLoop(cleaned, start, chunkId, out, chunkSize, overlap, docId, source, page, path)
  {
    var n := |cleaned|;
    var end := if n < start + chunkSize then n else start + chunkSize;
    var x := WindowTurn(cleaned, start, end, chunkId, docId, source, page, path);
    out2, id2 := out, chunkId;
    if x.Some? {
      out2, id2 := out + [x.value], chunkId + 1;
    }
    WindowLoopStep(cleaned, start, chunkId, out, chunkSize, overlap, docId, source, page, path,
                   end, start + (chunkSize - overlap), x, out2, id2);
    if x.Some? && !ValidChunkMeta(x.value.meta) {
      return true, Failure(InvalidChunkMeta), out2, id2;
    }
    if end >= n {
      return true, Success(out2), out2, id2;
    }
    stop, res := false, Success(out2);
  }

  /** The body of the windowing loop up to the metadata check: strip the
      window `cleaned[start:end]` and, when something is left, find its
      offsets from what `lstrip` and `rstrip` remove. This is `WindowAt`. */
  method WindowTurn(cleaned: string, start: int, end: int, chunkId: int, docId: string,
                    source: SourceType, page: Option<int>, path: Option<string>)
    returns (x: Option<ChunkPair>)
    requires 0 <= start <= end <= |cleaned|
    ensures x == WindowAt(cleaned, start, end, chunkId, docId, source, page, path)
  {
    var window := cleaned[start..end];
    var chunkStr := Strip(window);
    if |chunkStr| > 0 {
      var leftTrim := |window| - |LStrip(window)|;
      var rightTrim := |window| - |RStrip(window)|;
      var realStart := start + leftTrim;
      var realEnd := end - rightTrim;
      WindowChunkAt(cleaned, start, end, chunkId, docId, source, page, path, leftTrim, rightTrim);
      x := Some(ChunkPair(Chunk(chunkStr), ChunkMeta(docId, source, chunkId, realStart, realEnd, page, path)));
    } else {
      WindowBlank(cleaned, start, end);
      x := None;
    }
  }

  /** A window that is not blank yields its stripped text, placed by the
      lengths the two one-sided strips remove. */
  lemma WindowChunkAt(cleaned: string, start: int, end: int, chunkId: int, docId: string,
                      source: SourceType, page: Option<int>, path: Option<string>, leftTrim: int, rightTrim: int)
    requires 0 <= start <= end <= |cleaned| && |Strip(cleaned[start..end])| > 0
    requires leftTrim == |cleaned[start..end]| - |LStrip(cleaned[start..end])|
    requires rightTrim == |cleaned[start..end]| - |RStrip(cleaned[start..end])|
    ensures WindowAt(cleaned, start, end, chunkId, docId, source, page, path)
            == Some(ChunkPair(Chunk(Strip(cleaned[start..end])),
                              ChunkMeta(docId, source, chunkId, start + leftTrim, end - rightTrim, page, path)))
  {
    var w := cleaned[start..end];
    var a := SkipSpaces(cleaned, start, end);
    WindowBlank(cleaned, start, end);
    WindowTrim(cleaned, start, end);
    TrimLengths(w);
    var b := TrimEnd(cleaned, a, end);
    assert start + leftTrim == a && end - rightTrim == b && Strip(w) == cleaned[a..b];
  }

  /** Stripping the window `[start, end)` leaves nothing exactly when the
      window holds only whitespace. */
  lemma {:induction false} WindowBlank(cleaned: string, start: int, end: int)
    requires 0 <= start <= end <= |cleaned|
    ensures Strip(cleaned[start..end]) == [] <==> SkipSpaces(cleaned, start, end) == end
  {
    var w, a := cleaned[start..end], SkipSpaces(cleaned, start, end);
    SkipSpacesSpec(cleaned, start, end);
    StripSlice(w);
    if a == end {
      forall i | 0 <= i < |w| ensures IsSpace(w[i]) {
        assert w[i] == cleaned[start + i];
      }
    } else {
      assert w[a - start] == cleaned[a];
    }
  }

  /** Stripping a window that is not all whitespace leaves the slice between
      its first and one past its last non-whitespace position; what `lstrip`
      and `rstrip` remove is what lies outside it. */
  lemma {:induction false} WindowTrim(cleaned: string, start: int, end: int)
    requires 0 <= start <= end <= |cleaned| && SkipSpaces(cleaned, start, end) < end
    ensures var w, a := cleaned[start..end], SkipSpaces(cleaned, start, end);
      var b := TrimEnd(cleaned, a, end);
      && start + LeadingSpaces(w) == a && end - TrailingSpaces(w) == b
      && Strip(w) == cleaned[a..b]
  {
    var w := cleaned[start..end];
    WindowBlank(cleaned, start, end);
    var l, t := LeadingSpaces(w), TrailingSpaces(w);
    TrimWindow(cleaned, start, end, l, t);
    assert !IsSpace(cleaned[start + l]) by {
      assert cleaned[start + l] == w[l];
    }
    assert !IsSpace(cleaned[end - t - 1]) by {
      assert cleaned[end - t - 1] == w[|w| - 1 - t];
    }
    SkipSpacesAt(cleaned, start, end, start + l);
    TrimEndAt(cleaned, start + l, end, end - t);
  }

  /** Trimming a window of the cleaned text: when something is left, it is
      the slice between the whitespace runs at the window's two ends. */
  lemma {:induction false} TrimWindow(cleaned: string, start: int, end: int, l: int, t: int)
    requires 0 <= start <= end <= |cleaned| && Strip(cleaned[start..end]) != []
    requires l == LeadingSpaces(cleaned[start..end]) && t == TrailingSpaces(cleaned[start..end])
    ensures start <= start + l < end - t <= end
    ensures Strip(cleaned[start..end]) == cleaned[start + l..end - t]
    ensures IsStripped(cleaned[start + l..end - t])
    ensures AllSpace(cleaned, start, start + l) && AllSpace(cleaned, end - t, end)
  {
    StripSlice(cleaned[start..end]);
    LeadingSpacesSpec(cleaned[start..end]);
    TrailingSpacesSpec(cleaned[start..end]);
    TrimSlice(cleaned, start, end, l, t);
    TrimSpaces(cleaned, start, end, l, t);
  }

  /** The lengths `clean_text`'s caller subtracts are the whitespace runs. */
  lemma TrimLengths(w: string)
    ensures |w| - |LStrip(w)| == LeadingSpaces(w)
    ensures |w| - |RStrip(w)| == TrailingSpaces(w)
  {
  }

  lemma {:induction false} TrimSlice(cleaned: string, start: int, end: int, l: int, t: int)
    requires 0 <= start <= end <= |cleaned| && 0 <= l && 0 <= t && l + t < end - start
    requires Strip(cleaned[start..end]) == cleaned[start..end][l..end - start - t]
    ensures Strip(cleaned[start..end]) == cleaned[start + l..end - t]
  {
    SliceOfSlice(cleaned, start, end, l, end - start - t);
  }

  lemma {:induction false} TrimSpaces(cleaned: string, start: int, end: int, l: int, t: int)
    requires 0 <= start <= end <= |cleaned| && 0 <= l && 0 <= t && l + t <= end - start
    requires AllSpace(cleaned[start..end], 0, l)
    requires AllSpace(cleaned[start..end], end - start - t, end - start)
    ensures AllSpace(cleaned, start, start + l) && AllSpace(cleaned, end - t, end)
  {
    var w := cleaned[start..end];
    forall p | start <= p < start + l ensures IsSpace(cleaned[p]) {
      assert cleaned[p] == w[p - start];
    }
    forall p | end - t <= p < end ensures IsSpace(cleaned[p]) {
      assert cleaned[p] == w[p - start];
    }
  }

  lemma SliceOfSlice(s: string, i: int, j: int, k: int, l: int)
    requires 0 <= i <= j <= |s| && 0 <= k <= l <= j - i
    ensures s[i..j][k..l] == s[i + k..i + l]
  {
    var u, v := s[i..j][k..l], s[i + k..i + l];
    forall x | 0 <= x < |u| ensures u[x] == v[x] {
      assert u[x] == s[i + k + x];
    }
  }


  // ---------------------------------------------------------------------
  // What the windows are
  // ---------------------------------------------------------------------

  /** Each chunk of `out` is placed, numbered from `id` on, starts at or after
      `start` and starts on a character that is not whitespace. */
  ghost predicate PlacedFrom(out: seq<ChunkPair>, id: int, start: int, cleaned: string, chunkSize: int,
                             docId: string, source: SourceType, page: Option<int>, path: Option<string>)
  {
    forall j :: 0 <= j < |out| ==>
      && ChunkPlaced(out[j], id + j, cleaned, chunkSize, docId, source, page, path)
      && start <= out[j].meta.startChar
      && !IsSpace(cleaned[out[j].meta.startChar])
  }

  /** The window `[start, end)` of at most `chunkSize` characters yields no
      chunk exactly when it is all whitespace; its chunk is placed inside the
      window, and only whitespace of the window lies outside it. */
  lemma WindowAtPlaced(cleaned: string, start: int, end: int, id: nat, chunkSize: int,
                       docId: string, source: SourceType, page: Option<int>, path: Option<string>)
    requires 0 <= start <= end <= |cleaned| && end - start <= chunkSize
    ensures var x := WindowAt(cleaned, start, end, id, docId, source, page, path);
      && (x.None? <==> AllSpace(cleaned, start, end))
      && (x.Some? ==>
            && ChunkPlaced(x.value, id, cleaned, chunkSize, docId, source, page, path)
            && start <= x.value.meta.startChar && x.value.meta.endChar <= end
            && !IsSpace(cleaned[x.value.meta.startChar])
            && AllSpace(cleaned, start, x.value.meta.startChar)
            && AllSpace(cleaned, x.value.meta.endChar, end))
  {
    var a := SkipSpaces(cleaned, start, end);
    SkipSpacesSpec(cleaned, start, end);
    if a < end {
      var b := TrimEnd(cleaned, a, end);
      TrimEndSpec(cleaned, a, end);
      assert a < b;
      var w := cleaned[a..b];
      assert w[0] == cleaned[a] && w[|w| - 1] == cleaned[b - 1];
    }
  }

  /** Every chunk the windows from `start` on yield is placed, numbered in
      output order from `id`, and starts on non-whitespace at or after
      `start`. */
  lemma {:induction false} WindowsPlaced(cleaned: string, start: nat, id: nat, chunkSize: int, overlap: int,
                                         docId: string, source: SourceType, page: Option<int>, path: Option<string>)
    requires 0 <= overlap < chunkSize
    ensures PlacedFrom(WindowChunks(cleaned, start, id, chunkSize, overlap, docId, source, page, path),
                       id, start, cleaned, chunkSize, docId, source, page, path)
    decreases |cleaned| - start
  {
    if start < |cleaned| {
      var end := WindowEnd(|cleaned|, start, chunkSize);
      var next := start + (chunkSize - overlap);
      var x := WindowAt(cleaned, start, end, id, docId, source, page, path);
      var head := if x.Some? then [x.value] else [];
      WindowHeadPlaced(cleaned, start, end, id, chunkSize, docId, source, page, path, head);
      WindowChunksStep(cleaned, start, id, chunkSize, overlap, docId, source, page, path, end, next, head);
      if end < |cleaned| {
        var rest := WindowChunks(cleaned, next, id + |head|, chunkSize, overlap, docId, source, page, path);
        WindowsPlaced(cleaned, next, id + |head|, chunkSize, overlap, docId, source, page, path);
        WindowsPlacedJoin(cleaned, start, next, id, chunkSize, docId, source, page, path, head, rest);
      }
    }
  }

  /** The window's chunk, if any, is placed. */
  lemma WindowHeadPlaced(cleaned: string, start: int, end: int, id: nat, chunkSize: int,
                         docId: string, source: SourceType, page: Option<int>, path: Option<string>,
                         head: seq<ChunkPair>)
    requires 0 <= start <= end <= |cleaned| && end - start <= chunkSize
    requires var x := WindowAt(cleaned, start, end, id, docId, source, page, path);
      head == if x.Some? then [x.value] else []
    ensures PlacedFrom(head, id, start, cleaned, chunkSize, docId, source, page, path)
  {
    WindowAtPlaced(cleaned, start, end, id, chunkSize, docId, source, page, path);
  }

  /** A placed first chunk followed by chunks placed from the next window. */
  lemma WindowsPlacedJoin(cleaned: string, start: int, next: int, id: int, chunkSize: int,
                          docId: string, source: SourceType, page: Option<int>, path: Option<string>,
                          head: seq<ChunkPair>, rest: seq<ChunkPair>)
    requires start <= next && |head| <= 1
    requires PlacedFrom(head, id, start, cleaned, chunkSize, docId, source, page, path)
    requires PlacedFrom(rest, id + |head|, next, cleaned, chunkSize, docId, source, page, path)
    ensures PlacedFrom(head + rest, id, start, cleaned, chunkSize, docId, source, page, path)
  {
    var wc := head + rest;
    forall j | 0 <= j < |wc|
      ensures ChunkPlaced(wc[j], id + j, cleaned, chunkSize, docId, source, page, path)
      ensures start <= wc[j].meta.startChar && !IsSpace(cleaned[wc[j].meta.startChar])
    {
      if j >= |head| {
        assert wc[j] == rest[j - |head|];
      }
    }
  }

  /** The chunks the windows from `start` on yield appear in order of their
      start offsets. A window's chunk may start after the next window does,
      when whitespace fills the gap, but then the next window's chunk starts
      at the same character. */
  lemma {:induction false} WindowsSorted(cleaned: string, start: nat, id: nat, chunkSize: int, overlap: int,
                                         docId: string, source: SourceType, page: Option<int>, path: Option<string>)
    requires 0 <= overlap < chunkSize
    ensures StartsSorted(WindowChunks(cleaned, start, id, chunkSize, overlap, docId, source, page, path))
    decreases |cleaned| - start
  {
    if start < |cleaned| {
      var end := WindowEnd(|cleaned|, start, chunkSize);
      var next := start + (chunkSize - overlap);
      var x := WindowAt(cleaned, start, end, id, docId, source, page, path);
      var head := if x.Some? then [x.value] else [];
      WindowChunksStep(cleaned, start, id, chunkSize, overlap, docId, source, page, path, end, next, head);
      if end < |cleaned| {
        WindowsSorted(cleaned, next, id + |head|, chunkSize, overlap, docId, source, page, path);
        if x.Some? {
          SortedJoin(cleaned, start, end, next, id, chunkSize, overlap, docId, source, page, path);
        }
      }
    }
  }

  /** The chunk of the window `[start, end)` starts on its first
      non-whitespace character, so no later than the chunks of the windows
      from `next >= start` on, which start on non-whitespace at or after
      `next`. */
  lemma SortedJoin(cleaned: string, start: int, end: int, next: nat, id: nat, chunkSize: int, overlap: int,
                   docId: string, source: SourceType, page: Option<int>, path: Option<string>)
    requires 0 <= start <= end <= |cleaned| && end - start <= chunkSize && start <= next
    requires 0 <= overlap < chunkSize
    requires WindowAt(cleaned, start, end, id, docId, source, page, path).Some?
    requires StartsSorted(WindowChunks(cleaned, next, id + 1, chunkSize, overlap, docId, source, page, path))
    ensures StartsSorted([WindowAt(cleaned, start, end, id, docId, source, page, path).value]
                         + WindowChunks(cleaned, next, id + 1, chunkSize, overlap, docId, source, page, path))
  {
    var c := WindowAt(cleaned, start, end, id, docId, source, page, path).value;
    var rest := WindowChunks(cleaned, next, id + 1, chunkSize, overlap, docId, source, page, path);
    WindowsPlaced(cleaned, next, id + 1, chunkSize, overlap, docId, source, page, path);
    WindowAtPlaced(cleaned, start, end, id, chunkSize, docId, source, page, path);
    SortedCons(cleaned, start, next, c, rest, id + 1, chunkSize, docId, source, page, path);
  }

  /** A chunk that starts at or after `start`, with only whitespace between
      `start` and its start, sorts before chunks that start on
      non-whitespace at or after `next >= start`. */
  lemma SortedCons(cleaned: string, start: int, next: int, c: ChunkPair, rest: seq<ChunkPair>,
                   id2: int, chunkSize: int, docId: string, source: SourceType, page: Option<int>, path: Option<string>)
    requires 0 <= start <= next && start <= c.meta.startChar <= |cleaned|
    requires AllSpace(cleaned, start, c.meta.startChar)
    requires StartsSorted(rest) && PlacedFrom(rest, id2, next, cleaned, chunkSize, docId, source, page, path)
    ensures StartsSorted([c] + rest)
  {
    var wc := [c] + rest;
    forall j, k | 0 <= j < k < |wc| ensures wc[j].meta.startChar <= wc[k].meta.startChar {
      assert wc[k] == rest[k - 1];
      if j > 0 {
        assert wc[j] == rest[j - 1];
      }
    }
  }

  /** Every non-whitespace position at or after `start` lies inside a chunk
      the windows from `start` on yield. */
  lemma {:induction false} WindowsCover(cleaned: string, start: nat, id: nat, chunkSize: int, overlap: int,
                                        docId: string, source: SourceType, page: Option<int>, path: Option<string>)
    requires 0 <= overlap < chunkSize
    ensures forall p :: start <= p < |cleaned| && !IsSpace(cleaned[p]) ==>
              Covered(WindowChunks(cleaned, start, id, chunkSize, overlap, docId, source, page, path), p)
    decreases |cleaned| - start
  {
    if start < |cleaned| {
      var end := WindowEnd(|cleaned|, start, chunkSize);
      var next := start + (chunkSize - overlap);
      var x := WindowAt(cleaned, start, end, id, docId, source, page, path);
      var head := if x.Some? then [x.value] else [];
      WindowChunksStep(cleaned, start, id, chunkSize, overlap, docId, source, page, path, end, next, head);
      var wc := WindowChunks(cleaned, start, id, chunkSize, overlap, docId, source, page, path);
      var rest := if end < |cleaned|
                  then WindowChunks(cleaned, next, id + |head|, chunkSize, overlap, docId, source, page, path)
                  else [];
      assert wc == head + rest;
      if end < |cleaned| {
        WindowsCover(cleaned, next, id + |head|, chunkSize, overlap, docId, source, page, path);
      }
      forall p | start <= p < |cleaned| && !IsSpace(cleaned[p]) ensures Covered(wc, p) {
        if p < end {
          WindowCovers(cleaned, start, end, id, chunkSize, docId, source, page, path, head, p);
          CoveredLeft(head, rest, p);
        } else {
          CoveredRight(head, rest, p);
        }
      }
    }
  }

  /** A non-whitespace position of a window lies inside the window's chunk. */
  lemma WindowCovers(cleaned: string, start: int, end: int, id: nat, chunkSize: int,
                     docId: string, source: SourceType, page: Option<int>, path: Option<string>,
                     head: seq<ChunkPair>, p: int)
    requires 0 <= start <= p < end <= |cleaned| && end - start <= chunkSize && !IsSpace(cleaned[p])
    requires var x := WindowAt(cleaned, start, end, id, docId, source, page, path);
      head == if x.Some? then [x.value] else []
    ensures Covered(head, p)
  {
    WindowAtPlaced(cleaned, start, end, id, chunkSize, docId, source, page, path);
    assert head[0] == WindowAt(cleaned, start, end, id, docId, source, page, path).value;
  }

  lemma CoveredLeft(a: seq<ChunkPair>, b: seq<ChunkPair>, p: int)
    requires Covered(a, p)
    ensures Covered(a + b, p)
  {
    var j :| 0 <= j < |a| && a[j].meta.startChar <= p < a[j].meta.endChar;
    assert (a + b)[j] == a[j];
  }

  lemma CoveredRight(a: seq<ChunkPair>, b: seq<ChunkPair>, p: int)
    requires Covered(b, p)
    ensures Covered(a + b, p)
  {
    var j :| 0 <= j < |b| && b[j].meta.startChar <= p < b[j].meta.endChar;
    assert (a + b)[|a| + j] == b[j];
  }

  /** Chunks placed from number 0 are at their own positions; they are
      valid records when the document id and page are accepted. */
  lemma PlacedChunksValid(all: seq<ChunkPair>, cleaned: string, chunkSize: int,
                          docId: string, source: SourceType, page: Option<int>, path: Option<string>)
    requires PlacedFrom(all, 0, 0, cleaned, chunkSize, docId, source, page, path)
    requires all == [] || MetaAccepted(docId, page)
    ensures forall j :: 0 <= j < |all| ==> ChunkAt(all, j, cleaned, chunkSize, docId, source, page, path)
    ensures forall j :: 0 <= j < |all| ==> ValidChunk(all[j].chunk) && ValidChunkMeta(all[j].meta)
  {
    forall j | 0 <= j < |all|
      ensures ChunkAt(all, j, cleaned, chunkSize, docId, source, page, path)
      ensures ValidChunk(all[j].chunk) && ValidChunkMeta(all[j].meta)
    {
      assert ChunkPlaced(all[j], j, cleaned, chunkSize, docId, source, page, path);
    }
  }

  /** What a successful windowing loop returns is well chunked, and it is
      empty exactly when the cleaned text is, given that the cleaned text
      has no whitespace at either end. */
  lemma WindowOutcomeWellChunked(cleaned: string, chunkSize: int, overlap: int,
                                 docId: string, source: SourceType, page: Option<int>, path: Option<string>)
    requires 0 <= overlap < chunkSize && IsStripped(cleaned)
    ensures var r := WindowOutcome(cleaned, chunkSize, overlap, docId, source, page, path);
      && (r.Failure? <==> cleaned != [] && !MetaAccepted(docId, page))
      && (r.Failure? ==> r.error == InvalidChunkMeta)
      && (r.Success? ==> WellChunked(r.value, cleaned, chunkSize, docId, source, page, path)
                         && (r.value == [] <==> cleaned == []))
  {
    var all := WindowChunks(cleaned, 0, 0, chunkSize, overlap, docId, source, page, path);
    WindowsCover(cleaned, 0, 0, chunkSize, overlap, docId, source, page, path);
    if cleaned != [] {
      assert Covered(all, 0);
    } else {
      assert all == [];
    }
    if all == [] || MetaAccepted(docId, page) {
      WindowsPlaced(cleaned, 0, 0, chunkSize, overlap, docId, source, page, path);
      WindowsSorted(cleaned, 0, 0, chunkSize, overlap, docId, source, page, path);
      PlacedChunksValid(all, cleaned, chunkSize, docId, source, page, path);
    }
  }

  // ---------------------------------------------------------------------
  // chunk_text
  // ---------------------------------------------------------------------

  /** `chunk_text`: the configuration is checked first, in order; then the
      text is cleaned and, unless nothing is left, cut into windows. */
  method ChunkText(text: string, docId: string, source: SourceType, chunkSize: int, overlap: int,
                   path: Option<string>, page: Option<int>)
    returns (res: Result<seq<ChunkPair>, ChunkError>)
    ensures ConfigError(chunkSize, overlap).Some? ==> res == Failure(ConfigError(chunkSize, overlap).value)
    ensures ConfigError(chunkSize, overlap).None? ==>
              res == WindowOutcome(CleanText(text), chunkSize, overlap, docId, source, page, path)
    ensures ConfigError(chunkSize, overlap).None? ==>
              (res.Failure? <==> CleanText(text) != [] && !MetaAccepted(docId, page))
    ensures res.Success? ==> WellChunked(res.value, CleanText(text), chunkSize, docId, source, page, path)
    ensures res.Success? ==> (res.value == [] <==> CleanText(text) == [])
  {
    if chunkSize < 50 {
      return Failure(ChunkSizeTooSmall);
    }
    if overlap < 0 {
      return Failure(NegativeOverlap);
    }
    if overlap >= chunkSize {
      return Failure(OverlapTooLarge);
    }
    var cleaned := CleanText(text);
    CleanTextIsClean(text);
    WindowOutcomeWellChunked(cleaned, chunkSize, overlap, docId, source, page, path);
    if cleaned == [] {
      return Success([]);
    }
    res := Windows(cleaned, docId, source, chunkSize, overlap, path, page);
    WindowLoopOutcome(cleaned, chunkSize, overlap, docId, source, page, path);
  }
}

=== FILE: config.dfy ===
/**
 * The settings the pipeline reads (app/config.py), passed as a value
 * instead of loaded from the environment. The three optional entries are
 * not declared by the settings class; the code that reads them falls back
 * to a default when they are absent.
 */
module Config {
  import opened Wrappers
  import opened Text

  datatype Settings = Settings(
    topK: int := 5,
    minScore: real := 0.40,
    embeddingModel: string := "text-embedding-3-small",
    embedTimeoutS: real := 60.0,
    embedRetries: int := 2,
    priceEmbedInput: real := 0.0,
    llmModel: string := "gpt-4o-mini",
    llmTemperature: real := 0.2,
    llmMaxOutputTokens: int := 400,
    llmTimeoutS: real := 30.0,
    llmRetries: int := 2,
    priceLlmInput: real := 0.0,
    priceLlmOutput: real := 0.0,
    minHits: Option<int> := None,
    maxContextHits: Option<int> := None,
    topN: Option<int> := None)

  /** `getattr(settings, "MIN_HITS", 1)`. */
  function MinHits(s: Settings): (m: int)
    ensures s.minHits.None? ==> m == 1
    ensures s.minHits.Some? ==> m == s.minHits.value
  {
    if s.minHits.Some? then s.minHits.value else 1
  }

  /** `getattr(settings, "MAX_CONTEXT_HITS", settings.TOP_K)`. */
  function MaxContextHits(s: Settings): (m: int)
    ensures s.maxContextHits.None? ==> m == s.topK
    ensures s.maxContextHits.Some? ==> m == s.maxContextHits.value
  {
    if s.maxContextHits.Some? then s.maxContextHits.value else s.topK
  }

  /** `getattr(settings, "TOP_N", min(3, settings.TOP_K))`. */
  function TopN(s: Settings): (m: int)
    ensures s.topN.None? ==> m <= 3 && m <= s.topK && (m == 3 || m == s.topK)
    ensures s.topN.Some? ==> m == s.topN.value
  {
    if s.topN.Some? then s.topN.value else Min(3, s.topK)
  }

  /** Python's `xs[:k]` on a list, for any integer `k`: a negative `k` drops
      that many elements from the end. */
  function PyPrefix<T>(xs: seq<T>, k: int): (r: seq<T>)
    ensures r <= xs
    ensures k >= 0 ==> |r| == Min(k, |xs|)
    ensures k < 0 ==> |r| == Max(0, |xs| + k)
  {
    if k >= 0 then xs[..Min(k, |xs|)] else xs[..Max(0, |xs| + k)]
  }
}

=== FILE: decider.dfy ===
/**
 * The grounding decision (app/rag/decider.py): whether the retrieved hits
 * are enough to answer from, and which of them go into the prompt.
 */
module Decider {
  import opened Wrappers
  import opened Types
  import opened Config
  import opened Text

  /** The reasons `decide` gives. */
  datatype Reason = NoHits | LowScore | TooFewHits | EnoughContext

  /** The reason as the source spells it. */
  function ReasonText(r: Reason): string {
    match r
    case NoHits => "no_hits"
    case LowScore => "low_score"
    case TooFewHits => "too_few_hits"
    case EnoughContext => "enough_context"
  }

  datatype Decision = Decision(ok: bool, reason: Reason, topScore: Option<real>, hitsUsed: seq<SearchHit>)

  /** The largest score among non-empty hits. */
  function MaxScore(hits: seq<SearchHit>): (m: real)
    requires hits != []
    ensures forall i :: 0 <= i < |hits| ==> hits[i].score <= m
    ensures exists i :: 0 <= i < |hits| && hits[i].score == m
  {
    if |hits| == 1 then hits[0].score
    else
      var rest := MaxScore(hits[1..]);
      assert forall i :: 1 <= i < |hits| ==> hits[i] == hits[1..][i - 1];
      if hits[0].score >= rest then hits[0].score else rest
  }

  /** `decide`: no hits, then a best score below the threshold, then fewer
      hits than required, are refusals; otherwise the first
      `MAX_CONTEXT_HITS` hits are used. */
  function Decide(hits: seq<SearchHit>, s: Settings): (d: Decision)
    ensures hits == [] ==> d == Decision(false, NoHits, None, [])
    ensures hits != [] ==> d.topScore == Some(MaxScore(hits))
    ensures d.ok <==> d.reason == EnoughContext
    ensures !d.ok ==> d.hitsUsed == []
  {
    if hits == [] then Decision(false, NoHits, None, [])
    else
      var top := MaxScore(hits);
      if top < s.minScore then Decision(false, LowScore, Some(top), [])
      else if |hits| < MinHits(s) then Decision(false, TooFewHits, Some(top), [])
      else Decision(true, EnoughContext, Some(top), PyPrefix(hits, MaxContextHits(s)))
  }

  /** The decision accepts exactly when some hit clears the threshold and
      there are enough hits; then it keeps a prefix of the hits, in their
      order, of at most `MAX_CONTEXT_HITS` when that is not negative. Each
      refusal reason is given exactly in its case. */
  lemma DecideSpec(hits: seq<SearchHit>, s: Settings)
    ensures var d := Decide(hits, s);
      && (d.ok <==> (exists i :: 0 <= i < |hits| && hits[i].score >= s.minScore) && |hits| >= MinHits(s))
      && (d.reason == LowScore <==> hits != [] && forall i :: 0 <= i < |hits| ==> hits[i].score < s.minScore)
      && (d.reason == TooFewHits <==>
            (exists i :: 0 <= i < |hits| && hits[i].score >= s.minScore) && |hits| < MinHits(s))
      && (d.ok ==> d.hitsUsed <= hits
                   && (MaxContextHits(s) >= 0 ==> |d.hitsUsed| == Min(MaxContextHits(s), |hits|)))
  {
    if hits != [] {
      var top := MaxScore(hits);
      if top >= s.minScore {
        var i :| 0 <= i < |hits| && hits[i].score == top;
      }
    }
  }

  /** With the settings class as declared, a single hit at the threshold is
      enough, and at most `TOP_K` hits are used. */
  lemma DecideDefaults(hits: seq<SearchHit>, s: Settings)
    requires s.minHits.None? && s.maxContextHits.None? && s.topK >= 0
    requires exists i :: 0 <= i < |hits| && hits[i].score >= s.minScore
    ensures Decide(hits, s).ok
    ensures |Decide(hits, s).hitsUsed| == Min(s.topK, |hits|)
  {
    DecideSpec(hits, s);
  }
}

=== FILE: embedder.dfy ===
/**
 * The embedding batcher (app/rag/embedder.py): input normalisation, batch
 * slicing, the per-batch retry loop around the embedding service, token
 * accounting and the zero-price cost.
 *
 * The embedding service is the parameter `service`: given the number of the
 * call (0, 1, 2, ... over one `EmbedTexts` run) and the batch of texts, it
 * answers with a list of vectors and optional usage, or raises. The waits
 * the loop sleeps are returned as a list of seconds instead of being slept.
 */
module Embedder {
  import opened Wrappers
  import opened Text

  type Vector = seq<real>

  /** What one call to the embedding service gives back: the vectors with
      the response's usage object, if any, and its `prompt_tokens`, if any;
      or an exception with its message. */
  datatype Reply =
    | Vectors(vectors: seq<Vector>, usage: Option<Option<int>>)
    | Raised(message: string)

  type Service = (nat, seq<string>) -> Reply

  /** Why a batch attempt or the whole run fails. */
  datatype EmbedError =
    | ServiceError(message: string)
    | LengthMismatch(got: nat, expected: nat)

  /** The outcome of `embed_texts`; the usage dictionary holds only
      `input_tokens`. */
  datatype EmbedResult = EmbedResult(vectors: seq<Vector>, model: string, inputTokens: int, batches: nat)

  /** The settings an `Embedder` keeps; it never changes them after
      construction. */
  datatype Embedder = Embedder(model: string, batchSize: int, timeoutS: real, retries: int,
                               priceInputPer1m: real, sleepBaseS: real)

  /** What the constructor guarantees: at least one text per batch and no
      negative retry count. */
  predicate ValidEmbedder(e: Embedder) {
    e.batchSize >= 1 && e.retries >= 0
  }

  /** `Embedder.__init__`: the batch size is raised to at least 1 and the
      retry count to at least 0; other values are kept. A missing price is 0. */
  function NewEmbedder(model: string, batchSize: int := 64, timeoutS: real := 30.0, retries: int := 2,
                       priceInputPer1m: Option<real> := None, sleepBaseS: real := 0.5): (e: Embedder)
    ensures ValidEmbedder(e)
    ensures e.batchSize == (if batchSize >= 1 then batchSize else 1)
    ensures e.retries == (if retries >= 0 then retries else 0)
    ensures e.priceInputPer1m == (if priceInputPer1m.Some? then priceInputPer1m.value else 0.0)
    ensures e.model == model && e.timeoutS == timeoutS && e.sleepBaseS == sleepBaseS
  {
    Embedder(model, Max(1, batchSize), timeoutS, Max(0, retries),
             if priceInputPer1m.Some? then priceInputPer1m.value else 0.0, sleepBaseS)
  }

  /** `_cost_usd` before rounding: nothing is charged at a price that is not
      positive. */
  function CostUsd(e: Embedder, inputTokens: int): (c: real)
    ensures e.priceInputPer1m <= 0.0 ==> c == 0.0
    ensures e.priceInputPer1m > 0.0 && inputTokens >= 0 ==> c >= 0.0
  {
    if e.priceInputPer1m <= 0.0 then 0.0
    else (inputTokens as real / 1000000.0) * e.priceInputPer1m
  }

  // ---------------------------------------------------------------------
  // _normalize_texts
  // ---------------------------------------------------------------------

  /** One normalised text: stripped, or a single space when nothing is left. */
  function NormalizeText(t: string): string {
    var s := Strip(t);
    if s == [] then " " else s
  }

  /** A normalised text is never empty, and is either stripped text or the
      single space; normalising again changes nothing. */
  lemma NormalizeTextSpec(t: string)
    ensures var r := NormalizeText(t);
      && r != []
      && (r == " " <==> Strip(t) == [])
      && (r != " " ==> r == Strip(t) && IsStripped(r))
      && NormalizeText(r) == r
  {
    var s := Strip(t);
    StripSlice(t);
    if s == [] {
      assert Strip(" ") == [] by {
        StripSlice(" ");
        assert IsSpace(" "[0]);
      }
    } else {
      assert s != " " by {
        if s == " " {
          assert IsStripped(s) && IsSpace(s[0]);
        }
      }
      StripIdentity(s);
    }
  }

  /** The normalised texts, as `_normalize_texts` returns them. */
  function Normalized(texts: seq<string>): (xs: seq<string>)
    ensures |xs| == |texts|
    ensures forall i :: 0 <= i < |texts| ==> xs[i] == NormalizeText(texts[i])
  {
    seq(|texts|, i requires 0 <= i < |texts| => NormalizeText(texts[i]))
  }

  /** `Embedder._normalize_texts`: the texts normalised one by one, in
      order. */
  method NormalizeTexts(texts: seq<string>) returns (out: seq<string>)
    ensures out == Normalized(texts)
  {
    out := [];
    for i := 0 to |texts|
      invariant |out| == i
      invariant forall j :: 0 <= j < i ==> out[j] == NormalizeText(texts[j])
    {
      out := out + [NormalizeText(texts[i])];
    }
  }

  // ---------------------------------------------------------------------
  // Batches
  // ---------------------------------------------------------------------

  /** `(n + size - 1) // size`, the number of batches. */
  function BatchCount(n: nat, size: int): (k: nat)
    requires size >= 1
  {
    (n + size - 1) / size
  }

  /** The number of batches is the ceiling of `n / size`: enough batches to
      hold `n` texts, with the last one not empty. */
  lemma BatchCountSpec(n: nat, size: int)
    requires size >= 1
    ensures BatchCount(n, size) * size >= n
    ensures n > 0 ==> (BatchCount(n, size) - 1) * size < n
    ensures n == 0 <==> BatchCount(n, size) == 0
  {
    var k := BatchCount(n, size);
    assert k * size <= n + size - 1 < (k + 1) * size;
  }

  /** Where batch `b` starts: `size` texts past the start of batch `b - 1`. */
  function BatchStart(b: nat, size: int): nat
    requires size >= 1
  {
    if b == 0 then 0 else BatchStart(b - 1, size) + size
  }

  /** Batch `b` starts at `b * size`, as `i = b * self.batch_size` computes. */
  lemma {:induction false} BatchStartMul(b: nat, size: int)
    requires size >= 1
    ensures BatchStart(b, size) == b * size
  {
    if b > 0 {
      BatchStartMul(b - 1, size);
      assert (b - 1) * size + size == b * size;
    }
  }

  /** Every batch starts inside the texts. */
  lemma BatchStartBound(n: nat, b: nat, size: int)
    requires size >= 1 && b < BatchCount(n, size)
    ensures BatchStart(b, size) < n
  {
    BatchCountSpec(n, size);
    BatchStartMul(b, size);
    assert (b + 1) * size <= BatchCount(n, size) * size;
  }

  /** `normalized[i : i + size]` for batch `b`, with `i = b * size`. */
  function BatchAt(xs: seq<string>, b: nat, size: int): (batch: seq<string>)
    requires size >= 1 && b < BatchCount(|xs|, size)
    ensures 1 <= |batch| <= size
  {
    BatchStartBound(|xs|, b, size);
    var i := BatchStart(b, size);
    xs[i..Min(|xs|, i + size)]
  }

  /** The batches from `b` on, one after the other. */
  function JoinBatches(xs: seq<string>, b: nat, size: int): seq<string>
    requires size >= 1
    decreases BatchCount(|xs|, size) - b
  {
    if b >= BatchCount(|xs|, size) then [] else BatchAt(xs, b, size) + JoinBatches(xs, b + 1, size)
  }

  /** The batches are consecutive slices that cover the texts in order: those
      from `b` on join up to the texts from where batch `b` starts on. */
  lemma {:induction false} JoinBatchesCover(xs: seq<string>, b: nat, size: int)
    requires size >= 1 && b <= BatchCount(|xs|, size)
    ensures JoinBatches(xs, b, size) == xs[Min(|xs|, BatchStart(b, size))..]
    decreases BatchCount(|xs|, size) - b
  {
    if b < BatchCount(|xs|, size) {
      JoinBatchesCover(xs, b + 1, size);
      BatchStartBound(|xs|, b, size);
      BatchStartNext(b, size);
      var i := BatchStart(b, size);
      var j := Min(|xs|, i + size);
      assert JoinBatches(xs, b, size) == xs[i..j] + JoinBatches(xs, b + 1, size);
      SliceSplit(xs, i, j);
    } else {
      BatchStartEnd(|xs|, b, size);
    }
  }

  lemma SliceSplit<T>(xs: seq<T>, i: nat, j: nat)
    requires i <= j <= |xs|
    ensures xs[i..] == xs[i..j] + xs[j..]
  {
  }

  /** Batch `b + 1` starts where batch `b` would end. */
  lemma BatchStartNext(b: nat, size: int)
    requires size >= 1
    ensures BatchStart(b + 1, size) == BatchStart(b, size) + size
  {
  }

  /** The batch after the last starts at or past the end of the texts. */
  lemma BatchStartEnd(n: nat, b: nat, size: int)
    requires size >= 1 && b == BatchCount(n, size)
    ensures BatchStart(b, size) >= n
  {
    BatchCountSpec(n, size);
    BatchStartMul(b, size);
  }

  // ---------------------------------------------------------------------
  // The retry loop for one batch
  // ---------------------------------------------------------------------

  /** A successful batch: its vectors and the prompt tokens it was billed. */
  datatype BatchOk = BatchOk(vectors: seq<Vector>, tokens: int)

  /** The retry loop for one batch from a given attempt on: what it ends
      with, how many calls it made and the waits it slept. */
  datatype BatchRun = BatchRun(outcome: Result<BatchOk, EmbedError>, calls: nat, waits: seq<real>)

  /** `int(getattr(usage, "prompt_tokens", 0) or 0)`, and nothing without a
      usage object. */
  function PromptTokens(usage: Option<Option<int>>): int {
    if usage.None? || usage.value.None? then 0 else usage.value.value
  }

  /** How an attempt fails, if it does: the service raises, or it returns a
      number of vectors other than the number of texts, which is raised inside
      the same `try` and so handled alike. */
  function AttemptError(reply: Reply, batch: seq<string>): Option<EmbedError> {
    if reply.Raised? then Some(ServiceError(reply.message))
    else if |reply.vectors| != |batch| then Some(LengthMismatch(|reply.vectors|, |batch|))
    else None
  }

  /** The retry loop for `batch` from attempt number `attempt` on, the next
      call to the service being call number `call`. A failed attempt is
      followed by a wait of `sleepBaseS * attempt` seconds and another
      attempt, unless it was attempt `retries + 1`: then the batch fails with
      that attempt's error. */
  function Attempts(e: Embedder, service: Service, batch: seq<string>, call: nat, attempt: nat): (r: BatchRun)
    requires ValidEmbedder(e) && 1 <= attempt <= e.retries + 1
    decreases e.retries + 1 - attempt
  {
    var reply := service(call, batch);
    var err := AttemptError(reply, batch);
    if err.None? then BatchRun(Success(BatchOk(reply.vectors, PromptTokens(reply.usage))), 1, [])
    else if attempt <= e.retries then
      var rest := Attempts(e, service, batch, call + 1, attempt + 1);
      BatchRun(rest.outcome, rest.calls + 1, [WaitAfter(e, attempt)] + rest.waits)
    else BatchRun(Failure(err.value), 1, [])
  }

  /** A wait the loop sleeps after attempt `a` of a batch, for `1 <= a <= retries`. */
  ghost predicate RetryWait(e: Embedder, w: real) {
    exists a: int :: 1 <= a <= e.retries && w == WaitAfter(e, a)
  }

  /** `sleep_base_s * attempt`, the wait after failed attempt `attempt`. */
  function WaitAfter(e: Embedder, attempt: int): real {
    e.sleepBaseS * attempt as real
  }

  /** The retry loop from `attempt` makes at most `retries + 2 - attempt`
      calls and sleeps once between two of them, never after the last; a
      successful batch got one vector per text, from its last call; a failed
      batch failed with the error of its last attempt, number `retries + 1`. */
  lemma {:induction false} AttemptsSpec(e: Embedder, service: Service, batch: seq<string>, call: nat, attempt: nat)
    requires ValidEmbedder(e) && 1 <= attempt <= e.retries + 1
    ensures var r := Attempts(e, service, batch, call, attempt);
      && 1 <= r.calls <= e.retries + 2 - attempt
      && |r.waits| == r.calls - 1
      && (forall i :: 0 <= i < |r.waits| ==> r.waits[i] == WaitAfter(e, attempt + i))
      && (r.outcome.Success? ==>
            var reply := service(call + r.calls - 1, batch);
            reply.Vectors? && r.outcome.value == BatchOk(reply.vectors, PromptTokens(reply.usage))
            && |r.outcome.value.vectors| == |batch|)
      && (r.outcome.Failure? ==>
            r.calls == e.retries + 2 - attempt
            && Some(r.outcome.error) == AttemptError(service(call + r.calls - 1, batch), batch))
    decreases e.retries + 1 - attempt
  {
    var r := Attempts(e, service, batch, call, attempt);
    var err := AttemptError(service(call, batch), batch);
    if err.Some? && attempt <= e.retries {
      var rest := Attempts(e, service, batch, call + 1, attempt + 1);
      AttemptsSpec(e, service, batch, call + 1, attempt + 1);
      assert r.waits == [WaitAfter(e, attempt)] + rest.waits;
      forall i | 0 <= i < |r.waits| ensures r.waits[i] == WaitAfter(e, attempt + i) {
        if i > 0 {
          assert r.waits[i] == rest.waits[i - 1];
        }
      }
    }
  }

  /** An attempt that gets the wrong number of vectors is retried like one
      where the service raised, while attempts remain. */
  lemma MismatchRetried(e: Embedder, service: Service, batch: seq<string>, call: nat, attempt: nat)
    requires ValidEmbedder(e) && 1 <= attempt <= e.retries
    requires service(call, batch).Vectors? && |service(call, batch).vectors| != |batch|
    ensures var r, rest := Attempts(e, service, batch, call, attempt), Attempts(e, service, batch, call + 1, attempt + 1);
      r.outcome == rest.outcome && r.calls == rest.calls + 1
  {
  }

  /** The retry loop of `embed_texts` for one batch. */
  method EmbedBatch(e: Embedder, service: Service, batch: seq<string>, call0: nat)
    returns (outcome: Result<BatchOk, EmbedError>, calls: nat, waits: seq<real>)
    requires ValidEmbedder(e)
    ensures BatchRun(outcome, calls, waits) == Attempts(e, service, batch, call0, 1)
  {
    var attempt := 1;
    var call := call0;
    var lastErr: Option<EmbedError> := None;
    waits := [];
    while attempt <= e.retries + 1
      invariant 1 <= attempt <= e.retries + 2 && call == call0 + attempt - 1
      invariant attempt > 1 ==> lastErr.Some?
      invariant attempt <= e.retries + 1 ==>
        var r := Attempts(e, service, batch, call, attempt);
        Attempts(e, service, batch, call0, 1) == BatchRun(r.outcome, r.calls + (call - call0), waits + r.waits)
      invariant attempt == e.retries + 2 ==>
        Attempts(e, service, batch, call0, 1) == BatchRun(Failure(lastErr.value), call - call0, waits)
      decreases e.retries + 2 - attempt
    {
      var reply := service(call, batch);
      ghost var r := Attempts(e, service, batch, call, attempt);
      call := call + 1;
      if reply.Raised? {
        lastErr := Some(ServiceError(reply.message));
      } else if |reply.vectors| != |batch| {
        lastErr := Some(LengthMismatch(|reply.vectors|, |batch|));
      } else {
        assert waits + [] == waits;
        return Success(BatchOk(reply.vectors, PromptTokens(reply.usage))), call - call0, waits;
      }
      if attempt <= e.retries {
        ghost var rest := Attempts(e, service, batch, call, attempt + 1);
        assert r.waits == [WaitAfter(e, attempt)] + rest.waits;
        AppendAssoc(waits, [WaitAfter(e, attempt)], rest.waits);
        waits := waits + [WaitAfter(e, attempt)];
      } else {
        assert waits + [] == waits;
      }
      attempt := attempt + 1;
    }
    return Failure(lastErr.value), call - call0, waits;
  }

  // ---------------------------------------------------------------------
  // embed_texts
  // ---------------------------------------------------------------------

  /** What the batches from some batch on come to: all their vectors in
      batch order with the sum of their tokens, or the error of the first
      batch that failed; with the calls made and the waits slept. */
  datatype Run = Run(outcome: Result<BatchOk, EmbedError>, calls: nat, waits: seq<real>)

  /** A successful batch, or several, followed by the run `r`. */
  function Prepend(ok: BatchOk, calls: nat, waits: seq<real>, r: Run): Run {
    Run(if r.outcome.Failure? then r.outcome
        else Success(BatchOk(ok.vectors + r.outcome.value.vectors, ok.tokens + r.outcome.value.tokens)),
        calls + r.calls, waits + r.waits)
  }

  lemma PrependNothing(r: Run)
    ensures Prepend(BatchOk([], 0), 0, [], r) == r
  {
    assert [] + r.waits == r.waits;
    if r.outcome.Success? {
      assert [] + r.outcome.value.vectors == r.outcome.value.vectors;
    }
  }

  lemma PrependAssoc(a: BatchOk, ca: nat, wa: seq<real>, b: BatchOk, cb: nat, wb: seq<real>, r: Run)
    ensures Prepend(a, ca, wa, Prepend(b, cb, wb, r))
            == Prepend(BatchOk(a.vectors + b.vectors, a.tokens + b.tokens), ca + cb, wa + wb, r)
  {
    AppendAssoc(wa, wb, r.waits);
    if r.outcome.Success? {
      AppendAssoc(a.vectors, b.vectors, r.outcome.value.vectors);
    }
  }

  /** The batches of `xs` from number `b` on, the next service call being
      number `call`: each batch's retry loop in turn, until one fails. */
  function BatchesFrom(e: Embedder, service: Service, xs: seq<string>, b: nat, call: nat): Run
    requires ValidEmbedder(e)
    decreases BatchCount(|xs|, e.batchSize) - b, 1
  {
    if b >= BatchCount(|xs|, e.batchSize) then Run(Success(BatchOk([], 0)), 0, [])
    else BatchesTurn(e, service, xs, b, call)
  }

  /** `BatchesFrom` at a batch that exists: its retry loop runs first. */
  function BatchesTurn(e: Embedder, service: Service, xs: seq<string>, b: nat, call: nat): Run
    requires ValidEmbedder(e) && b < BatchCount(|xs|, e.batchSize)
    decreases BatchCount(|xs|, e.batchSize) - b, 0, 1
  {
    BatchesThen(e, service, xs, b, call, Attempts(e, service, BatchAt(xs, b, e.batchSize), call, 1))
  }

  /** Batch `b` ended as `br`: a failure ends the run, a success is followed
      by the batches after it. */
  function BatchesThen(e: Embedder, service: Service, xs: seq<string>, b: nat, call: nat, br: BatchRun): Run
    requires ValidEmbedder(e) && b < BatchCount(|xs|, e.batchSize)
    decreases BatchCount(|xs|, e.batchSize) - b, 0, 0
  {
    if br.outcome.Failure? then Run(br.outcome, br.calls, br.waits)
    else Prepend(br.outcome.value, br.calls, br.waits, BatchesFrom(e, service, xs, b + 1, call + br.calls))
  }

  /** One batch of `BatchesFrom`. */
  lemma BatchesFromStep(e: Embedder, service: Service, xs: seq<string>, b: nat, call: nat)
    requires ValidEmbedder(e) && b < BatchCount(|xs|, e.batchSize)
    ensures var br := Attempts(e, service, BatchAt(xs, b, e.batchSize), call, 1);
      BatchesFrom(e, service, xs, b, call) == BatchesThen(e, service, xs, b, call, br)
  {
    assert BatchesFrom(e, service, xs, b, call) == BatchesTurn(e, service, xs, b, call);
  }

  /** The batches from `b` on make at most `retries + 1` calls each; a
      failure comes from a batch that used all its attempts. */
  lemma {:induction false} BatchesFromCalls(e: Embedder, service: Service, xs: seq<string>, b: nat, call: nat)
    requires ValidEmbedder(e) && b <= BatchCount(|xs|, e.batchSize)
    ensures var r := BatchesFrom(e, service, xs, b, call);
      && r.calls <= (BatchCount(|xs|, e.batchSize) - b) * (e.retries + 1)
      && (r.outcome.Failure? ==> r.calls >= e.retries + 1)
    decreases BatchCount(|xs|, e.batchSize) - b
  {
    if b < BatchCount(|xs|, e.batchSize) {
      var br := Attempts(e, service, BatchAt(xs, b, e.batchSize), call, 1);
      AttemptsSpec(e, service, BatchAt(xs, b, e.batchSize), call, 1);
      BatchesFromStep(e, service, xs, b, call);
      MulStep(BatchCount(|xs|, e.batchSize) - b, e.retries + 1);
      if br.outcome.Success? {
        BatchesFromCalls(e, service, xs, b + 1, call + br.calls);
      }
    }
  }

  lemma MulStep(k: int, m: int)
    requires k >= 1 && m >= 0
    ensures k * m == m + (k - 1) * m && (k - 1) * m >= 0
  {
  }

  /** On success, the batches from `b` on give one vector per text from
      position `b * size` on. */
  lemma {:induction false} BatchesFromLength(e: Embedder, service: Service, xs: seq<string>, b: nat, call: nat)
    requires ValidEmbedder(e) && b <= BatchCount(|xs|, e.batchSize)
    ensures var r := BatchesFrom(e, service, xs, b, call);
      r.outcome.Success? ==> |r.outcome.value.vectors| == |JoinBatches(xs, b, e.batchSize)|
    decreases BatchCount(|xs|, e.batchSize) - b
  {
    if b < BatchCount(|xs|, e.batchSize) {
      var br := Attempts(e, service, BatchAt(xs, b, e.batchSize), call, 1);
      AttemptsSpec(e, service, BatchAt(xs, b, e.batchSize), call, 1);
      BatchesFromStep(e, service, xs, b, call);
      if br.outcome.Success? {
        BatchesFromLength(e, service, xs, b + 1, call + br.calls);
      }
    }
  }

  /** Every wait of the batches from `b` on follows a failed attempt that was
      not its batch's last. */
  lemma {:induction false} BatchesFromWaits(e: Embedder, service: Service, xs: seq<string>, b: nat, call: nat)
    requires ValidEmbedder(e) && b <= BatchCount(|xs|, e.batchSize)
    ensures AllRetryWaits(e, BatchesFrom(e, service, xs, b, call).waits)
    decreases BatchCount(|xs|, e.batchSize) - b
  {
    if b < BatchCount(|xs|, e.batchSize) {
      var br := Attempts(e, service, BatchAt(xs, b, e.batchSize), call, 1);
      AttemptsSpec(e, service, BatchAt(xs, b, e.batchSize), call, 1);
      WaitsAreRetryWaits(e, br.waits);
      BatchesFromStep(e, service, xs, b, call);
      if br.outcome.Success? {
        var rest := BatchesFrom(e, service, xs, b + 1, call + br.calls);
        BatchesFromWaits(e, service, xs, b + 1, call + br.calls);
        WaitsJoin(e, br.waits, rest.waits);
      }
    }
  }

  /** Each of the waits follows a failed attempt that was not its batch's last. */
  ghost predicate AllRetryWaits(e: Embedder, waits: seq<real>) {
    forall i :: 0 <= i < |waits| ==> RetryWait(e, waits[i])
  }

  lemma WaitsJoin(e: Embedder, a: seq<real>, b: seq<real>)
    requires AllRetryWaits(e, a) && AllRetryWaits(e, b)
    ensures AllRetryWaits(e, a + b)
  {
    forall i | 0 <= i < |a + b| ensures RetryWait(e, (a + b)[i]) {
      if i >= |a| {
        assert (a + b)[i] == b[i - |a|];
      }
    }
  }

  /** The waits of a batch's retry loop from attempt 1 on are retry waits. */
  lemma WaitsAreRetryWaits(e: Embedder, waits: seq<real>)
    requires ValidEmbedder(e) && |waits| <= e.retries
    requires forall i :: 0 <= i < |waits| ==> waits[i] == WaitAfter(e, 1 + i)
    ensures AllRetryWaits(e, waits)
  {
    forall i | 0 <= i < |waits| ensures RetryWait(e, waits[i]) {
      assert 1 <= 1 + i <= e.retries && waits[i] == WaitAfter(e, 1 + i);
    }
  }

  /** The successful outcomes of the batches from `b` on, in batch order,
      up to the first batch that fails. */
  ghost function BatchOks(e: Embedder, service: Service, xs: seq<string>, b: nat, call: nat): seq<BatchOk>
    requires ValidEmbedder(e)
    decreases BatchCount(|xs|, e.batchSize) - b
  {
    if b >= BatchCount(|xs|, e.batchSize) then []
    else
      var br := Attempts(e, service, BatchAt(xs, b, e.batchSize), call, 1);
      if br.outcome.Failure? then []
      else [br.outcome.value] + BatchOks(e, service, xs, b + 1, call + br.calls)
  }

  /** The vectors of the batches, concatenated in batch order
      (`all_vecs.extend(vecs)`). */
  function AllVectors(oks: seq<BatchOk>): seq<Vector> {
    if oks == [] then [] else oks[0].vectors + AllVectors(oks[1..])
  }

  /** The sum of the batches' prompt tokens (`total_input_tokens`). */
  function TotalTokens(oks: seq<BatchOk>): int {
    if oks == [] then 0 else oks[0].tokens + TotalTokens(oks[1..])
  }

  /** `ok` is what the service answered to `batch` on some call: one vector
      per text, with that reply's prompt tokens. */
  ghost predicate ReplyTo(service: Service, batch: seq<string>, ok: BatchOk) {
    exists c: nat :: service(c, batch).Vectors?
                     && ok == BatchOk(service(c, batch).vectors, PromptTokens(service(c, batch).usage))
                     && |ok.vectors| == |batch|
  }

  /** `oks[j]` is the service's reply to batch `b + j`, for every `j`. */
  ghost predicate RepliesFrom(service: Service, xs: seq<string>, size: int, b: nat, oks: seq<BatchOk>) {
    && size >= 1 && b + |oks| <= BatchCount(|xs|, size)
    && forall j :: 0 <= j < |oks| ==> ReplyTo(service, BatchAt(xs, b + j, size), oks[j])
  }

  lemma RepliesCons(service: Service, xs: seq<string>, size: int, b: nat, ok: BatchOk, rest: seq<BatchOk>)
    requires size >= 1 && b < BatchCount(|xs|, size)
    requires ReplyTo(service, BatchAt(xs, b, size), ok) && RepliesFrom(service, xs, size, b + 1, rest)
    ensures RepliesFrom(service, xs, size, b, [ok] + rest)
    ensures AllVectors([ok] + rest) == ok.vectors + AllVectors(rest)
    ensures TotalTokens([ok] + rest) == ok.tokens + TotalTokens(rest)
  {
    var oks := [ok] + rest;
    assert oks[1..] == rest;
    forall j | 0 <= j < |oks|
      ensures ReplyTo(service, BatchAt(xs, b + j, size), oks[j])
    {
      if j > 0 {
        assert oks[j] == rest[j - 1] && b + j == (b + 1) + (j - 1);
      }
    }
  }

  /** A successful run of the batches from `b` on holds one reply per batch,
      each the service's answer to that batch: its vectors are the replies'
      vectors in batch order and its tokens their sum. */
  lemma {:induction false} BatchesFromOks(e: Embedder, service: Service, xs: seq<string>, b: nat, call: nat)
    requires ValidEmbedder(e) && b <= BatchCount(|xs|, e.batchSize)
    ensures var r, oks := BatchesFrom(e, service, xs, b, call), BatchOks(e, service, xs, b, call);
      r.outcome.Success? ==>
        && |oks| == BatchCount(|xs|, e.batchSize) - b
        && r.outcome.value == BatchOk(AllVectors(oks), TotalTokens(oks))
        && RepliesFrom(service, xs, e.batchSize, b, oks)
    decreases BatchCount(|xs|, e.batchSize) - b
  {
    if b < BatchCount(|xs|, e.batchSize) {
      var batch := BatchAt(xs, b, e.batchSize);
      var br := Attempts(e, service, batch, call, 1);
      AttemptsSpec(e, service, batch, call, 1);
      BatchesFromStep(e, service, xs, b, call);
      if br.outcome.Success? {
        var c: nat := call + br.calls - 1;
        assert ReplyTo(service, batch, br.outcome.value) by {
          assert service(c, batch).Vectors?;
        }
        BatchesFromOks(e, service, xs, b + 1, call + br.calls);
        if BatchesFrom(e, service, xs, b + 1, call + br.calls).outcome.Success? {
          RepliesCons(service, xs, e.batchSize, b, br.outcome.value, BatchOks(e, service, xs, b + 1, call + br.calls));
        }
      }
    }
  }

  /** What `embed_texts` returns, with the calls it makes and the waits it
      sleeps: nothing to embed gives no vectors, no batches and no tokens
      without calling the service; otherwise the normalised texts are
      embedded batch by batch. */
  ghost function EmbedOutcome(e: Embedder, service: Service, texts: seq<string>)
    : (Result<EmbedResult, EmbedError>, nat, seq<real>)
    requires ValidEmbedder(e)
  {
    if texts == [] then (Success(EmbedResult([], e.model, 0, 0)), 0, [])
    else EmbedAll(e, service, Normalized(texts))
  }

  /** The batch loop of `embed_texts` over the normalised texts `xs`. */
  ghost function EmbedAll(e: Embedder, service: Service, xs: seq<string>)
    : (Result<EmbedResult, EmbedError>, nat, seq<real>)
    requires ValidEmbedder(e)
  {
    var r := BatchesFrom(e, service, xs, 0, 0);
    if r.outcome.Failure? then (Failure(r.outcome.error), r.calls, r.waits)
    else (Success(EmbedResult(r.outcome.value.vectors, e.model, r.outcome.value.tokens,
                              BatchCount(|xs|, e.batchSize))), r.calls, r.waits)
  }

  /** `embed_texts` succeeds with one vector per text and
      `ceil(len(texts) / batch_size)` batches, or fails with the error of a
      batch's last attempt, after all of that batch's attempts. On no texts
      it reports no vectors and no tokens without a call; otherwise a success
      holds, per batch of the normalised texts in order, the service's reply
      to that batch: the vectors are those replies' vectors concatenated and
      `input_tokens` is the sum of their prompt tokens. It calls the service
      at most `retries + 1` times per batch and waits only between attempts
      of a batch. */
  lemma EmbedOutcomeSpec(e: Embedder, service: Service, texts: seq<string>)
    requires ValidEmbedder(e)
    ensures var (res, calls, waits) := EmbedOutcome(e, service, texts);
      && (res.Success? ==> |res.value.vectors| == |texts|
                           && res.value.batches == BatchCount(|texts|, e.batchSize))
      && (res.Failure? ==> calls >= e.retries + 1)
      && calls <= BatchCount(|texts|, e.batchSize) * (e.retries + 1)
      && AllRetryWaits(e, waits)
    ensures texts == [] ==>
      EmbedOutcome(e, service, texts).0 == Success(EmbedResult([], e.model, 0, 0)) && EmbedOutcome(e, service, texts).1 == 0
    ensures var res, xs := EmbedOutcome(e, service, texts).0, Normalized(texts);
      texts != [] && res.Success? ==>
        var oks := BatchOks(e, service, xs, 0, 0);
        && |oks| == res.value.batches
        && res.value.vectors == AllVectors(oks)
        && res.value.inputTokens == TotalTokens(oks)
        && RepliesFrom(service, xs, e.batchSize, 0, oks)
  {
    if texts != [] {
      var xs := Normalized(texts);
      BatchesFromCalls(e, service, xs, 0, 0);
      BatchesFromLength(e, service, xs, 0, 0);
      BatchesFromWaits(e, service, xs, 0, 0);
      BatchesFromOks(e, service, xs, 0, 0);
      JoinBatchesCover(xs, 0, e.batchSize);
    }
  }

  /** `Embedder.embed_texts`. */
  method EmbedTexts(e: Embedder, service: Service, texts: seq<string>)
    returns (res: Result<EmbedResult, EmbedError>, calls: nat, waits: seq<real>)
    requires ValidEmbedder(e)
    ensures (res, calls, waits) == EmbedOutcome(e, service, texts)
  {
    if texts == [] {
      return Success(EmbedResult([], e.model, 0, 0)), 0, [];
    }
    var normalized := NormalizeTexts(texts);
    res, calls, waits := EmbedBatches(e, service, normalized);
  }

  /** The batch loop of `embed_texts` and its final count check. The check
      never fires here because a reply's prompt-token count is a number that
      cannot fail to convert: in the source, a failing `int(...)` on the usage
      object would raise after the batch's vectors were appended, the batch
      would be retried, and the count check would then fire. */
  method EmbedBatches(e: Embedder, service: Service, normalized: seq<string>)
    returns (res: Result<EmbedResult, EmbedError>, calls: nat, waits: seq<real>)
    requires ValidEmbedder(e)
    ensures (res, calls, waits) == EmbedAll(e, service, normalized)
  {
    var allVecs: seq<Vector> := [];
    var totalInputTokens := 0;
    var batches: nat := 0;
    calls, waits := 0, [];
    var totalBatches := (|normalized| + e.batchSize - 1) / e.batchSize;
    BatchesFromLength(e, service, normalized, 0, 0);
    JoinBatchesCover(normalized, 0, e.batchSize);
    PrependNothing(BatchesFrom(e, service, normalized, 0, 0));

    for b := 0 to totalBatches
      invariant batches == b
      invariant BatchesFrom(e, service, normalized, 0, 0)
                == Prepend(BatchOk(allVecs, totalInputTokens), calls, waits,
                           BatchesFrom(e, service, normalized, b, calls))
    {
      batches := batches + 1;
      var failed, err;
      failed, err, allVecs, totalInputTokens, calls, waits :=
        EmbedStep(e, service, normalized, b, allVecs, totalInputTokens, calls, waits);
      if failed {
        return Failure(err), calls, waits;
      }
    }
    assert allVecs + [] == allVecs && waits + [] == waits;
    assert |allVecs| == |normalized|;
    res := Success(EmbedResult(allVecs, e.model, totalInputTokens, batches));
  }

  /** One turn of the batch loop of `embed_texts`: batch `b` is sliced and
      run through its retry loop; a success adds its vectors and tokens, a
      failure ends the run with its error. */
  method EmbedStep(e: Embedder, service: Service, normalized: seq<string>, b: nat,
                   allVecs: seq<Vector>, tokens: int, calls: nat, waits: seq<real>)
    returns (failed: bool, err: EmbedError, allVecs': seq<Vector>, tokens': int, calls': nat, waits': seq<real>)
    requires ValidEmbedder(e) && b < BatchCount(|normalized|, e.batchSize)
    ensures failed ==> Prepend(BatchOk(allVecs, tokens), calls, waits, BatchesFrom(e, service, normalized, b, calls))
                       == Run(Failure(err), calls', waits')
    ensures !failed ==> Prepend(BatchOk(allVecs, tokens), calls, waits, BatchesFrom(e, service, normalized, b, calls))
                        == Prepend(BatchOk(allVecs', tokens'), calls', waits',
                                   BatchesFrom(e, service, normalized, b + 1, calls'))
  {
    var i := b * e.batchSize;
    BatchStartMul(b, e.batchSize);
    BatchStartBound(|normalized|, b, e.batchSize);
    var batch := normalized[i..Min(|normalized|, i + e.batchSize)];
    assert batch == BatchAt(normalized, b, e.batchSize);
    var outcome, n, w := EmbedBatch(e, service, batch, calls);
    BatchesFromStep(e, service, normalized, b, calls);
    if outcome.Failure? {
      return true, outcome.error, allVecs, tokens, calls + n, waits + w;
    }
    PrependAssoc(BatchOk(allVecs, tokens), calls, waits, outcome.value, n, w,
                 BatchesFrom(e, service, normalized, b + 1, calls + n));
    failed, err := false, ServiceError("");
    allVecs', tokens', calls', waits' := allVecs + outcome.value.vectors, tokens + outcome.value.tokens, calls + n, waits + w;
  }
}

=== FILE: eval.dfy ===
/**
 * The evaluation runner (eval/run_eval.py): reading the case file, the
 * per-case checks, the counters of the scoring loop and the rates.
 * `json.loads` is an oracle, and so is `answer`, called once per case.
 */
module Eval {
  import opened Wrappers
  import opened Text
  import opened Schemas
  import Pipeline

  const RefusalText: string := "I don't know based " + "on the provided documents."

  const ShouldAnswer: string := "should_answer"
  const ShouldRefuse: string := "should_refuse"

  /** One evaluation case. */
  datatype Case = Case(
    id: string,
    question: string,
    expectation: string,
    mustInclude: seq<string>,
    keywords: seq<string>)

  // ----- load_cases -----

  /** What is seen of one JSON value of a case object: whether Python
      counts it as true, its `str()`, and the `str()` of each element when
      it is a list. */
  datatype Value = Value(truthy: bool, text: string, items: Option<seq<string>>)

  /** A decoded case object. */
  type Object = map<string, Value>

  /** `json.loads` on a stripped line; `None` when it raises or does not
      give an object. */
  type Decode = string -> Option<Object>

  /** Why `load_cases` raises, with the 1-based line number. */
  datatype LoadError =
    | BadJson(lineNo: nat)
    | EmptyQuestion(lineNo: nat)
    | BadExpectation(lineNo: nat, expectation: string)
    | MustIncludeNotList(lineNo: nat)
    | KeywordsNotList(lineNo: nat)

  /** `obj.get(key)` is present and true. */
  predicate Truthy(obj: Object, key: string) {
    key in obj && obj[key].truthy
  }

  /** `str(obj.get(key) or "")`. */
  function TextOr(obj: Object, key: string): string {
    if Truthy(obj, key) then obj[key].text else ""
  }

  /** `obj.get(key) or []`, with the `str()` of its elements when it is a
      list, and `None` when it is not. */
  function ListOr(obj: Object, key: string): Option<seq<string>> {
    if Truthy(obj, key) then obj[key].items else Some([])
  }

  /** The id given to a case without one. */
  function DefaultId(lineNo: nat): string {
    "case_" + NatToString(lineNo)
  }

  /** One line of the case file: nothing for a blank line, else a case or
      the reason it is rejected. */
  function ParseLine(line: string, lineNo: nat, decode: Decode): Result<Option<Case>, LoadError> {
    var t := Strip(line);
    if t == [] then Success(None)
    else
      var got := decode(t);
      if got.None? then Failure(BadJson(lineNo))
      else
        var obj := got.value;
        var cid := if Truthy(obj, "id") then obj["id"].text else DefaultId(lineNo);
        var q := Strip(TextOr(obj, "question"));
        var exp := Strip(TextOr(obj, "expectation"));
        var must := ListOr(obj, "must_include");
        var kws := ListOr(obj, "keywords");
        if q == [] then Failure(EmptyQuestion(lineNo))
        else if exp != ShouldAnswer && exp != ShouldRefuse then Failure(BadExpectation(lineNo, exp))
        else if must.None? then Failure(MustIncludeNotList(lineNo))
        else if kws.None? then Failure(KeywordsNotList(lineNo))
        else Success(Some(Case(cid, q, exp, must.value, kws.value)))
  }

  /** `load_cases` on the lines of the file: the cases in file order, or
      the rejection of the first line that fails. */
  function Load(lines: seq<string>, decode: Decode): Result<seq<Case>, LoadError> {
    if lines == [] then Success([])
    else
      var prev := Load(lines[..|lines| - 1], decode);
      if prev.Failure? then prev
      else
        var p := ParseLine(lines[|lines| - 1], |lines|, decode);
        if p.Failure? then Failure(p.error)
        else if p.value.None? then prev
        else Success(prev.value + [p.value.value])
  }

  /** `load_cases`. */
  method LoadCases(lines: seq<string>, decode: Decode) returns (res: Result<seq<Case>, LoadError>)
    ensures res == Load(lines, decode)
  {
    var cases: seq<Case> := [];
    for i := 0 to |lines|
      invariant Load(lines[..i], decode) == Success(cases)
    {
      assert lines[..i + 1][..i] == lines[..i];
      var parsed := ParseLine(lines[i], i + 1, decode);
      if parsed.Failure? {
        LoadFailureStays(lines, i + 1, decode);
        return Failure(parsed.error);
      }
      if parsed.value.Some? {
        cases := cases + [parsed.value.value];
      }
    }
    assert lines[..|lines|] == lines;
    res := Success(cases);
  }

  /** Once a line is rejected, loading more lines keeps that rejection. */
  lemma {:induction false} LoadFailureStays(lines: seq<string>, k: nat, decode: Decode)
    requires k <= |lines| && Load(lines[..k], decode).Failure?
    ensures Load(lines, decode) == Load(lines[..k], decode)
  {
    if k < |lines| {
      var init := lines[..|lines| - 1];
      assert init[..k] == lines[..k];
      LoadFailureStays(init, k, decode);
    } else {
      assert lines[..k] == lines;
    }
  }

  /** A case `load_cases` accepts: a non-empty question with no whitespace
      at either end, and one of the two expectations. */
  ghost predicate ValidCase(c: Case) {
    c.question != [] && IsStripped(c.question) && (c.expectation == ShouldAnswer || c.expectation == ShouldRefuse)
  }

  /** The object's question, stripped, is non-empty. */
  ghost predicate HasQuestion(obj: Object) {
    Truthy(obj, "question") && Strip(obj["question"].text) != []
  }

  /** The object's expectation, stripped, is one of the two accepted. */
  ghost predicate HasExpectation(obj: Object) {
    Truthy(obj, "expectation")
    && (Strip(obj["expectation"].text) == ShouldAnswer || Strip(obj["expectation"].text) == ShouldRefuse)
  }

  /** `obj.get(key) or []` is a list. */
  ghost predicate ListField(obj: Object, key: string) {
    !Truthy(obj, key) || obj[key].items.Some?
  }

  /** The list a case keeps for `key`: the elements' `str()`, or nothing
      when the key is missing or false. */
  ghost predicate KeptList(obj: Object, key: string, xs: seq<string>) {
    (Truthy(obj, key) ==> obj[key].items == Some(xs)) && (!Truthy(obj, key) ==> xs == [])
  }

  /** A blank line is skipped. Any other line is rejected, with its line
      number, as bad JSON when it does not decode; else for an empty
      question, then for an expectation other than the two, then when
      `must_include` is not a list, then when `keywords` is not a list.
      A line that passes every check gives a valid case made from the
      object: its own id or `case_<line_no>`, the stripped question and
      expectation, and the two lists. */
  lemma ParseLineSpec(line: string, lineNo: nat, decode: Decode)
    ensures var r, t := ParseLine(line, lineNo, decode), Strip(line);
      && (r == Success(None) <==> t == [])
      && (r.Failure? ==> r.error.lineNo == lineNo)
      && (r == Failure(BadJson(lineNo)) <==> t != [] && decode(t).None?)
    ensures var r, t := ParseLine(line, lineNo, decode), Strip(line);
      t != [] && decode(t).Some? ==>
        var obj := decode(t).value;
        && (r == Failure(EmptyQuestion(lineNo)) <==> !HasQuestion(obj))
        && (r.Failure? && r.error.BadExpectation? <==> HasQuestion(obj) && !HasExpectation(obj))
        && (r.Failure? && r.error.BadExpectation? ==> r.error.expectation == Strip(TextOr(obj, "expectation")))
        && (r == Failure(MustIncludeNotList(lineNo)) <==>
              HasQuestion(obj) && HasExpectation(obj) && !ListField(obj, "must_include"))
        && (r == Failure(KeywordsNotList(lineNo)) <==>
              HasQuestion(obj) && HasExpectation(obj) && ListField(obj, "must_include") && !ListField(obj, "keywords"))
        && (r.Success? <==>
              HasQuestion(obj) && HasExpectation(obj) && ListField(obj, "must_include") && ListField(obj, "keywords"))
    ensures var r := ParseLine(line, lineNo, decode);
      r.Success? && r.value.Some? ==>
        var c, obj := r.value.value, decode(Strip(line)).value;
        && ValidCase(c)
        && (Truthy(obj, "id") ==> c.id == obj["id"].text)
        && (!Truthy(obj, "id") ==> c.id == DefaultId(lineNo))
        && c.question == Strip(obj["question"].text)
        && c.expectation == Strip(obj["expectation"].text)
        && KeptList(obj, "must_include", c.mustInclude)
        && KeptList(obj, "keywords", c.keywords)
  {
    var r := ParseLine(line, lineNo, decode);
    if r.Success? && r.value.Some? {
      var obj := decode(Strip(line)).value;
      StripSlice(TextOr(obj, "question"));
    }
  }

  /** The number of lines that are not blank. */
  function NonBlank(lines: seq<string>): (n: nat)
    ensures n <= |lines|
  {
    if lines == [] then 0
    else NonBlank(lines[..|lines| - 1]) + (if Strip(lines[|lines| - 1]) == [] then 0 else 1)
  }

  /** A load that succeeds has one valid case per non-blank line. */
  lemma {:induction false} LoadSuccessSpec(lines: seq<string>, decode: Decode)
    ensures var r := Load(lines, decode);
      r.Success? ==> |r.value| == NonBlank(lines) && forall j :: 0 <= j < |r.value| ==> ValidCase(r.value[j])
  {
    if lines != [] {
      var n := |lines|;
      LoadSuccessSpec(lines[..n - 1], decode);
      ParseLineSpec(lines[n - 1], n, decode);
    }
  }

  /** Error `e` names a non-blank line of `lines`, with that line's own
      rejection, and every line before it was accepted or skipped. */
  ghost predicate FailsAt(lines: seq<string>, decode: Decode, e: LoadError) {
    && 1 <= e.lineNo <= |lines|
    && Strip(lines[e.lineNo - 1]) != []
    && ParseLine(lines[e.lineNo - 1], e.lineNo, decode) == Failure(e)
    && forall j :: 0 <= j < e.lineNo - 1 ==> ParseLine(lines[j], j + 1, decode).Success?
  }

  /** A load that fails names a non-blank line, with that line's own
      rejection, and every line before it was accepted or skipped. */
  lemma {:induction false} LoadFailureSpec(lines: seq<string>, decode: Decode)
    ensures var r := Load(lines, decode);
      r.Failure? ==> FailsAt(lines, decode, r.error)
  {
    if lines != [] {
      var init, n := lines[..|lines| - 1], |lines|;
      if Load(init, decode).Failure? {
        LoadFailureSpec(init, decode);
        FailsAtExtend(lines, decode, Load(init, decode).error);
      } else if ParseLine(lines[n - 1], n, decode).Failure? {
        LoadedLinesParse(init, decode);
        FailsAtLast(lines, init, decode);
      }
    }
  }

  /** A failure on the first lines is a failure on all of them. */
  lemma FailsAtExtend(lines: seq<string>, decode: Decode, e: LoadError)
    requires lines != [] && FailsAt(lines[..|lines| - 1], decode, e)
    ensures FailsAt(lines, decode, e)
  {
    var init := lines[..|lines| - 1];
    forall j | 0 <= j < e.lineNo - 1
      ensures ParseLine(lines[j], j + 1, decode).Success?
    {
      assert lines[j] == init[j];
    }
    assert lines[e.lineNo - 1] == init[e.lineNo - 1];
  }

  /** A failure on the last line, after the others parsed. */
  lemma FailsAtLast(lines: seq<string>, init: seq<string>, decode: Decode)
    requires lines != [] && init == lines[..|lines| - 1]
    requires forall j :: 0 <= j < |init| ==> ParseLine(init[j], j + 1, decode).Success?
    requires ParseLine(lines[|lines| - 1], |lines|, decode).Failure?
    ensures FailsAt(lines, decode, ParseLine(lines[|lines| - 1], |lines|, decode).error)
  {
    var n := |lines|;
    var e := ParseLine(lines[n - 1], n, decode).error;
    ParseLineRejects(lines[n - 1], n, decode);
    assert e.lineNo == n;
    forall j | 0 <= j < n - 1
      ensures ParseLine(lines[j], j + 1, decode).Success?
    {
      assert lines[j] == init[j];
    }
  }

  /** Every line of a successful load parses. */
  lemma LoadedLinesParse(lines: seq<string>, decode: Decode)
    requires Load(lines, decode).Success?
    ensures forall j :: 0 <= j < |lines| ==> ParseLine(lines[j], j + 1, decode).Success?
  {
    forall j | 0 <= j < |lines|
      ensures ParseLine(lines[j], j + 1, decode).Success?
    {
      InitLinesParse(lines, j, decode);
    }
  }

  /** A rejected line is not blank, and the rejection carries its number. */
  lemma ParseLineRejects(line: string, lineNo: nat, decode: Decode)
    ensures var r := ParseLine(line, lineNo, decode);
      r.Failure? ==> r.error.lineNo == lineNo && Strip(line) != []
  {
  }

  /** When loading the first lines succeeds, each of them parses. */
  lemma {:induction false} InitLinesParse(lines: seq<string>, j: nat, decode: Decode)
    requires j < |lines| && Load(lines, decode).Success?
    ensures ParseLine(lines[j], j + 1, decode).Success?
  {
    var init := lines[..|lines| - 1];
    if j < |lines| - 1 {
      assert lines[j] == init[j];
      InitLinesParse(init, j, decode);
    }
  }

  // ----- per-case checks -----

  /** `_sources_doc_ids`: the non-empty document ids of the sources. */
  function DocIds(sources: seq<SourceItem>): seq<string> {
    if sources == [] then []
    else DocIds(sources[..|sources| - 1]) + (if sources[|sources| - 1].docId != "" then [sources[|sources| - 1].docId] else [])
  }

  lemma {:induction false} DocIdsSpec(sources: seq<SourceItem>, d: string)
    ensures d in DocIds(sources) <==> d != "" && exists j :: 0 <= j < |sources| && sources[j].docId == d
  {
    if sources != [] {
      var init := sources[..|sources| - 1];
      DocIdsSpec(init, d);
      if exists j :: 0 <= j < |init| && init[j].docId == d {
        var j :| 0 <= j < |init| && init[j].docId == d;
        assert sources[j] == init[j];
      }
      if exists j :: 0 <= j < |sources| - 1 && sources[j].docId == d {
        var j :| 0 <= j < |sources| - 1 && sources[j].docId == d;
        assert init[j] == sources[j];
      }
    }
  }

  /** Some listed id is among `ids`. */
  function AnyIn(must: seq<string>, ids: seq<string>): bool {
    must != [] && (must[0] in ids || AnyIn(must[1..], ids))
  }

  /** `_has_must_include`. */
  function HasMustInclude(res: AskResponse, must: seq<string>): bool {
    must == [] || AnyIn(must, DocIds(res.sources))
  }

  lemma {:induction false} AnyInSpec(must: seq<string>, ids: seq<string>)
    ensures AnyIn(must, ids) <==> exists i :: 0 <= i < |must| && must[i] in ids
  {
    if must != [] {
      AnyInSpec(must[1..], ids);
      if exists i :: 0 <= i < |must| - 1 && must[1..][i] in ids {
        var i :| 0 <= i < |must| - 1 && must[1..][i] in ids;
        assert must[i + 1] in ids;
      }
      if exists i :: 0 <= i < |must| && must[i] in ids {
        var i :| 0 <= i < |must| && must[i] in ids;
        if i > 0 {
          assert must[1..][i - 1] in ids;
        }
      }
    }
  }

  /** An empty list is always met; otherwise some listed id must be the
      non-empty document id of some source. */
  lemma HasMustIncludeSpec(res: AskResponse, must: seq<string>)
    ensures HasMustInclude(res, must) <==>
              must == [] || exists i :: 0 <= i < |must| && must[i] != "" && MentionedBy(res.sources, must[i])
  {
    AnyInSpec(must, DocIds(res.sources));
    forall i | 0 <= i < |must|
      ensures must[i] in DocIds(res.sources) <==> must[i] != "" && MentionedBy(res.sources, must[i])
    {
      DocIdsSpec(res.sources, must[i]);
    }
  }

  /** Some source has document id `d`. */
  ghost predicate MentionedBy(sources: seq<SourceItem>, d: string) {
    exists j :: 0 <= j < |sources| && sources[j].docId == d
  }

  /** Every keyword, lowered, is a substring of `ans`. */
  function AllIn(kws: seq<string>, ans: string): bool {
    kws == [] || (IsSubstring(Lower(kws[0]), ans) && AllIn(kws[1..], ans))
  }

  /** `_answer_contains_keywords`. */
  function AnswerContainsKeywords(res: AskResponse, kws: seq<string>): bool {
    kws == [] || AllIn(kws, Lower(res.answer))
  }

  /** The keyword occurs in the answer, ignoring ASCII case. */
  ghost predicate ContainsIgnoringCase(answer: string, k: string) {
    exists p :: OccursAt(Lower(k), Lower(answer), p)
  }

  lemma {:induction false} AllInSpec(kws: seq<string>, ans: string)
    ensures AllIn(kws, ans) <==> forall i :: 0 <= i < |kws| ==> IsSubstring(Lower(kws[i]), ans)
  {
    if kws != [] {
      AllInSpec(kws[1..], ans);
      assert forall i :: 0 < i < |kws| ==> kws[i] == kws[1..][i - 1];
    }
  }

  /** The answer passes exactly when every keyword occurs in it, ignoring
      ASCII case; an empty list is always met. */
  lemma AnswerContainsKeywordsSpec(res: AskResponse, kws: seq<string>)
    ensures AnswerContainsKeywords(res, kws) <==> forall i :: 0 <= i < |kws| ==> ContainsIgnoringCase(res.answer, kws[i])
  {
    AllInSpec(kws, Lower(res.answer));
    forall i | 0 <= i < |kws|
      ensures IsSubstring(Lower(kws[i]), Lower(res.answer)) <==> ContainsIgnoringCase(res.answer, kws[i])
    {
      IsSubstringSpec(Lower(kws[i]), Lower(res.answer));
    }
  }

  /** `_is_refusal`. */
  function IsRefusal(res: AskResponse): bool {
    Strip(res.answer) == RefusalText
  }

  // ----- the scoring loop of main -----

  /** `answer` on the `i`-th case's question; `None` when it raises. */
  type Ask = (nat, string) -> Option<AskResponse>

  /** The notes a scored case can collect. */
  datatype Note = NoSources | Refused | MissedMustInclude | MissingKeywords | DidNotRefuse | SourcesNotEmpty

  function NoteText(n: Note): string {
    match n
    case NoSources => "no_sources"
    case Refused => "refused"
    case MissedMustInclude => "missed_must_include"
    case MissingKeywords => "missing_keywords"
    case DidNotRefuse => "did_not_refuse"
    case SourcesNotEmpty => "sources_not_empty"
  }

  /** The line reported for one case. */
  datatype Verdict = Errored(id: string) | Scored(id: string, caseOk: bool, notes: seq<Note>)

  /** The counters of `main`; latencies and costs are collected for each
      case that did not raise. */
  datatype Tally = Tally(
    total: nat,
    shouldAnswer: nat,
    shouldRefuse: nat,
    hitK: nat,
    grounded: nat,
    refusalOk: nat,
    emptyOutputs: nat,
    latencies: seq<int>,
    costs: seq<real>)

  function Init(total: nat): Tally {
    Tally(total, 0, 0, 0, 0, 0, 0, [], [])
  }

  function B(b: bool): nat {
    if b then 1 else 0
  }

  /** What the scoring loop looks at in an answer: the number of sources,
      whether it is the refusal, whether it meets the case's
      `must_include` list and whether it contains the case's keywords. */
  datatype Checks = Checks(sourcesN: nat, isRefusal: bool, hasMust: bool, kwOk: bool)

  function ChecksOf(c: Case, res: AskResponse): Checks {
    Checks(|res.sources|, IsRefusal(res), HasMustInclude(res, c.mustInclude), AnswerContainsKeywords(res, c.keywords))
  }

  /** The notes of a case, from its checks. */
  function NotesFor(c: Case, ch: Checks): seq<Note> {
    if c.expectation == ShouldAnswer then
      (if ch.sourcesN > 0 then [] else [NoSources])
      + (if ch.isRefusal then [Refused] else [])
      + (if c.mustInclude != [] && !ch.hasMust then [MissedMustInclude] else [])
      + (if c.keywords != [] && !ch.kwOk then [MissingKeywords] else [])
    else if ch.isRefusal && ch.sourcesN == 0 then []
    else (if !ch.isRefusal then [DidNotRefuse] else []) + (if ch.sourcesN != 0 then [SourcesNotEmpty] else [])
  }

  /** The notes of a case that returned `res`. */
  function Notes(c: Case, res: AskResponse): seq<Note> {
    NotesFor(c, ChecksOf(c, res))
  }

  /** The counters after a case that returned an answer with these checks,
      latency and cost. */
  function Counted(t: Tally, c: Case, ch: Checks, latencyMs: int, costUsd: real): Tally {
    var latencies, costs := t.latencies + [latencyMs], t.costs + [costUsd];
    if c.expectation == ShouldAnswer then
      Tally(t.total, t.shouldAnswer + 1, t.shouldRefuse, t.hitK + B(c.mustInclude != [] && ch.hasMust),
            t.grounded + B(ch.sourcesN > 0), t.refusalOk, t.emptyOutputs + B(ch.sourcesN == 0) + B(ch.isRefusal),
            latencies, costs)
    else
      Tally(t.total, t.shouldAnswer, t.shouldRefuse + 1, t.hitK, t.grounded,
            t.refusalOk + B(ch.isRefusal && ch.sourcesN == 0), t.emptyOutputs, latencies, costs)
  }

  /** The counters after one case; a case that raised changes nothing. */
  function Count(t: Tally, c: Case, out: Option<AskResponse>): Tally {
    if out.None? then t
    else Counted(t, c, ChecksOf(c, out.value), out.value.latencyMs, out.value.costUsd)
  }

  function VerdictOf(c: Case, out: Option<AskResponse>): Verdict {
    if out.None? then Errored(c.id) else Scored(c.id, Notes(c, out.value) == [], Notes(c, out.value))
  }

  /** The counters after the first `k` cases. */
  function Tallied(cases: seq<Case>, ask: Ask, k: nat): Tally
    requires k <= |cases|
  {
    if k == 0 then Init(|cases|)
    else Count(Tallied(cases, ask, k - 1), cases[k - 1], ask(k - 1, cases[k - 1].question))
  }

  /** The verdicts of the first `k` cases. */
  function Verdicts(cases: seq<Case>, ask: Ask, k: nat): seq<Verdict>
    requires k <= |cases|
  {
    if k == 0 then []
    else Verdicts(cases, ask, k - 1) + [VerdictOf(cases[k - 1], ask(k - 1, cases[k - 1].question))]
  }

  /** The should-answer branch of the scoring loop. */
  method ScoreAnswer(t: Tally, c: Case, ch: Checks, latencyMs: int, costUsd: real)
    returns (t': Tally, caseOk: bool, notes: seq<Note>)
    requires c.expectation == ShouldAnswer
    ensures t' == Counted(t, c, ch, latencyMs, costUsd) && notes == NotesFor(c, ch) && (caseOk <==> notes == [])
  {
    var shouldAnswer, hitK, grounded, emptyOutputs := t.shouldAnswer + 1, t.hitK, t.grounded, t.emptyOutputs;
    caseOk := true;
    notes := [];
    if ch.sourcesN > 0 {
      grounded := grounded + 1;
    } else {
      caseOk := false;
      notes := notes + [NoSources];
      emptyOutputs := emptyOutputs + 1;
    }
    if ch.isRefusal {
      caseOk := false;
      notes := notes + [Refused];
      emptyOutputs := emptyOutputs + 1;
    }
    if c.mustInclude != [] {
      if ch.hasMust {
        hitK := hitK + 1;
      } else {
        caseOk := false;
        notes := notes + [MissedMustInclude];
      }
    }
    if c.keywords != [] && !ch.kwOk {
      caseOk := false;
      notes := notes + [MissingKeywords];
    }
    t' := Tally(t.total, shouldAnswer, t.shouldRefuse, hitK, grounded, t.refusalOk, emptyOutputs,
                t.latencies + [latencyMs], t.costs + [costUsd]);
  }

  /** The should-refuse branch of the scoring loop. */
  method ScoreRefuse(t: Tally, c: Case, ch: Checks, latencyMs: int, costUsd: real)
    returns (t': Tally, caseOk: bool, notes: seq<Note>)
    requires c.expectation != ShouldAnswer
    ensures t' == Counted(t, c, ch, latencyMs, costUsd) && notes == NotesFor(c, ch) && (caseOk <==> notes == [])
  {
    var refusalOk := t.refusalOk;
    caseOk := true;
    notes := [];
    if ch.isRefusal && ch.sourcesN == 0 {
      refusalOk := refusalOk + 1;
    } else {
      caseOk := false;
      if !ch.isRefusal {
        notes := notes + [DidNotRefuse];
      }
      if ch.sourcesN != 0 {
        notes := notes + [SourcesNotEmpty];
      }
    }
    t' := Tally(t.total, t.shouldAnswer, t.shouldRefuse + 1, t.hitK, t.grounded, refusalOk, t.emptyOutputs,
                t.latencies + [latencyMs], t.costs + [costUsd]);
  }

  /** The body of the scoring loop for one case. */
  method ScoreCase(t: Tally, c: Case, out: Option<AskResponse>) returns (t': Tally, v: Verdict)
    ensures t' == Count(t, c, out) && v == VerdictOf(c, out)
  {
    if out.None? {
      return t, Errored(c.id);
    }
    var res := out.value;
    var sourcesN := |res.sources|;
    var isRefusal := IsRefusal(res);
    var hasMust := HasMustInclude(res, c.mustInclude);
    var kwOk := AnswerContainsKeywords(res, c.keywords);
    var ch := Checks(sourcesN, isRefusal, hasMust, kwOk);
    var caseOk, notes;
    if c.expectation == ShouldAnswer {
      t', caseOk, notes := ScoreAnswer(t, c, ch, res.latencyMs, res.costUsd);
    } else {
      t', caseOk, notes := ScoreRefuse(t, c, ch, res.latencyMs, res.costUsd);
    }
    v := Scored(c.id, caseOk, notes);
  }

  /** The scoring loop of `main`: one `answer` call per case, in order. */
  method Score(cases: seq<Case>, ask: Ask) returns (t: Tally, verdicts: seq<Verdict>)
    ensures t == Tallied(cases, ask, |cases|) && verdicts == Verdicts(cases, ask, |cases|)
  {
    t := Init(|cases|);
    verdicts := [];
    for i := 0 to |cases|
      invariant t == Tallied(cases, ask, i) && verdicts == Verdicts(cases, ask, i)
    {
      var c := cases[i];
      var out := ask(i, c.question);
      var v;
      t, v := ScoreCase(t, c, out);
      verdicts := verdicts + [v];
    }
  }

  /** A should-answer case passes exactly when it has sources, is not the
      refusal, meets its `must_include` list when it has one and its
      keywords when it has any; any other case passes exactly when it is
      the refusal with no sources. */
  lemma NotesSpec(c: Case, res: AskResponse)
    ensures Notes(c, res) == [] <==>
              if c.expectation == ShouldAnswer then
                && |res.sources| > 0 && !IsRefusal(res)
                && (c.mustInclude == [] || HasMustInclude(res, c.mustInclude))
                && (c.keywords == [] || AnswerContainsKeywords(res, c.keywords))
              else IsRefusal(res) && |res.sources| == 0
  {
  }

  /** A should-answer case with no sources that is refused adds two to
      `empty_outputs`; `hit@k` counts a case only when its `must_include`
      list is non-empty and met. */
  lemma CountSpec(t: Tally, c: Case, res: AskResponse)
    ensures var t' := Count(t, c, Some(res));
      && t'.emptyOutputs <= t.emptyOutputs + 2
      && (t'.emptyOutputs == t.emptyOutputs + 2 <==>
            c.expectation == ShouldAnswer && |res.sources| == 0 && IsRefusal(res))
      && (t'.hitK == t.hitK + 1 <==>
            c.expectation == ShouldAnswer && c.mustInclude != [] && HasMustInclude(res, c.mustInclude))
      && (c.expectation != ShouldAnswer ==> t'.emptyOutputs == t.emptyOutputs && t'.hitK == t.hitK)
  {
  }

  /** The bounds the counters keep after `k` cases out of `total`: the
      cases that did not raise are split between the two expectations,
      one latency and one cost each; each rate's numerator is at most its
      denominator (twice it for `empty_outputs`); and every should-answer
      case is grounded or counted as empty. */
  ghost predicate Bounded(t: Tally, total: nat, k: nat) {
    && t.total == total
    && t.shouldAnswer + t.shouldRefuse == |t.latencies| == |t.costs| <= k
    && t.hitK <= t.shouldAnswer && t.grounded <= t.shouldAnswer
    && t.refusalOk <= t.shouldRefuse
    && t.emptyOutputs <= 2 * t.shouldAnswer
    && t.grounded + t.emptyOutputs >= t.shouldAnswer
  }

  /** One more case keeps the bounds. */
  lemma CountBounded(t: Tally, c: Case, out: Option<AskResponse>, total: nat, k: nat)
    requires Bounded(t, total, k)
    ensures Bounded(Count(t, c, out), total, k + 1)
  {
  }

  /** The counters keep their bounds over any number of cases. */
  lemma {:induction false} TalliedSpec(cases: seq<Case>, ask: Ask, k: nat)
    requires k <= |cases|
    ensures Bounded(Tallied(cases, ask, k), |cases|, k)
  {
    if k > 0 {
      TalliedSpec(cases, ask, k - 1);
      CountBounded(Tallied(cases, ask, k - 1), cases[k - 1], ask(k - 1, cases[k - 1].question), |cases|, k - 1);
    }
  }

  /** `_rate`. */
  function Rate(x: int, d: int): real {
    if d > 0 then x as real / d as real else 0.0
  }

  /** A zero denominator gives 0; a numerator between 0 and `m` times the
      denominator gives a rate between 0 and `m`. */
  lemma RateSpec(x: int, d: int, m: nat)
    ensures d <= 0 ==> Rate(x, d) == 0.0
    ensures 0 <= x <= m * d ==> 0.0 <= Rate(x, d) <= m as real
  {
    if d > 0 && 0 <= x <= m * d {
      assert x as real <= m as real * d as real;
    }
  }

  /** The four rates of the summary: hit@k, the grounded rate and the
      refusal quality lie between 0 and 1, the empty rate between 0 and 2. */
  lemma RatesSpec(cases: seq<Case>, ask: Ask)
    ensures var t := Tallied(cases, ask, |cases|);
      && 0.0 <= Rate(t.hitK, t.shouldAnswer) <= 1.0
      && 0.0 <= Rate(t.grounded, t.shouldAnswer) <= 1.0
      && 0.0 <= Rate(t.refusalOk, t.shouldRefuse) <= 1.0
      && 0.0 <= Rate(t.emptyOutputs, t.shouldAnswer) <= 2.0
  {
    var t := Tallied(cases, ask, |cases|);
    TalliedSpec(cases, ask, |cases|);
    RateSpec(t.hitK, t.shouldAnswer, 1);
    RateSpec(t.grounded, t.shouldAnswer, 1);
    RateSpec(t.refusalOk, t.shouldRefuse, 1);
    RateSpec(t.emptyOutputs, t.shouldAnswer, 2);
  }

  /** The pipeline's refusal is recognised as one: it passes a
      should-refuse case, and on a should-answer case it adds two to
      `empty_outputs`. */
  lemma PipelineRefusalScored(c: Case, latencyMs: int, requestId: string, t: Tally)
    ensures IsRefusal(Pipeline.Refusal(latencyMs, requestId))
    ensures c.expectation != ShouldAnswer ==> Notes(c, Pipeline.Refusal(latencyMs, requestId)) == []
    ensures c.expectation == ShouldAnswer ==>
              Count(t, c, Some(Pipeline.Refusal(latencyMs, requestId))).emptyOutputs == t.emptyOutputs + 2
  {
    assert Pipeline.RefusalText == RefusalText;
    RefusalTextStripped();
  }

  /** The refusal text starts and ends with a character that is not
      whitespace. */
  lemma RefusalTextEnds()
    ensures IsStripped(RefusalText)
  {
    var a := "I don't know based ";
    assert RefusalText[0] == a[0];
  }

  /** The refusal text is its own strip. */
  lemma RefusalTextStripped()
    ensures Strip(RefusalText) == RefusalText
  {
    RefusalTextEnds();
    StripIdentity(RefusalText);
  }
}

=== FILE: generator.dfy ===
/**
 * Answer generation (app/rag/generator.py): the strict answer schema, the
 * extraction of text and token usage from a model response, and the retry
 * loop around the language-model call.
 *
 * The model service is an oracle `Service` from the attempt number and the
 * messages sent to a reply; `json.loads` is an oracle `Parse` from the
 * extracted text to a decoded answer, or nothing when the text is not JSON
 * of the answer's shape. Waits are recorded, not slept.
 */
module Generator {
  import opened Wrappers
  import opened Text
  import opened Schemas
  import opened Prompt

  /** A citation of a context snippet. */
  datatype Citation = Citation(docId: string, chunkId: int, page: Option<int> := None)

  predicate ValidCitation(c: Citation) {
    |c.docId| >= 1 && c.chunkId >= 0 && (c.page.None? || c.page.value >= 1)
  }

  /** The answer the model must return; citations default to none. */
  datatype GeneratedAnswer = GeneratedAnswer(answer: string, citations: seq<Citation> := [])

  predicate ValidGeneratedAnswer(a: GeneratedAnswer) {
    |a.answer| >= 1 && forall i :: 0 <= i < |a.citations| ==> ValidCitation(a.citations[i])
  }

  /** The usage object of a response: each count is absent (or None) or a number. */
  datatype RawUsage = RawUsage(inputTokens: Option<int>, outputTokens: Option<int>, totalTokens: Option<int>)

  /** A model response: its `output_text`, if any, its string form, and its usage object, if any. */
  datatype Response = Response(outputText: Option<string>, repr: string, usage: Option<RawUsage>)

  datatype Reply = Responded(response: Response) | CallError(message: string)

  type Service = (nat, seq<Message>) -> Reply

  type Parse = string -> Option<GeneratedAnswer>

  /** Generator settings; the retry count is clamped at construction. */
  datatype Generator = Generator(model: string, temperature: real, maxOutputTokens: int, timeoutS: real, retries: int)

  predicate ValidGenerator(g: Generator) {
    g.retries >= 0
  }

  /** `Generator.__init__`. */
  function NewGenerator(model: string, temperature: real := 0.2, maxOutputTokens: int := 400,
                        timeoutS: real := 30.0, retries: int := 2): (g: Generator)
    ensures ValidGenerator(g)
    ensures g.retries == Max(0, retries)
    ensures g.model == model && g.maxOutputTokens == maxOutputTokens
    ensures g.temperature == temperature && g.timeoutS == timeoutS
  {
    Generator(model, temperature, maxOutputTokens, timeoutS, Max(0, retries))
  }

  /** `_extract_text`: the stripped `output_text` when it is non-empty,
      otherwise the stripped string form of the response. */
  function ExtractText(r: Response): (t: string)
    ensures r.outputText.Some? && r.outputText.value != [] ==> t == Strip(r.outputText.value)
    ensures !(r.outputText.Some? && r.outputText.value != []) ==> t == Strip(r.repr)
  {
    if r.outputText.Some? && r.outputText.value != [] then Strip(r.outputText.value) else Strip(r.repr)
  }

  /** The extracted text never has whitespace at either end. A non-empty
      `output_text` is always used, keeping all its non-whitespace
      characters in order, so one that is only whitespace gives "" and the
      string form of the response is not consulted. */
  lemma ExtractTextSpec(r: Response)
    ensures IsStripped(ExtractText(r))
    ensures r.outputText.Some? && r.outputText.value != [] ==>
      NonSpaces(ExtractText(r)) == NonSpaces(r.outputText.value)
    ensures r.outputText.Some? && r.outputText.value != [] && AllSpace(r.outputText.value, 0, |r.outputText.value|) ==>
      ExtractText(r) == []
  {
    var s := if r.outputText.Some? && r.outputText.value != [] then r.outputText.value else r.repr;
    StripSlice(s);
    StripKeepsContent(s);
  }

  /** `x or 0` on an optional count. */
  function CountOrZero(x: Option<int>): int {
    if x.Some? then x.value else 0
  }

  /** `_extract_usage`. */
  function ExtractUsage(u: Option<RawUsage>): Option<Usage> {
    if u.None? then None
    else
      var i := CountOrZero(u.value.inputTokens);
      var o := CountOrZero(u.value.outputTokens);
      var t := if CountOrZero(u.value.totalTokens) != 0 then u.value.totalTokens.value else i + o;
      if i == 0 && o == 0 && t == 0 then None
      else Some(Usage(i, o, t))
  }

  /** There is no usage exactly when the response has no usage object or all
      its counts are zero or missing; the total falls back to input plus
      output when it is zero or missing. */
  lemma ExtractUsageSpec(u: Option<RawUsage>)
    ensures ExtractUsage(u).None? <==>
      u.None? || (CountOrZero(u.value.inputTokens) == 0 && CountOrZero(u.value.outputTokens) == 0
                  && CountOrZero(u.value.totalTokens) == 0)
    ensures ExtractUsage(u).Some? ==>
      && ExtractUsage(u).value.inputTokens == CountOrZero(u.value.inputTokens)
      && ExtractUsage(u).value.outputTokens == CountOrZero(u.value.outputTokens)
      && (CountOrZero(u.value.totalTokens) == 0 ==>
            ExtractUsage(u).value.totalTokens == ExtractUsage(u).value.inputTokens + ExtractUsage(u).value.outputTokens)
      && (CountOrZero(u.value.totalTokens) != 0 ==> ExtractUsage(u).value.totalTokens == u.value.totalTokens.value)
  {
  }

  /** `_parse_json`: the decoded answer if it passes validation. */
  function ParseAnswer(parse: Parse, text: string): (r: Option<GeneratedAnswer>)
    ensures r.Some? ==> ValidGeneratedAnswer(r.value) && parse(text) == r
    ensures parse(text).Some? && ValidGeneratedAnswer(parse(text).value) ==> r == parse(text)
  {
    var a := parse(text);
    if a.Some? && ValidGeneratedAnswer(a.value) then a else None
  }

  // ----- The retry loop -----

  const Reinforcement: string := "\n\nIMPORTANT: Return ONLY a valid JSON object. No markdown, no prose, no code fences, no extra keys."

  const IndexErrorMessage: string := "list index out of range"

  /** What one attempt came to. */
  datatype Try =
    | Parsed(answer: GeneratedAnswer, usage: Option<Usage>)
    | Malformed
    | Failed(message: string)

  datatype GenError = GenerationFailed(last: Try)

  datatype GenerateResult = GenerateResult(data: GeneratedAnswer, model: string, usage: Option<Usage>)

  /** Every attempt, the waits between attempts, and the message lists sent. */
  datatype Trace = Trace(tries: seq<Try>, waits: seq<real>, sent: seq<seq<Message>>)

  datatype GenRun = GenRun(outcome: Result<GenerateResult, GenError>, trace: Trace)

  /** The messages of a later attempt: the first message kept, the second
      message's content extended by the reinforcement, the rest dropped. */
  function Reinforce(ms: seq<Message>): (r: seq<Message>)
    requires |ms| >= 2
    ensures |r| == 2 && r[0] == ms[0]
    ensures r[1].role == "user" && |r[1].content| == |ms[1].content| + |Reinforcement|
    ensures r[1].content[..|ms[1].content|] == ms[1].content && r[1].content[|ms[1].content|..] == Reinforcement
  {
    [ms[0], Message("user", ms[1].content + Reinforcement)]
  }

  /** The messages attempt `attempt` sends, given those of the attempt
      before; none when the rebinding itself raises (fewer than two
      messages). */
  function Prepared(ms: seq<Message>, attempt: nat): Option<seq<Message>> {
    if attempt <= 1 then Some(ms)
    else if |ms| < 2 then None
    else Some(Reinforce(ms))
  }

  /** One attempt: the call, then text extraction and parsing. */
  function TryOnce(service: Service, parse: Parse, sent: Option<seq<Message>>, attempt: nat): (t: Try)
    ensures t.Parsed? ==> ValidGeneratedAnswer(t.answer)
    ensures sent.None? ==> t == Failed(IndexErrorMessage)
  {
    if sent.None? then Failed(IndexErrorMessage)
    else
      match service(attempt, sent.value)
      case CallError(msg) => Failed(msg)
      case Responded(resp) =>
        var a := ParseAnswer(parse, ExtractText(resp));
        if a.Some? then Parsed(a.value, ExtractUsage(resp.usage)) else Malformed
  }

  /** The service's reply to `ms` at attempt `attempt` is a response whose
      extracted text parses and validates as `a`, and `u` is its usage. */
  ghost predicate RepliedWith(service: Service, parse: Parse, ms: seq<Message>, attempt: nat,
                              a: GeneratedAnswer, u: Option<Usage>)
  {
    var rep := service(attempt, ms);
    && rep.Responded?
    && ParseAnswer(parse, ExtractText(rep.response)) == Some(a)
    && u == ExtractUsage(rep.response.usage)
  }

  /** What an attempt means for the reply: a failed rebinding makes no call
      and fails with the index error; a raised call fails with its message;
      a response parses exactly when its extracted text decodes to a valid
      answer, which is then the attempt's answer, with the response's usage;
      any other response is malformed. */
  lemma TryOnceSpec(service: Service, parse: Parse, sent: Option<seq<Message>>, attempt: nat)
    ensures var t := TryOnce(service, parse, sent, attempt);
      && (sent.None? ==> t == Failed(IndexErrorMessage))
      && (sent.Some? && service(attempt, sent.value).CallError? ==>
            t == Failed(service(attempt, sent.value).message))
      && (t.Parsed? <==>
            sent.Some? && service(attempt, sent.value).Responded?
            && ParseAnswer(parse, ExtractText(service(attempt, sent.value).response)).Some?)
      && (t.Malformed? <==>
            sent.Some? && service(attempt, sent.value).Responded?
            && ParseAnswer(parse, ExtractText(service(attempt, sent.value).response)).None?)
      && (t.Parsed? ==> sent.Some? && RepliedWith(service, parse, sent.value, attempt, t.answer, t.usage))
  {
  }

  /** The wait after a failed attempt that is not the last. */
  function WaitAfter(t: Try, attempt: nat): real {
    if t.Malformed? then 0.4 * attempt as real else 0.5 * attempt as real
  }

  /** The loop of `generate` from `attempt` on, with `ms` the messages of
      the attempt before and `tr` what happened so far. */
  function Run(g: Generator, service: Service, parse: Parse, ms: seq<Message>, attempt: nat, tr: Trace): GenRun
    requires 1 <= attempt <= g.retries + 1
    decreases g.retries + 1 - attempt
  {
    var p := Prepared(ms, attempt);
    var t := TryOnce(service, parse, p, attempt);
    var sent := tr.sent + (if p.Some? then [p.value] else []);
    if t.Parsed? then
      GenRun(Success(GenerateResult(t.answer, g.model, t.usage)), Trace(tr.tries + [t], tr.waits, sent))
    else if attempt <= g.retries then
      Run(g, service, parse, if p.Some? then p.value else ms, attempt + 1,
          Trace(tr.tries + [t], tr.waits + [WaitAfter(t, attempt)], sent))
    else
      GenRun(Failure(GenerationFailed(t)), Trace(tr.tries + [t], tr.waits, sent))
  }

  /** `Generator.generate` from the start. */
  function GenerateOutcome(g: Generator, service: Service, parse: Parse, messages: seq<Message>): GenRun
    requires ValidGenerator(g)
  {
    Run(g, service, parse, messages, 1, Trace([], [], []))
  }

  /** One pass of the loop body. */
  method GenerateStep(g: Generator, service: Service, parse: Parse, ms: seq<Message>, attempt: nat, tr: Trace)
    returns (done: bool, res: Result<GenerateResult, GenError>, ms': seq<Message>, tr': Trace)
    requires 1 <= attempt <= g.retries + 1
    ensures done ==> GenRun(res, tr') == Run(g, service, parse, ms, attempt, tr)
    ensures !done ==> attempt <= g.retries && Run(g, service, parse, ms, attempt, tr) == Run(g, service, parse, ms', attempt + 1, tr')
  {
    var sent: Option<seq<Message>>;
    if attempt > 1 {
      if |ms| < 2 {
        sent := None;
      } else {
        sent := Some([ms[0], Message("user", ms[1].content + Reinforcement)]);
      }
    } else {
      sent := Some(ms);
    }
    var t := TryOnce(service, parse, sent, attempt);
    var sentLog := tr.sent + (if sent.Some? then [sent.value] else []);
    ms' := if sent.Some? then sent.value else ms;
    if t.Parsed? {
      return true, Success(GenerateResult(t.answer, g.model, t.usage)), ms', Trace(tr.tries + [t], tr.waits, sentLog);
    }
    if attempt <= g.retries {
      return false, Failure(GenerationFailed(t)), ms', Trace(tr.tries + [t], tr.waits + [WaitAfter(t, attempt)], sentLog);
    }
    return true, Failure(GenerationFailed(t)), ms', Trace(tr.tries + [t], tr.waits, sentLog);
  }

  /** `Generator.generate`: attempts 1 to `retries + 1`, each after the
      rebinding of the messages, until one parses. */
  method Generate(g: Generator, service: Service, parse: Parse, messages: seq<Message>)
    returns (res: Result<GenerateResult, GenError>, trace: Trace)
    requires ValidGenerator(g)
    ensures GenRun(res, trace) == GenerateOutcome(g, service, parse, messages)
  {
    var ms := messages;
    var tr := Trace([], [], []);
    var attempt := 1;
    while true
      invariant 1 <= attempt <= g.retries + 1
      invariant GenerateOutcome(g, service, parse, messages) == Run(g, service, parse, ms, attempt, tr)
      decreases g.retries + 1 - attempt
    {
      var done;
      done, res, ms, tr := GenerateStep(g, service, parse, ms, attempt, tr);
      if done {
        return res, tr;
      }
      attempt := attempt + 1;
    }
  }

  // ----- What the loop promises -----

  /** Attempts after `start` that did not parse. */
  ghost predicate FailedFrom(tries: seq<Try>, start: nat) {
    forall j :: start <= j < |tries| ==> !tries[j].Parsed?
  }

  /** The attempts: the run adds between one and `retries + 2 - attempt` of
      them; all but the last fail; it succeeds exactly when the last parses,
      with that attempt's answer and usage; a failure has used up every
      attempt and carries the last one. */
  lemma {:induction false} RunTries(g: Generator, service: Service, parse: Parse, ms: seq<Message>, attempt: nat, tr: Trace)
    requires 1 <= attempt <= g.retries + 1
    requires FailedFrom(tr.tries, 0)
    ensures var r := Run(g, service, parse, ms, attempt, tr);
      && |tr.tries| + 1 <= |r.trace.tries| <= |tr.tries| + g.retries + 2 - attempt
      && r.trace.tries[..|tr.tries|] == tr.tries
      && FailedFrom(r.trace.tries[..|r.trace.tries| - 1], 0)
      && (r.outcome.Success? <==> r.trace.tries[|r.trace.tries| - 1].Parsed?)
      && (r.outcome.Success? ==>
            && r.outcome.value.data == r.trace.tries[|r.trace.tries| - 1].answer
            && r.outcome.value.usage == r.trace.tries[|r.trace.tries| - 1].usage
            && r.outcome.value.model == g.model
            && ValidGeneratedAnswer(r.outcome.value.data))
      && (r.outcome.Failure? ==>
            && |r.trace.tries| == |tr.tries| + g.retries + 2 - attempt
            && r.outcome.error == GenerationFailed(r.trace.tries[|r.trace.tries| - 1]))
    decreases g.retries + 1 - attempt
  {
    var p := Prepared(ms, attempt);
    var t := TryOnce(service, parse, p, attempt);
    var sent := tr.sent + (if p.Some? then [p.value] else []);
    if !t.Parsed? && attempt <= g.retries {
      var tr' := Trace(tr.tries + [t], tr.waits + [WaitAfter(t, attempt)], sent);
      RunTries(g, service, parse, if p.Some? then p.value else ms, attempt + 1, tr');
      var r := Run(g, service, parse, if p.Some? then p.value else ms, attempt + 1, tr');
      assert r.trace.tries[..|tr.tries|] == r.trace.tries[..|tr'.tries|][..|tr.tries|];
    }
  }

  /** A successful run ends with a call: its answer and usage are those of
      the service's reply to the last messages sent, at the last attempt. */
  lemma {:induction false} RunReply(g: Generator, service: Service, parse: Parse, ms: seq<Message>, attempt: nat, tr: Trace)
    requires 1 <= attempt <= g.retries + 1
    ensures var r := Run(g, service, parse, ms, attempt, tr);
      r.outcome.Success? ==>
        && |r.trace.sent| > |tr.sent| && |r.trace.tries| > |tr.tries|
        && RepliedWith(service, parse, r.trace.sent[|r.trace.sent| - 1], attempt + |r.trace.tries| - |tr.tries| - 1,
                       r.outcome.value.data, r.outcome.value.usage)
    decreases g.retries + 1 - attempt
  {
    var p := Prepared(ms, attempt);
    var t := TryOnce(service, parse, p, attempt);
    var sent := tr.sent + (if p.Some? then [p.value] else []);
    TryOnceSpec(service, parse, p, attempt);
    if !t.Parsed? && attempt <= g.retries {
      var tr' := Trace(tr.tries + [t], tr.waits + [WaitAfter(t, attempt)], sent);
      RunTriesPrefix(g, service, parse, if p.Some? then p.value else ms, attempt + 1, tr');
      RunReply(g, service, parse, if p.Some? then p.value else ms, attempt + 1, tr');
    }
  }

  /** Try `j` is attempt `j + 1` on the `j`-th message list sent; attempts
      past the lists sent made no call. */
  ghost predicate CallsMatch(service: Service, parse: Parse, tries: seq<Try>, sent: seq<seq<Message>>) {
    |sent| <= |tries| && forall j :: 0 <= j < |sent| ==> tries[j] == TryOnce(service, parse, Some(sent[j]), j + 1)
  }

  /** Every attempt that made a call is what the service's reply to the
      messages it sent comes to. */
  lemma {:induction false} RunCalls(g: Generator, service: Service, parse: Parse, ms: seq<Message>, attempt: nat, tr: Trace)
    requires 1 <= attempt <= g.retries + 1
    requires |tr.sent| == |tr.tries| == attempt - 1 || (|ms| < 2 && attempt > 1)
    requires CallsMatch(service, parse, tr.tries, tr.sent)
    ensures var r := Run(g, service, parse, ms, attempt, tr);
      CallsMatch(service, parse, r.trace.tries, r.trace.sent)
    decreases g.retries + 1 - attempt
  {
    var p := Prepared(ms, attempt);
    var t := TryOnce(service, parse, p, attempt);
    var sent := tr.sent + (if p.Some? then [p.value] else []);
    CallsSnoc(service, parse, tr.tries, tr.sent, p, attempt);
    if !t.Parsed? && attempt <= g.retries {
      var ms' := if p.Some? then p.value else ms;
      var tr' := Trace(tr.tries + [t], tr.waits + [WaitAfter(t, attempt)], sent);
      assert |tr'.sent| == |tr'.tries| == attempt || (|ms'| < 2 && attempt + 1 > 1);
      RunCalls(g, service, parse, ms', attempt + 1, tr');
    }
  }

  /** One more attempt keeps the tries matched to the lists sent. */
  lemma CallsSnoc(service: Service, parse: Parse, tries: seq<Try>, sent: seq<seq<Message>>,
                  p: Option<seq<Message>>, attempt: nat)
    requires CallsMatch(service, parse, tries, sent)
    requires p.Some? ==> |sent| == |tries| == attempt - 1
    ensures CallsMatch(service, parse, tries + [TryOnce(service, parse, p, attempt)],
                       sent + (if p.Some? then [p.value] else []))
  {
  }

  /** Wait `j` follows attempt `j + 1` and depends on how it failed. */
  ghost predicate WaitsMatch(waits: seq<real>, tries: seq<Try>) {
    |waits| <= |tries| && forall j :: 0 <= j < |waits| ==> waits[j] == WaitAfter(tries[j], j + 1)
  }

  /** One wait per attempt but the last: `0.4 * attempt` after a malformed
      answer, `0.5 * attempt` after any other failure. */
  lemma {:induction false} RunWaits(g: Generator, service: Service, parse: Parse, ms: seq<Message>, attempt: nat, tr: Trace)
    requires 1 <= attempt <= g.retries + 1
    requires |tr.tries| == |tr.waits| == attempt - 1
    requires WaitsMatch(tr.waits, tr.tries)
    ensures var r := Run(g, service, parse, ms, attempt, tr);
      |r.trace.waits| == |r.trace.tries| - 1 && WaitsMatch(r.trace.waits, r.trace.tries)
    decreases g.retries + 1 - attempt
  {
    var p := Prepared(ms, attempt);
    var t := TryOnce(service, parse, p, attempt);
    var sent := tr.sent + (if p.Some? then [p.value] else []);
    if !t.Parsed? && attempt <= g.retries {
      var tr' := Trace(tr.tries + [t], tr.waits + [WaitAfter(t, attempt)], sent);
      assert WaitsMatch(tr'.waits, tr'.tries);
      RunWaits(g, service, parse, if p.Some? then p.value else ms, attempt + 1, tr');
      RunTriesPrefix(g, service, parse, if p.Some? then p.value else ms, attempt + 1, tr');
    } else {
      assert WaitsMatch(tr.waits, tr.tries + [t]);
    }
  }

  /** A run only extends the attempts so far. */
  lemma {:induction false} RunTriesPrefix(g: Generator, service: Service, parse: Parse, ms: seq<Message>, attempt: nat, tr: Trace)
    requires 1 <= attempt <= g.retries + 1
    ensures var r := Run(g, service, parse, ms, attempt, tr);
      |tr.tries| < |r.trace.tries| && r.trace.tries[..|tr.tries|] == tr.tries
    decreases g.retries + 1 - attempt
  {
    var p := Prepared(ms, attempt);
    var t := TryOnce(service, parse, p, attempt);
    var sent := tr.sent + (if p.Some? then [p.value] else []);
    if !t.Parsed? && attempt <= g.retries {
      var tr' := Trace(tr.tries + [t], tr.waits + [WaitAfter(t, attempt)], sent);
      RunTriesPrefix(g, service, parse, if p.Some? then p.value else ms, attempt + 1, tr');
      var r := Run(g, service, parse, if p.Some? then p.value else ms, attempt + 1, tr');
      assert r.trace.tries[..|tr.tries|] == r.trace.tries[..|tr'.tries|][..|tr.tries|];
    }
  }

  /** The messages attempt `a` sends when the first list has at least two
      messages: the list itself first, then the first message with the
      second one's content followed by `a - 1` reinforcements. */
  function SentAt(ms: seq<Message>, a: nat): seq<Message>
    requires |ms| >= 2 && a >= 1
  {
    if a == 1 then ms else [ms[0], Message("user", ms[1].content + Repeat(Reinforcement, a - 1))]
  }

  ghost predicate SentMatch(sent: seq<seq<Message>>, ms0: seq<Message>)
    requires |ms0| >= 2
  {
    forall j :: 0 <= j < |sent| ==> sent[j] == SentAt(ms0, j + 1)
  }

  lemma ReinforceSentAt(ms0: seq<Message>, a: nat)
    requires |ms0| >= 2 && a >= 1
    ensures Reinforce(SentAt(ms0, a)) == SentAt(ms0, a + 1)
  {
    assert Repeat(Reinforcement, 1) == Reinforcement;
    if a > 1 {
      var c := ms0[1].content;
      assert Repeat(Reinforcement, a) == Repeat(Reinforcement, a - 1) + Reinforcement;
      assert c + Repeat(Reinforcement, a - 1) + Reinforcement == c + Repeat(Reinforcement, a);
    }
  }

  /** The reinforcement accumulates: with at least two messages, every
      attempt makes a call, and attempt `a` sends `SentAt(ms0, a)`. */
  lemma {:induction false} RunSent(g: Generator, service: Service, parse: Parse, ms0: seq<Message>, ms: seq<Message>, attempt: nat, tr: Trace)
    requires 1 <= attempt <= g.retries + 1 && |ms0| >= 2
    requires attempt == 1 ==> ms == ms0
    requires attempt > 1 ==> ms == SentAt(ms0, attempt - 1)
    requires |tr.sent| == |tr.tries| == attempt - 1 && SentMatch(tr.sent, ms0)
    ensures var r := Run(g, service, parse, ms, attempt, tr);
      |r.trace.sent| == |r.trace.tries| && SentMatch(r.trace.sent, ms0)
    decreases g.retries + 1 - attempt
  {
    var p := Prepared(ms, attempt);
    if attempt > 1 {
      ReinforceSentAt(ms0, attempt - 1);
    }
    assert p == Some(SentAt(ms0, attempt));
    var t := TryOnce(service, parse, p, attempt);
    var sent := tr.sent + [p.value];
    assert SentMatch(sent, ms0);
    if !t.Parsed? && attempt <= g.retries {
      var tr' := Trace(tr.tries + [t], tr.waits + [WaitAfter(t, attempt)], sent);
      RunSent(g, service, parse, ms0, p.value, attempt + 1, tr');
    }
  }

  /** With fewer than two messages only the first attempt calls the
      service; every later attempt fails on the rebinding. */
  lemma {:induction false} RunShort(g: Generator, service: Service, parse: Parse, ms: seq<Message>, attempt: nat, tr: Trace)
    requires 1 <= attempt <= g.retries + 1 && |ms| < 2
    ensures var r := Run(g, service, parse, ms, attempt, tr);
      && r.trace.sent == tr.sent + (if attempt == 1 then [ms] else [])
      && (forall j :: |tr.tries| <= j < |r.trace.tries| && j - |tr.tries| + attempt > 1 ==>
            r.trace.tries[j] == Failed(IndexErrorMessage))
    decreases g.retries + 1 - attempt
  {
    var p := Prepared(ms, attempt);
    var t := TryOnce(service, parse, p, attempt);
    var sent := tr.sent + (if p.Some? then [p.value] else []);
    if !t.Parsed? && attempt <= g.retries {
      var tr' := Trace(tr.tries + [t], tr.waits + [WaitAfter(t, attempt)], sent);
      RunShort(g, service, parse, ms, attempt + 1, tr');
      RunTriesPrefix(g, service, parse, ms, attempt + 1, tr');
    }
  }

  /** What `generate` promises: between 1 and `retries + 1` attempts, at
      most one service call each; only the last can parse and it decides
      the outcome, and a success carries the answer and usage of the
      service's reply to the last messages sent; a failure uses every attempt
      and wraps the last one; every attempt that called the service is what
      its reply comes to; the waits follow every attempt but the last; and
      the messages sent follow the reinforcement rule. */
  lemma GenerateSpec(g: Generator, service: Service, parse: Parse, messages: seq<Message>)
    requires ValidGenerator(g)
    ensures var r := GenerateOutcome(g, service, parse, messages);
      var n := |r.trace.tries|;
      && 1 <= n <= g.retries + 1
      && |r.trace.sent| <= n
      && FailedFrom(r.trace.tries[..n - 1], 0)
      && (r.outcome.Success? <==> r.trace.tries[n - 1].Parsed?)
      && (r.outcome.Success? ==>
            && r.outcome.value.data == r.trace.tries[n - 1].answer && ValidGeneratedAnswer(r.outcome.value.data)
            && |r.trace.sent| >= 1
            && RepliedWith(service, parse, r.trace.sent[|r.trace.sent| - 1], n,
                           r.outcome.value.data, r.outcome.value.usage))
      && (r.outcome.Failure? ==> n == g.retries + 1 && r.outcome.error.last == r.trace.tries[n - 1])
      && CallsMatch(service, parse, r.trace.tries, r.trace.sent)
      && |r.trace.waits| == n - 1 && WaitsMatch(r.trace.waits, r.trace.tries)
      && (|messages| >= 2 ==> |r.trace.sent| == n && SentMatch(r.trace.sent, messages))
      && (|messages| < 2 ==> r.trace.sent == [messages])
  {
    var tr := Trace([], [], []);
    RunTries(g, service, parse, messages, 1, tr);
    RunWaits(g, service, parse, messages, 1, tr);
    RunReply(g, service, parse, messages, 1, tr);
    RunCalls(g, service, parse, messages, 1, tr);
    if |messages| >= 2 {
      RunSent(g, service, parse, messages, messages, 1, tr);
    } else {
      RunShort(g, service, parse, messages, 1, tr);
    }
  }

  /** The service's reply to `ms` at attempt `attempt` is a response whose
      extracted text decodes to a valid answer. */
  ghost predicate Answers(service: Service, parse: Parse, ms: seq<Message>, attempt: nat) {
    service(attempt, ms).Responded?
    && ParseAnswer(parse, ExtractText(service(attempt, ms).response)).Some?
  }

  /** `generate` in terms of the service's replies: no reply before the last
      attempt answers, so the first reply that answers ends the loop; a run
      succeeds exactly when the last attempt called the service and its reply
      answers; and the wait after a failed call is `0.4 * attempt` when the
      service responded with something that does not decode or validate and
      `0.5 * attempt` when the call raised. */
  lemma GenerateReplies(g: Generator, service: Service, parse: Parse, messages: seq<Message>)
    requires ValidGenerator(g)
    ensures var r := GenerateOutcome(g, service, parse, messages);
      var n := |r.trace.tries|;
      var sent := r.trace.sent;
      && 1 <= n && |sent| <= n && |r.trace.waits| == n - 1
      && (forall j :: 0 <= j < n - 1 && j < |sent| ==> !Answers(service, parse, sent[j], j + 1))
      && (r.outcome.Success? <==> |sent| == n && Answers(service, parse, sent[n - 1], n))
      && (forall j :: 0 <= j < n - 1 && j < |sent| ==>
            (service(j + 1, sent[j]).Responded? ==> r.trace.waits[j] == 0.4 * (j + 1) as real)
            && (service(j + 1, sent[j]).CallError? ==> r.trace.waits[j] == 0.5 * (j + 1) as real))
  {
    GenerateSpec(g, service, parse, messages);
    var r := GenerateOutcome(g, service, parse, messages);
    var n := |r.trace.tries|;
    var sent := r.trace.sent;
    forall j | 0 <= j < n && j < |sent|
      ensures r.trace.tries[j].Parsed? <==> Answers(service, parse, sent[j], j + 1)
      ensures r.trace.tries[j].Malformed? <==> service(j + 1, sent[j]).Responded? && !Answers(service, parse, sent[j], j + 1)
      ensures service(j + 1, sent[j]).CallError? ==> r.trace.tries[j].Failed?
    {
      TryOnceSpec(service, parse, Some(sent[j]), j + 1);
    }
    forall j | 0 <= j < n - 1 && j < |sent|
      ensures !Answers(service, parse, sent[j], j + 1)
    {
      assert !r.trace.tries[..n - 1][j].Parsed?;
    }
    if |sent| < n {
      RunShort(g, service, parse, messages, 1, Trace([], [], []));
    }
  }
}

=== FILE: pipeline.dfy ===
/**
 * The question-answering pipeline (app/rag/pipeline.py): validate the
 * question, retrieve, decide, prompt, generate, and assemble the answer
 * with its sources.
 *
 * The embedding service, the index search, the model service and the JSON
 * decoder are oracles; the index files are a `Store`; the request id and
 * the elapsed milliseconds come in as parameters.
 */
module Pipeline {
  import opened Wrappers
  import opened Text
  import opened Types
  import opened Schemas
  import opened Config
  import Embedder
  import Retriever
  import Decider
  import Prompt
  import Generator

  const RefusalText: string := "I don't know based " + "on the provided documents."

  /** The three characters `pipeline.py` appends to a cut snippet: the
      UTF-8 bytes of a horizontal ellipsis read as Windows-1252. */
  const GarbledEllipsis: string := "\U{00E2}\U{20AC}\U{00A6}"

  /** `_snippet` as written: cut at 320 characters, then the garbled
      ellipsis. */
  function SnippetAsWritten(text: string): string {
    Abbreviate(text, 320, GarbledEllipsis)
  }

  /** `_snippet` as intended: cut at 320 characters with a real ellipsis,
      the retriever's snippet with a shorter limit. */
  function SourceSnippet(text: string): string {
    Retriever.Snippet(text, 320)
  }

  lemma RepeatChar(c: char, k: nat)
    ensures forall i :: 0 <= i < |Repeat([c], k)| ==> Repeat([c], k)[i] == c
  {
    if k > 0 {
      RepeatChar(c, k - 1);
    }
  }

  /** A single word is its own squashed form. */
  lemma SquashWord(w: string)
    requires IsWord(w)
    ensures Squash(w) == w
  {
    SplitJoinWords([w]);
  }

  /** Cutting text that holds no whitespace removes nothing. */
  lemma CutNoSpace(u: string, head: string)
    requires Cut(u, head) && forall i :: 0 <= i < |u| ==> !IsSpace(u[i])
    ensures head == u
  {
    // the last character is not whitespace, so nothing trailing was removed
    assert u == [] || !IsSpace(u[|u| - 1]);
  }

  /** A text of 321 letters is its own squashed form. */
  lemma LongText()
    ensures Squash(Repeat("a", 321)) == Repeat("a", 321)
  {
    RepeatChar('a', 321);
    SquashWord(Repeat("a", 321));
  }

  /** On that text the source's snippet keeps its first 320 letters and ends
      in the three garbled characters instead of an ellipsis, so it is 323
      characters long. */
  lemma GarbledSnippet()
    ensures var r := SnippetAsWritten(Repeat("a", 321));
      |r| == 323 && r[..320] == Repeat("a", 321)[..320] && r[320..] == GarbledEllipsis
      && r[|r| - 1] != '\U{2026}'
  {
    var t := Repeat("a", 321);
    LongText();
    AbbreviateSpec(t, 320, GarbledEllipsis);
    RepeatChar('a', 321);
    var r := SnippetAsWritten(t);
    CutNoSpace(t[..320], r[..|r| - 3]);
  }

  /** The corrected snippet: the squashed text when it fits in 320
      characters; otherwise its first 320 characters without their trailing
      whitespace, then the ellipsis. */
  lemma SourceSnippetSpec(text: string)
    ensures var r, t := SourceSnippet(text), Squash(text);
      && SingleSpaced(t) && SplitWords(t) == SplitWords(text)
      && (|t| <= 320 ==> r == t)
      && (|t| > 320 ==> 1 <= |r| <= 321 && r[|r| - 1] == '\U{2026}' && Cut(t[..320], r[..|r| - 1]))
  {
    SquashSpec(text);
  }

  // ----- Sources -----

  /** The key a hit is filed under. */
  datatype Key = Key(docId: string, chunkId: int, page: Option<int>)

  function KeyOf(h: SearchHit): Key {
    Key(h.meta.docId, h.meta.chunkId, h.meta.page)
  }

  /** The source entry made from a hit. */
  function ItemOf(h: SearchHit): SourceItem {
    SourceItem(h.meta.docId, Prompt.SourceName(h.meta), h.meta.chunkId, h.score, h.meta.page, SourceSnippet(h.text))
  }

  /** `hit_map` after the loop over the hits: a later hit overwrites an
      earlier one with the same key. */
  function HitMap(hits: seq<SearchHit>): map<Key, SourceItem> {
    if hits == [] then map[]
    else HitMap(hits[..|hits| - 1])[KeyOf(hits[|hits| - 1]) := ItemOf(hits[|hits| - 1])]
  }

  /** Hit `i` is the last one filed under key `k`. */
  ghost predicate LastWith(hits: seq<SearchHit>, k: Key, i: int) {
    0 <= i < |hits| && KeyOf(hits[i]) == k && forall j :: i < j < |hits| ==> KeyOf(hits[j]) != k
  }

  /** Some hit is filed under key `k`. */
  ghost predicate HasKey(hits: seq<SearchHit>, k: Key) {
    exists i :: 0 <= i < |hits| && KeyOf(hits[i]) == k
  }

  /** The map holds exactly the keys of the hits. */
  lemma {:induction false} HitMapKeys(hits: seq<SearchHit>, k: Key)
    ensures k in HitMap(hits) <==> HasKey(hits, k)
  {
    if hits != [] {
      var init := hits[..|hits| - 1];
      var n := |hits| - 1;
      HitMapKeys(init, k);
      if HasKey(init, k) {
        var i :| 0 <= i < |init| && KeyOf(init[i]) == k;
        assert hits[i] == init[i];
      }
      if HasKey(hits, k) && KeyOf(hits[n]) != k {
        var i :| 0 <= i < |hits| && KeyOf(hits[i]) == k;
        assert init[i] == hits[i];
      }
    }
  }

  /** The position of the last hit filed under `k`, or -1. */
  function LastIndex(hits: seq<SearchHit>, k: Key): (r: int)
    ensures -1 <= r < |hits|
  {
    if hits == [] then -1
    else if KeyOf(hits[|hits| - 1]) == k then |hits| - 1
    else LastIndex(hits[..|hits| - 1], k)
  }

  /** `LastIndex` finds the last hit filed under `k`, if there is one. */
  lemma {:induction false} LastIndexSpec(hits: seq<SearchHit>, k: Key)
    ensures LastIndex(hits, k) >= 0 <==> HasKey(hits, k)
    ensures LastIndex(hits, k) >= 0 ==> LastWith(hits, k, LastIndex(hits, k))
  {
    if hits != [] {
      var init, n := hits[..|hits| - 1], |hits| - 1;
      if KeyOf(hits[n]) != k {
        LastIndexSpec(init, k);
        var r := LastIndex(init, k);
        if r >= 0 {
          assert hits[r] == init[r];
          forall j | r < j < |hits|
            ensures KeyOf(hits[j]) != k
          {
            if j < n {
              assert hits[j] == init[j];
            }
          }
        }
        if HasKey(hits, k) {
          var i :| 0 <= i < |hits| && KeyOf(hits[i]) == k;
          assert init[i] == hits[i];
        }
      }
    }
  }

  /** Each key of the map holds the entry of the last hit filed under it. */
  lemma {:induction false} HitMapLast(hits: seq<SearchHit>, k: Key)
    ensures k in HitMap(hits) <==> LastIndex(hits, k) >= 0
    ensures k in HitMap(hits) ==> HitMap(hits)[k] == ItemOf(hits[LastIndex(hits, k)])
  {
    if hits != [] {
      var init, n := hits[..|hits| - 1], |hits| - 1;
      if KeyOf(hits[n]) != k {
        HitMapLast(init, k);
        if k in HitMap(init) {
          assert hits[LastIndex(init, k)] == init[LastIndex(init, k)];
        }
      }
    }
  }

  /** The hit-map loop of `answer`. */
  method BuildHitMap(hits: seq<SearchHit>) returns (m: map<Key, SourceItem>)
    ensures m == HitMap(hits)
  {
    m := map[];
    for i := 0 to |hits|
      invariant m == HitMap(hits[..i])
    {
      assert hits[..i + 1][..i] == hits[..i];
      m := m[KeyOf(hits[i]) := ItemOf(hits[i])];
    }
    assert hits[..|hits|] == hits;
  }

  function CitationKey(c: Generator.Citation): Key {
    Key(c.docId, c.chunkId, c.page)
  }

  /** What one citation adds: the entry under its exact key, else the entry
      under its key without a page, else nothing. */
  function Lookup(c: Generator.Citation, m: map<Key, SourceItem>): seq<SourceItem> {
    if CitationKey(c) in m then [m[CitationKey(c)]]
    else if Key(c.docId, c.chunkId, None) in m then [m[Key(c.docId, c.chunkId, None)]]
    else []
  }

  /** The sources the citations resolve to, in citation order. */
  function Cited(cs: seq<Generator.Citation>, m: map<Key, SourceItem>): seq<SourceItem> {
    if cs == [] then [] else Cited(cs[..|cs| - 1], m) + Lookup(cs[|cs| - 1], m)
  }

  /** The citation loop of `answer`. */
  method ResolveCitations(cs: seq<Generator.Citation>, m: map<Key, SourceItem>) returns (sources: seq<SourceItem>)
    ensures sources == Cited(cs, m)
  {
    sources := [];
    for i := 0 to |cs|
      invariant sources == Cited(cs[..i], m)
    {
      assert cs[..i + 1][..i] == cs[..i];
      var c := cs[i];
      var key := Key(c.docId, c.chunkId, c.page);
      if key in m {
        sources := sources + [m[key]];
      } else {
        var key2 := Key(c.docId, c.chunkId, None);
        if key2 in m {
          sources := sources + [m[key2]];
        }
      }
    }
    assert cs[..|cs|] == cs;
  }

  /** A citation resolves to the entry of the last hit filed under its own
      key; failing that, to the last hit with its document and chunk and
      no page; failing both, to nothing. */
  lemma LookupSpec(c: Generator.Citation, hits: seq<SearchHit>)
    ensures var l, k1, k2 := Lookup(c, HitMap(hits)), CitationKey(c), Key(c.docId, c.chunkId, None);
      && (LastIndex(hits, k1) >= 0 ==> l == [ItemOf(hits[LastIndex(hits, k1)])] && LastWith(hits, k1, LastIndex(hits, k1)))
      && (LastIndex(hits, k1) < 0 && LastIndex(hits, k2) >= 0 ==>
            l == [ItemOf(hits[LastIndex(hits, k2)])] && LastWith(hits, k2, LastIndex(hits, k2)))
      && (l == [] <==> !HasKey(hits, k1) && !HasKey(hits, k2))
  {
    var k1, k2 := CitationKey(c), Key(c.docId, c.chunkId, None);
    LastIndexSpec(hits, k1);
    LastIndexSpec(hits, k2);
    HitMapLast(hits, k1);
    HitMapLast(hits, k2);
  }

  /** `x` is the entry of one of the hits. */
  ghost predicate ItemOfSome(x: SourceItem, hits: seq<SearchHit>) {
    exists i :: 0 <= i < |hits| && x == ItemOf(hits[i])
  }

  /** Each source comes from a hit. */
  ghost predicate FromHits(sources: seq<SourceItem>, hits: seq<SearchHit>) {
    forall j :: 0 <= j < |sources| ==> ItemOfSome(sources[j], hits)
  }

  /** What one citation adds is at most one entry of a hit. */
  lemma LookupFromHits(c: Generator.Citation, hits: seq<SearchHit>)
    ensures |Lookup(c, HitMap(hits))| <= 1 && FromHits(Lookup(c, HitMap(hits)), hits)
  {
    var k1, k2 := CitationKey(c), Key(c.docId, c.chunkId, None);
    HitMapLast(hits, k1);
    HitMapLast(hits, k2);
    var l := Lookup(c, HitMap(hits));
    if l != [] {
      var i := if k1 in HitMap(hits) then LastIndex(hits, k1) else LastIndex(hits, k2);
      assert l[0] == ItemOf(hits[i]);
      assert ItemOfSome(l[0], hits);
    }
  }

  lemma FromHitsAppend(a: seq<SourceItem>, b: seq<SourceItem>, hits: seq<SearchHit>)
    requires FromHits(a, hits) && FromHits(b, hits)
    ensures FromHits(a + b, hits)
  {
    var ab := a + b;
    forall j | 0 <= j < |ab|
      ensures ItemOfSome(ab[j], hits)
    {
      if j < |a| {
        assert ab[j] == a[j];
      } else {
        assert ab[j] == b[j - |a|];
      }
    }
  }

  /** Each citation adds at most one source, and every source is the entry
      of one of the hits. */
  lemma {:induction false} CitedSpec(cs: seq<Generator.Citation>, hits: seq<SearchHit>)
    ensures |Cited(cs, HitMap(hits))| <= |cs|
    ensures FromHits(Cited(cs, HitMap(hits)), hits)
  {
    if cs != [] {
      var init := cs[..|cs| - 1];
      CitedSpec(init, hits);
      LookupFromHits(cs[|cs| - 1], hits);
      FromHitsAppend(Cited(init, HitMap(hits)), Lookup(cs[|cs| - 1], HitMap(hits)), hits);
    }
  }

  /** The entries of the hits, in order. */
  function Items(hits: seq<SearchHit>): (r: seq<SourceItem>)
    ensures |r| == |hits|
    ensures forall i :: 0 <= i < |hits| ==> r[i] == ItemOf(hits[i])
  {
    seq(|hits|, i requires 0 <= i < |hits| => ItemOf(hits[i]))
  }

  /** The fallback loop over the first `TOP_N` hits. */
  method FallbackSources(hits: seq<SearchHit>, topN: int) returns (sources: seq<SourceItem>)
    ensures sources == Items(PyPrefix(hits, topN))
  {
    var top := PyPrefix(hits, topN);
    sources := [];
    for i := 0 to |top|
      invariant sources == Items(top[..i])
    {
      sources := sources + [ItemOf(top[i])];
    }
    assert top[..|top|] == top;
  }

  /** The resolved sources, or the first `TOP_N` hits when none resolve. */
  function Sources(cs: seq<Generator.Citation>, hitsUsed: seq<SearchHit>, s: Settings): seq<SourceItem> {
    var cited := Cited(cs, HitMap(hitsUsed));
    if cited != [] then cited else Items(PyPrefix(hitsUsed, TopN(s)))
  }

  /** `_calc_cost_usd` before rounding: nothing without usage. */
  function CalcCostUsd(usage: Option<Usage>, s: Settings): (c: real)
    ensures usage.None? ==> c == 0.0
    ensures s.priceLlmInput == 0.0 && s.priceLlmOutput == 0.0 ==> c == 0.0
    ensures (usage.Some? && usage.value.inputTokens >= 0 && usage.value.outputTokens >= 0
             && s.priceLlmInput >= 0.0 && s.priceLlmOutput >= 0.0) ==> c >= 0.0
  {
    if usage.None? then 0.0
    else
      (usage.value.inputTokens as real / 1000000.0) * s.priceLlmInput
      + (usage.value.outputTokens as real / 1000000.0) * s.priceLlmOutput
  }

  // ----- answer -----

  /** The index files: whether each exists, and the parsed records. */
  datatype Store = Store(indexExists: bool, chunksExists: bool, rows: seq<Retriever.Row>)

  /** The outside world `answer` talks to. */
  datatype Services = Services(
    embed: Embedder.Service,
    search: Retriever.Search,
    llm: Generator.Service,
    parse: Generator.Parse)

  /** The refusal answer. */
  function Refusal(latencyMs: int, requestId: string): AskResponse {
    AskResponse(true, RefusalText, [], latencyMs, None, 0.0, Some(requestId))
  }

  function PipelineEmbedder(s: Settings): Embedder.Embedder {
    Embedder.NewEmbedder(s.embeddingModel, 1, s.embedTimeoutS, s.embedRetries, Some(s.priceEmbedInput))
  }

  function PipelineGenerator(s: Settings): Generator.Generator {
    Generator.NewGenerator(s.llmModel, s.llmTemperature, s.llmMaxOutputTokens, s.llmTimeoutS, s.llmRetries)
  }

  /** The answer built from a successful generation. */
  function Assemble(gen: Generator.GenerateResult, hitsUsed: seq<SearchHit>, s: Settings,
                    latencyMs: int, requestId: string): AskResponse
  {
    AskResponse(true, gen.data.answer, Sources(gen.data.citations, hitsUsed, s), latencyMs,
                gen.usage, CalcCostUsd(gen.usage, s), Some(requestId))
  }

  /** The hits `answer` retrieves for a question of at least three
      characters, with a retriever opened from the settings. */
  ghost function Hits(q: string, s: Settings, store: Store, env: Services)
    : Result<seq<SearchHit>, Retriever.RetrieveError>
  {
    var openRes := Retriever.OpenRetriever(PipelineEmbedder(s), None, None, s.minScore, s.topK,
                                          store.indexExists, store.chunksExists, store.rows);
    if openRes.Failure? then Failure(openRes.error)
    else
      var got := Retriever.RetrieveOutcome(openRes.value, env.embed, env.search, q, None);
      if got.Failure? then Failure(got.error) else Success(got.value.0)
  }

  /** The generation for the prompt built from the hits used. */
  function Generated(q: string, s: Settings, hitsUsed: seq<SearchHit>, env: Services)
    : Result<Generator.GenerateResult, Generator.GenError>
  {
    Generator.GenerateOutcome(PipelineGenerator(s), env.llm, env.parse, Prompt.Build(q, hitsUsed)).outcome
  }

  /** The answer for a question of at least three characters once the hits
      are known: the refusal when the decision or the generation fails,
      otherwise the assembled answer. */
  function Respond(q: string, s: Settings, hits: seq<SearchHit>, env: Services,
                   requestId: string, elapsedMs: int): AskResponse
  {
    var d := Decider.Decide(hits, s);
    if !d.ok then Refusal(elapsedMs, requestId)
    else
      var gen := Generated(q, s, d.hitsUsed, env);
      if gen.Failure? then Refusal(elapsedMs, requestId)
      else Assemble(gen.value, d.hitsUsed, s, elapsedMs, requestId)
  }

  /** What `answer` returns; a failure is an error of the retriever, which
      `answer` does not catch. */
  ghost function AnswerOutcome(question: string, s: Settings, store: Store, env: Services,
                               requestId: string, elapsedMs: int): Result<AskResponse, Retriever.RetrieveError>
  {
    var q := Strip(question);
    if |q| < 3 then Success(Refusal(0, requestId))
    else
      var hits := Hits(q, s, store, env);
      if hits.Failure? then Failure(hits.error)
      else Success(Respond(q, s, hits.value, env, requestId, elapsedMs))
  }

  /** `answer`. */
  method Answer(question: string, s: Settings, store: Store, env: Services, requestId: string, elapsedMs: int)
    returns (res: Result<AskResponse, Retriever.RetrieveError>)
    ensures res == AnswerOutcome(question, s, store, env, requestId, elapsedMs)
  {
    var q := Strip(question);
    if |q| < 3 {
      return Success(Refusal(0, requestId));
    }
    var embedder := PipelineEmbedder(s);
    var openRes := Retriever.OpenRetriever(embedder, None, None, s.minScore, s.topK,
                                          store.indexExists, store.chunksExists, store.rows);
    if openRes.Failure? {
      return Failure(openRes.error);
    }
    var got := Retriever.Retrieve(openRes.value, env.embed, env.search, q, None);
    if got.Failure? {
      return Failure(got.error);
    }
    var response := AnswerFromHits(q, s, got.value.0, env, requestId, elapsedMs);
    res := Success(response);
  }

  /** The part of `answer` after retrieval: decide, build the prompt,
      generate, and resolve the sources. */
  method AnswerFromHits(q: string, s: Settings, hits: seq<SearchHit>, env: Services,
                        requestId: string, elapsedMs: int) returns (response: AskResponse)
    ensures response == Respond(q, s, hits, env, requestId, elapsedMs)
  {
    var d := Decider.Decide(hits, s);
    if !d.ok {
      return Refusal(elapsedMs, requestId);
    }
    var messages := Prompt.Build(q, d.hitsUsed);
    var gen, _ := Generator.Generate(PipelineGenerator(s), env.llm, env.parse, messages);
    if gen.Failure? {
      return Refusal(elapsedMs, requestId);
    }
    var hitMap := BuildHitMap(d.hitsUsed);
    var sources := ResolveCitations(gen.value.data.citations, hitMap);
    if sources == [] {
      sources := FallbackSources(d.hitsUsed, TopN(s));
    }
    var usage := gen.value.usage;
    var cost := CalcCostUsd(usage, s);
    response := AskResponse(true, gen.value.data.answer, sources, elapsedMs, usage, cost, Some(requestId));
  }

  /** The sources of an answer: each is the entry of a hit the decision
      used; they are the resolved citations when any resolve, one at most
      per citation, and otherwise the first `TOP_N` hits in rank order. */
  lemma SourcesSpec(cs: seq<Generator.Citation>, hitsUsed: seq<SearchHit>, s: Settings)
    ensures var src, cited := Sources(cs, hitsUsed, s), Cited(cs, HitMap(hitsUsed));
      && FromHits(src, hitsUsed)
      && (cited != [] ==> src == cited && |src| <= |cs|)
      && (cited == [] ==> src == Items(PyPrefix(hitsUsed, TopN(s))))
  {
    CitedSpec(cs, hitsUsed);
    var src := Sources(cs, hitsUsed, s);
    if Cited(cs, HitMap(hitsUsed)) == [] {
      var top := PyPrefix(hitsUsed, TopN(s));
      forall j | 0 <= j < |src|
        ensures ItemOfSome(src[j], hitsUsed)
      {
        assert top[j] == hitsUsed[j];
      }
    }
  }

  /** What `answer` promises. A short question is refused at once, with no
      latency and no usage, whatever the store and the services. Errors are
      the retriever's, passed through. A refused decision or a failed
      generation gives the refusal. Otherwise the answer is the generated
      one, never empty; its sources come from the hits the decision used;
      its usage is the generator's; and without usage it costs nothing. */
  lemma AnswerSpec(question: string, s: Settings, store: Store, env: Services, requestId: string, elapsedMs: int)
    ensures var res, q := AnswerOutcome(question, s, store, env, requestId, elapsedMs), Strip(question);
      && (|q| < 3 ==> res == Success(Refusal(0, requestId)))
      && (res.Failure? ==> |q| >= 3 && Hits(q, s, store, env) == Failure(res.error))
      && (res.Success? ==> res.value.ok && res.value.requestId == Some(requestId) && |res.value.answer| >= 1)
      && (|q| >= 3 && Hits(q, s, store, env).Success? ==>
            var d := Decider.Decide(Hits(q, s, store, env).value, s);
            && (!d.ok ==> res == Success(Refusal(elapsedMs, requestId)))
            && (d.ok && Generated(q, s, d.hitsUsed, env).Failure? ==> res == Success(Refusal(elapsedMs, requestId)))
            && (d.ok && Generated(q, s, d.hitsUsed, env).Success? ==>
                  var gen := Generated(q, s, d.hitsUsed, env).value;
                  && res.value.answer == gen.data.answer
                  && FromHits(res.value.sources, d.hitsUsed)
                  && res.value.usage == gen.usage
                  && (gen.usage.None? ==> res.value.costUsd == 0.0)))
  {
    var q := Strip(question);
    if |q| >= 3 && Hits(q, s, store, env).Success? {
      var d := Decider.Decide(Hits(q, s, store, env).value, s);
      if d.ok && Generated(q, s, d.hitsUsed, env).Success? {
        var gen := Generated(q, s, d.hitsUsed, env).value;
        SourcesSpec(gen.data.citations, d.hitsUsed, s);
        Generator.GenerateSpec(PipelineGenerator(s), env.llm, env.parse, Prompt.Build(q, d.hitsUsed));
      }
    }
  }
}

=== FILE: prompt.dfy ===
/**
 * The answer prompt (app/rag/prompt.py): the system rules and a user
 * message holding the question and the numbered context blocks.
 */
module Prompt {
  import opened Wrappers
  import opened Text
  import opened Types

  datatype Message = Message(role: string, content: string)

  const SystemRules: string :=
    "You are a strict RAG assistant.\n"
    + "\n"
    + "You MUST return ONLY valid JSON (no markdown, no prose, no code fences).\n"
    + "The JSON must have exactly two keys: answer, citations.\n"
    + "\n"
    + "Rules:\n"
    + "1) Use ONLY the provided context snippets.\n"
    + "2) If the context does not contain the answer, return:\n"
    + "   {\"answer\":\"I don't know based on the provided documents.\",\"citations\":[]}\n"
    + "3) Do NOT use general knowledge. Do NOT guess. Do NOT invent.\n"
    + "4) If you answer, you MUST include at least 1 citation that directly supports the answer.\n"
    + "5) citations may reference ONLY the provided snippets by (doc_id, chunk_id, page).\n"
    + "6) For questions about order/which comes first, answer explicitly using the snippet wording (e.g. \"Justification for Change appears before Description of Change\").\n"

  /** What the user message says after the context. */
  const ShapeRules: string :=
    "\n"
    + "\n"
    + "Return ONLY valid JSON in exactly this shape:\n"
    + "{\n"
    + "  \"answer\": \"string\",\n"
    + "  \"citations\": [{\"doc_id\": \"string\", \"chunk_id\": 0, \"page\": 1}]\n"
    + "}\n"
    + "\n"
    + "Rules for citations:\n"
    + "- cite ONLY snippets that support the answer\n"
    + "- if unsure / not found in context -> answer must be:\n"
    + "  \"I don't know based on the provided documents.\"\n"
    + "  and citations must be []\n"

  const NoContext: string := "(no context snippets)"

  const Separator: string := "\n---\n"

  /** `m.path or m.doc_id`: a missing or empty path shows the document id. */
  function SourceName(m: ChunkMeta): (r: string)
    ensures Some(r) == m.path || r == m.docId
    ensures m.path.Some? && m.path.value != [] ==> r == m.path.value
    ensures m.path.None? || m.path.value == [] ==> r == m.docId
    ensures |m.docId| >= 1 ==> r != []
  {
    if m.path.Some? && m.path.value != [] then m.path.value else m.docId
  }

  /** The page segment of a block header. */
  function PageSegment(page: Option<int>): string {
    if page.Some? then ", page=" + IntToString(page.value) else ""
  }

  function Label(i: nat): string {
    "[" + NatToString(i) + "]"
  }

  /** The header line up to the page segment. */
  function HeaderHead(i: nat, m: ChunkMeta): string {
    Label(i) + " doc_id=" + m.docId + ", chunk_id=" + IntToString(m.chunkId)
  }

  /** Everything after the page segment: the source and the hit text. */
  function BlockTail(h: SearchHit): string {
    ", source=" + SourceName(h.meta) + "\nsnippet:\n" + h.text + "\n"
  }

  /** The block of the `i`-th hit (counting from 1). */
  function Block(i: nat, h: SearchHit): string {
    HeaderHead(i, h.meta) + PageSegment(h.meta.page) + BlockTail(h)
  }

  /** `sep.join(bs)`. */
  function Join(bs: seq<string>, sep: string): string {
    if bs == [] then []
    else if |bs| == 1 then bs[0]
    else Join(bs[..|bs| - 1], sep) + sep + bs[|bs| - 1]
  }

  /** The blocks of `hits`, numbered from 1 in hit order. */
  function Blocks(hits: seq<SearchHit>): (bs: seq<string>)
    ensures |bs| == |hits|
    ensures forall i :: 0 <= i < |hits| ==> bs[i] == Block(i + 1, hits[i])
  {
    seq(|hits|, i requires 0 <= i < |hits| => Block(i + 1, hits[i]))
  }

  /** `_format_context`. */
  function FormatContext(hits: seq<SearchHit>): string {
    if hits == [] then "" else Join(Blocks(hits), Separator)
  }

  /** The user message up to the context. */
  function QuestionPart(question: string): string {
    "QUESTION:\n" + question + "\n\nCONTEXT SNIPPETS:\n"
  }

  /** The text of the user message for a stripped question and a context. */
  function UserPrompt(question: string, context: string): string {
    QuestionPart(question) + (if context != [] then context else NoContext) + ShapeRules
  }

  /** `build`. */
  function Build(question: string, hits: seq<SearchHit>): (msgs: seq<Message>)
    ensures |msgs| == 2
    ensures msgs[0] == Message("system", SystemRules)
    ensures msgs[1].role == "user"
  {
    [Message("system", SystemRules), Message("user", UserPrompt(Strip(question), FormatContext(hits)))]
  }

  /** Where block `i` starts in the joined text. */
  function Offset(bs: seq<string>, sep: string, i: nat): nat
    requires i <= |bs|
  {
    |Join(bs[..i], sep)| + (if i > 0 then |sep| else 0)
  }

  /** Joining one more block appends the separator and the block. */
  lemma JoinSnoc(bs: seq<string>, sep: string, b: string)
    requires bs != []
    ensures Join(bs + [b], sep) == Join(bs, sep) + sep + b
  {
    assert (bs + [b])[..|bs|] == bs;
  }

  /** The join of a prefix of the blocks is a prefix of the join. */
  lemma {:induction false} JoinPrefix(bs: seq<string>, sep: string, j: nat)
    requires 1 <= j <= |bs|
    ensures Join(bs[..j], sep) <= Join(bs, sep)
  {
    if j < |bs| {
      var init := bs[..|bs| - 1];
      assert init[..j] == bs[..j];
      JoinPrefix(init, sep, j);
      assert bs == init + [bs[|bs| - 1]];
      JoinSnoc(init, sep, bs[|bs| - 1]);
    } else {
      assert bs[..j] == bs;
    }
  }

  lemma SliceOfPrefix(u: string, t: string, lo: nat, hi: nat)
    requires u <= t && lo <= hi <= |u|
    ensures t[lo..hi] == u[lo..hi]
  {
    assert t[..|u|] == u;
    assert t[lo..hi] == t[..|u|][lo..hi];
  }

  /** The join of the first `i + 1` blocks ends with block `i`, at its
      offset, after the separator when it is not the first. */
  lemma JoinEnd(bs: seq<string>, sep: string, i: nat)
    requires i < |bs|
    ensures var u, o := Join(bs[..i + 1], sep), Offset(bs, sep, i);
      && |u| == o + |bs[i]| && u[o..] == bs[i]
      && (i > 0 ==> u[o - |sep|..o] == sep)
  {
    var u := Join(bs[..i + 1], sep);
    var o := Offset(bs, sep, i);
    if i > 0 {
      var v := Join(bs[..i], sep);
      assert bs[..i + 1] == bs[..i] + [bs[i]];
      JoinSnoc(bs[..i], sep, bs[i]);
      assert u == v + sep + bs[i];
      assert o == |v| + |sep|;
    } else {
      assert bs[..1] == [bs[0]];
    }
  }

  /** In the joined text, block `i` sits at its offset, preceded by the
      separator when it is not the first; the last block ends the text. */
  lemma JoinPlaces(bs: seq<string>, sep: string, i: nat)
    requires i < |bs|
    ensures var t, o := Join(bs, sep), Offset(bs, sep, i);
      && o + |bs[i]| <= |t|
      && t[o..o + |bs[i]|] == bs[i]
      && (i > 0 ==> t[o - |sep|..o] == sep)
      && (i == |bs| - 1 ==> o + |bs[i]| == |t|)
  {
    var u := Join(bs[..i + 1], sep);
    var o := Offset(bs, sep, i);
    JoinPrefix(bs, sep, i + 1);
    JoinEnd(bs, sep, i);
    if i > 0 {
      SliceOfPrefix(u, Join(bs, sep), o - |sep|, o);
    }
    SliceOfPrefix(u, Join(bs, sep), o, o + |bs[i]|);
    assert u[o..o + |bs[i]|] == u[o..];
    if i == |bs| - 1 {
      assert bs[..i + 1] == bs;
    }
  }

  /** The context is empty exactly when there are no hits; otherwise block
      `i + 1` renders hit `i` at its place, blocks follow hit order and are
      separated by the separator. */
  lemma FormatContextSpec(hits: seq<SearchHit>, i: nat)
    requires i < |hits|
    ensures var c, bs := FormatContext(hits), Blocks(hits);
      && c != []
      && Offset(bs, Separator, i) + |bs[i]| <= |c|
      && c[Offset(bs, Separator, i)..Offset(bs, Separator, i) + |bs[i]|] == Block(i + 1, hits[i])
      && (i > 0 ==> c[Offset(bs, Separator, i) - |Separator|..Offset(bs, Separator, i)] == Separator)
  {
    JoinPlaces(Blocks(hits), Separator, i);
    JoinPlaces(Blocks(hits), Separator, 0);
  }

  /** A block starts with its label. */
  lemma BlockLabel(i: nat, h: SearchHit)
    ensures Label(i) <= Block(i, h)
  {
    var l, hh := Label(i), HeaderHead(i, h.meta);
    var hp := hh + PageSegment(h.meta.page);
    PrefixOfAppend(l, " doc_id=" + h.meta.docId + ", chunk_id=" + IntToString(h.meta.chunkId));
    PrefixOfAppend(hh, PageSegment(h.meta.page));
    PrefixOfAppend(hp, BlockTail(h));
  }

  lemma PrefixOfAppend(a: string, b: string)
    ensures a <= a + b
  {
    assert (a + b)[..|a|] == a;
  }

  /** A block ends with the hit text, verbatim, and a newline. */
  lemma BlockText(i: nat, h: SearchHit)
    ensures var b := Block(i, h);
      |h.text| + 1 <= |b| && b[|b| - |h.text| - 1..] == h.text + "\n"
  {
    var x := ", source=" + SourceName(h.meta) + "\nsnippet:\n";
    var y := h.text + "\n";
    assert BlockTail(h) == x + y;
    var pre := HeaderHead(i, h.meta) + PageSegment(h.meta.page) + x;
    assert Block(i, h) == pre + y;
  }

  /** A block differs from the block of the same hit without a page exactly
      by the page segment, which is present exactly when the page is. */
  lemma BlockPage(i: nat, h: SearchHit)
    ensures var b, bare := Block(i, h), Block(i, h.(meta := h.meta.(page := None)));
      && (h.meta.page.None? ==> b == bare)
      && (h.meta.page.Some? ==>
            var k := |HeaderHead(i, h.meta)|;
            k <= |bare| && b == bare[..k] + ", page=" + IntToString(h.meta.page.value) + bare[k..])
  {
    var h' := h.(meta := h.meta.(page := None));
    var hh, tail := HeaderHead(i, h.meta), BlockTail(h);
    assert HeaderHead(i, h'.meta) == hh && BlockTail(h') == tail;
    var bare := Block(i, h');
    assert bare == hh + tail;
    assert bare[..|hh|] == hh && bare[|hh|..] == tail;
  }

  /** `build` places the stripped question, then the context or the
      no-context marker, then the output rules; building from an already
      stripped question changes nothing. */
  lemma BuildSpec(question: string, hits: seq<SearchHit>)
    ensures var u, p := Build(question, hits)[1].content, QuestionPart(Strip(question));
      && p <= u
      && (hits == [] ==> u[|p|..] == NoContext + ShapeRules)
      && (hits != [] ==> u[|p|..] == FormatContext(hits) + ShapeRules)
    ensures Build(Strip(question), hits) == Build(question, hits)
  {
    var p := QuestionPart(Strip(question));
    var c := FormatContext(hits);
    if hits != [] {
      FormatContextSpec(hits, 0);
    }
    var body := if c != [] then c else NoContext;
    assert UserPrompt(Strip(question), c) == p + (body + ShapeRules);
    StripTwice(question);
  }
}

=== FILE: retriever.dfy ===
/**
 * Dense retrieval (app/rag/retriever.py): a question is embedded, the
 * vector index is searched, the raw (score, id) pairs are filtered by the
 * score threshold, ranked best-first and resolved against the chunk
 * records.
 *
 * The vector index is an oracle `Search` from the query vector and `k` to
 * the parallel score and id lists the index returns; the chunk records are
 * the parsed lines of the records file.
 */
module Retriever {
  import opened Wrappers
  import opened Text
  import opened Types
  import Embedder

  /** The index search: parallel lists of scores and row ordinals. */
  type Search = (Embedder.Vector, int) -> (seq<real>, seq<int>)

  /** One line of the records file: its `text` field, if present, and its
      `meta` object, if present and complete enough to build a ChunkMeta. */
  datatype Row = Row(text: Option<string>, meta: Option<ChunkMeta>)

  /** A missing or empty text reads as the empty string. */
  function RowText(row: Row): string {
    if row.text.Some? then row.text.value else ""
  }

  datatype RetrieveError =
    | MissingIndex
    | MissingChunks
    | EmptyChunks
    | EmptyQuery
    | QueryTooShort
    | BadTopK
    | EmbedFailed(cause: Embedder.EmbedError)
    | NoQueryVector
    | InvalidMeta(id: int)

  /** A retriever: the embedder, the score threshold, the default k and the
      loaded chunk records. */
  datatype Retriever = Retriever(embedder: Embedder.Embedder, minScore: real, topK: int, rows: seq<Row>)

  /** What `retrieve` reports besides the hits (latencies are left out). */
  datatype RetrieveMetrics = RetrieveMetrics(candidates: nat, returned: nat, topScore: Option<real>)

  /** `Retriever.__init__`: explicit threshold and k win over the settings;
      a missing index file, a missing records file and an empty record list
      are refused, in that order. */
  function OpenRetriever(embedder: Embedder.Embedder, minScore: Option<real>, topK: Option<int>,
                         settingsMinScore: real, settingsTopK: int,
                         indexExists: bool, chunksExists: bool, rows: seq<Row>)
    : (res: Result<Retriever, RetrieveError>)
    ensures res.Success? <==> indexExists && chunksExists && rows != []
    ensures !indexExists ==> res == Failure(MissingIndex)
    ensures indexExists && !chunksExists ==> res == Failure(MissingChunks)
    ensures res.Success? ==>
      && res.value.rows == rows && res.value.embedder == embedder
      && res.value.minScore == (if minScore.Some? then minScore.value else settingsMinScore)
      && res.value.topK == (if topK.Some? then topK.value else settingsTopK)
  {
    var ms := if minScore.Some? then minScore.value else settingsMinScore;
    var k := if topK.Some? then topK.value else settingsTopK;
    if !indexExists then Failure(MissingIndex)
    else if !chunksExists then Failure(MissingChunks)
    else if rows == [] then Failure(EmptyChunks)
    else Success(Retriever(embedder, ms, k, rows))
  }

  // ----- Filtering the raw search results -----

  /** A row ordinal with its score. */
  datatype ScoredId = ScoredId(id: int, score: real)

  /** `zip(scores, ids)`: as long as the shorter list. */
  function Zip(scores: seq<real>, ids: seq<int>): (zs: seq<ScoredId>)
    ensures |zs| == Min(|scores|, |ids|)
    ensures forall j :: 0 <= j < |zs| ==> zs[j] == ScoredId(ids[j], scores[j])
  {
    seq(Min(|scores|, |ids|), j requires 0 <= j < Min(|scores|, |ids|) => ScoredId(ids[j], scores[j]))
  }

  /** The number of pairs with a real (non-negative) ordinal: the candidates. */
  function CountIds(zs: seq<ScoredId>): nat {
    if zs == [] then 0
    else CountIds(zs[..|zs| - 1]) + (if zs[|zs| - 1].id >= 0 then 1 else 0)
  }

  /** The pairs with a real ordinal whose score reaches the threshold, in
      search order. */
  function Kept(zs: seq<ScoredId>, minScore: real): seq<ScoredId> {
    if zs == [] then []
    else
      var p := zs[|zs| - 1];
      Kept(zs[..|zs| - 1], minScore) + (if p.id >= 0 && p.score >= minScore then [p] else [])
  }

  /** Every kept pair has a real ordinal and reaches the threshold; there are
      no more kept pairs than candidates, and no more candidates than pairs. */
  lemma {:induction false} KeptSpec(zs: seq<ScoredId>, minScore: real)
    ensures var ks := Kept(zs, minScore);
      && |ks| <= CountIds(zs) <= |zs|
      && (forall i :: 0 <= i < |ks| ==> ks[i].id >= 0 && ks[i].score >= minScore)
      && multiset(ks) <= multiset(zs)
  {
    if zs != [] {
      var init := zs[..|zs| - 1];
      KeptSpec(init, minScore);
      assert zs == init + [zs[|zs| - 1]];
    }
  }

  /** Keeping is exact: a pair with a real ordinal is kept exactly when its
      score reaches the threshold. */
  lemma {:induction false} KeptExact(zs: seq<ScoredId>, minScore: real, p: ScoredId)
    requires p.id >= 0 && p.score >= minScore
    ensures p in Kept(zs, minScore) <==> p in zs
  {
    if zs != [] {
      var init := zs[..|zs| - 1];
      KeptExact(init, minScore, p);
      assert zs == init + [zs[|zs| - 1]];
    }
  }

  /** The filtering loop of `retrieve`. */
  method FilterCandidates(scores: seq<real>, ids: seq<int>, minScore: real)
    returns (candidates: nat, pairs: seq<ScoredId>)
    ensures candidates == CountIds(Zip(scores, ids))
    ensures pairs == Kept(Zip(scores, ids), minScore)
  {
    candidates := 0;
    pairs := [];
    var n := Min(|scores|, |ids|);
    ghost var zs := Zip(scores, ids);
    for j := 0 to n
      invariant candidates == CountIds(zs[..j])
      invariant pairs == Kept(zs[..j], minScore)
    {
      assert zs[..j + 1][..j] == zs[..j];
      if ids[j] < 0 {
        continue;
      }
      candidates := candidates + 1;
      if scores[j] >= minScore {
        pairs := pairs + [ScoredId(ids[j], scores[j])];
      }
    }
    assert zs[..n] == zs;
  }

  // ----- Ranking: `pairs.sort(key=score, reverse=True)` -----

  predicate SortedDesc(ps: seq<ScoredId>) {
    forall i, j :: 0 <= i < j < |ps| ==> ps[i].score >= ps[j].score
  }

  /** Puts `p` before the first element that does not beat it. */
  function Insert(p: ScoredId, ys: seq<ScoredId>): seq<ScoredId> {
    if ys == [] || ys[0].score <= p.score then [p] + ys
    else [ys[0]] + Insert(p, ys[1..])
  }

  /** Python's stable sort by descending score. */
  function SortDesc(ps: seq<ScoredId>): seq<ScoredId> {
    if ps == [] then [] else Insert(ps[0], SortDesc(ps[1..]))
  }

  lemma ConsSorted(y: ScoredId, rest: seq<ScoredId>)
    requires SortedDesc(rest)
    requires forall i :: 0 <= i < |rest| ==> y.score >= rest[i].score
    ensures SortedDesc([y] + rest)
  {
  }

  lemma {:induction false} InsertSpec(p: ScoredId, ys: seq<ScoredId>)
    requires SortedDesc(ys)
    ensures SortedDesc(Insert(p, ys))
    ensures multiset(Insert(p, ys)) == multiset(ys) + multiset{p}
  {
    InsertPerm(p, ys);
    InsertSorted(p, ys);
  }

  /** Inserting adds `p` and loses nothing. */
  lemma {:induction false} InsertPerm(p: ScoredId, ys: seq<ScoredId>)
    ensures multiset(Insert(p, ys)) == multiset(ys) + multiset{p}
  {
    if ys != [] && ys[0].score > p.score {
      InsertPerm(p, ys[1..]);
      assert ys == [ys[0]] + ys[1..];
    }
  }

  lemma {:induction false} InsertSorted(p: ScoredId, ys: seq<ScoredId>)
    requires SortedDesc(ys)
    ensures SortedDesc(Insert(p, ys))
  {
    if ys != [] && ys[0].score > p.score {
      var y, tail := ys[0], ys[1..];
      var rest := Insert(p, tail);
      InsertSorted(p, tail);
      InsertPerm(p, tail);
      forall i | 0 <= i < |rest|
        ensures y.score >= rest[i].score
      {
        assert rest[i] in multiset(rest);
        if rest[i] != p {
          assert rest[i] in tail;
        }
      }
      ConsSorted(y, rest);
      assert Insert(p, ys) == [y] + rest;
    }
  }

  /** The ranking is ordered best-first and is a permutation of its input. */
  lemma {:induction false} SortDescSpec(ps: seq<ScoredId>)
    ensures SortedDesc(SortDesc(ps))
    ensures multiset(SortDesc(ps)) == multiset(ps)
  {
    if ps != [] {
      SortDescSpec(ps[1..]);
      InsertSpec(ps[0], SortDesc(ps[1..]));
      assert ps == [ps[0]] + ps[1..];
    }
  }

  /** The pairs with score exactly `s`, in order. */
  function WithScore(ps: seq<ScoredId>, s: real): seq<ScoredId> {
    if ps == [] then [] else (if ps[0].score == s then [ps[0]] else []) + WithScore(ps[1..], s)
  }

  lemma WithScoreCons(p: ScoredId, ps: seq<ScoredId>, s: real)
    ensures WithScore([p] + ps, s) == (if p.score == s then [p] else []) + WithScore(ps, s)
  {
    assert ([p] + ps)[1..] == ps;
  }

  lemma {:induction false} InsertStable(p: ScoredId, ys: seq<ScoredId>, s: real)
    ensures WithScore(Insert(p, ys), s) == WithScore([p] + ys, s)
  {
    if ys != [] && ys[0].score > p.score {
      var y, rest := ys[0], ys[1..];
      var fy, fp := (if y.score == s then [y] else []), (if p.score == s then [p] else []);
      assert fy == [] || fp == [];
      calc {
        WithScore(Insert(p, ys), s);
        { assert Insert(p, ys) == [y] + Insert(p, rest); }
        WithScore([y] + Insert(p, rest), s);
        { WithScoreCons(y, Insert(p, rest), s); }
        fy + WithScore(Insert(p, rest), s);
        { InsertStable(p, rest, s); WithScoreCons(p, rest, s); }
        fy + (fp + WithScore(rest, s));
        fp + (fy + WithScore(rest, s));
        { WithScoreCons(y, rest, s); assert ys == [y] + rest; }
        fp + WithScore(ys, s);
        { WithScoreCons(p, ys, s); }
        WithScore([p] + ys, s);
      }
    }
  }

  /** The sort is stable: pairs of equal score keep their search order. */
  lemma {:induction false} SortDescStable(ps: seq<ScoredId>, s: real)
    ensures WithScore(SortDesc(ps), s) == WithScore(ps, s)
  {
    if ps != [] {
      SortDescStable(ps[1..], s);
      InsertStable(ps[0], SortDesc(ps[1..]), s);
      WithScoreCons(ps[0], SortDesc(ps[1..]), s);
      WithScoreCons(ps[0], ps[1..], s);
      assert ps == [ps[0]] + ps[1..];
    }
  }

  // ----- Resolving ordinals against the records -----

  function HitOf(p: ScoredId, row: Row): SearchHit
    requires row.meta.Some?
  {
    SearchHit(p.score, RowText(row), row.meta.value)
  }

  /** Every pair names a real (non-negative) ordinal. */
  predicate RealIds(ps: seq<ScoredId>) {
    forall i :: 0 <= i < |ps| ==> ps[i].id >= 0
  }

  /** A row whose meta object pydantic accepts. */
  predicate GoodMeta(row: Row) {
    row.meta.Some? && ValidChunkMeta(row.meta.value)
  }

  /** The hit-building loop: ordinals past the end are skipped; the first
      row whose meta does not validate aborts the call. */
  function Resolve(ps: seq<ScoredId>, rows: seq<Row>): Result<seq<SearchHit>, RetrieveError>
    requires RealIds(ps)
  {
    if ps == [] then Success([])
    else
      match Resolve(ps[..|ps| - 1], rows)
      case Failure(e) => Failure(e)
      case Success(hs) =>
        var p := ps[|ps| - 1];
        if p.id >= |rows| then Success(hs)
        else if !GoodMeta(rows[p.id]) then Failure(InvalidMeta(p.id))
        else Success(hs + [HitOf(p, rows[p.id])])
  }

  /** A pair that names a record whose meta is refused. */
  ghost predicate HasBadRow(ps: seq<ScoredId>, rows: seq<Row>) {
    exists j :: 0 <= j < |ps| && 0 <= ps[j].id < |rows| && !GoodMeta(rows[ps[j].id])
  }

  /** `h` is the record named by one of the pairs, with that pair's score. */
  ghost predicate HitFromPair(h: SearchHit, ps: seq<ScoredId>, rows: seq<Row>) {
    exists j :: 0 <= j < |ps| && 0 <= ps[j].id < |rows| && GoodMeta(rows[ps[j].id])
                && h == HitOf(ps[j], rows[ps[j].id])
  }

  ghost predicate HitsFrom(hs: seq<SearchHit>, ps: seq<ScoredId>, rows: seq<Row>) {
    forall i :: 0 <= i < |hs| ==> HitFromPair(hs[i], ps, rows)
  }

  /** Resolution fails exactly when some pair names a refused record, and
      then with the error of the first such pair in ranking order. */
  lemma {:induction false} ResolveSpec(ps: seq<ScoredId>, rows: seq<Row>)
    requires RealIds(ps)
    ensures Resolve(ps, rows).Failure? <==> HasBadRow(ps, rows)
    ensures Resolve(ps, rows).Failure? ==>
      exists j :: FirstBad(ps, rows, j) && Resolve(ps, rows).error == InvalidMeta(ps[j].id)
  {
    ResolveFirstBad(ps, rows);
    if ps != [] {
      var init := ps[..|ps| - 1];
      var p := ps[|ps| - 1];
      ResolveSpec(init, rows);
      if HasBadRow(init, rows) {
        var j :| 0 <= j < |init| && 0 <= init[j].id < |rows| && !GoodMeta(rows[init[j].id]);
        assert ps[j] == init[j];
      } else if !(p.id < |rows| && !GoodMeta(rows[p.id])) {
        forall j | 0 <= j < |ps| && 0 <= ps[j].id < |rows|
          ensures GoodMeta(rows[ps[j].id])
        {
          if j < |init| {
            assert ps[j] == init[j];
          }
        }
      }
    }
  }

  /** A successful resolution yields at most one hit per pair, each built
      from the record its pair names. */
  lemma {:induction false} ResolveSound(ps: seq<ScoredId>, rows: seq<Row>)
    requires RealIds(ps)
    ensures Resolve(ps, rows).Success? ==>
      |Resolve(ps, rows).value| <= |ps| && HitsFrom(Resolve(ps, rows).value, ps, rows)
  {
    if ps != [] && Resolve(ps, rows).Success? {
      var init := ps[..|ps| - 1];
      var p := ps[|ps| - 1];
      ResolveSound(init, rows);
      assert Resolve(init, rows).Success?;
      var hs := Resolve(init, rows).value;
      var out := Resolve(ps, rows).value;
      assert out == hs || (out == hs + [HitOf(p, rows[p.id])] && p.id < |rows| && GoodMeta(rows[p.id]));
      forall i | 0 <= i < |out|
        ensures HitFromPair(out[i], ps, rows)
      {
        if i < |hs| {
          assert HitFromPair(hs[i], init, rows);
          var j :| 0 <= j < |init| && 0 <= init[j].id < |rows| && GoodMeta(rows[init[j].id])
                   && hs[i] == HitOf(init[j], rows[init[j].id]);
          assert ps[j] == init[j];
        } else {
          assert out[i] == HitOf(ps[|ps| - 1], rows[ps[|ps| - 1].id]);
          assert 0 <= |ps| - 1 < |ps|;
        }
      }
    }
  }

  /** The ranked pairs that name an existing record, in ranking order: the
      pairs the loop does not skip. */
  function InRange(ps: seq<ScoredId>, rows: seq<Row>): seq<ScoredId> {
    if ps == [] then []
    else
      var p := ps[|ps| - 1];
      InRange(ps[..|ps| - 1], rows) + (if p.id < |rows| then [p] else [])
  }

  /** A pair survives the range filter exactly when it names an existing
      record. */
  lemma {:induction false} InRangeMembers(ps: seq<ScoredId>, rows: seq<Row>, p: ScoredId)
    ensures p in InRange(ps, rows) <==> p in ps && p.id < |rows|
  {
    if ps != [] {
      var init := ps[..|ps| - 1];
      InRangeMembers(init, rows, p);
      assert ps == init + [ps[|ps| - 1]];
    }
  }

  /** Every pair names an existing record whose meta validates. */
  ghost predicate AllGood(qs: seq<ScoredId>, rows: seq<Row>) {
    forall i :: 0 <= i < |qs| ==> 0 <= qs[i].id < |rows| && GoodMeta(rows[qs[i].id])
  }

  /** One hit per pair, in order, each the named record with the pair's score. */
  ghost function HitsOfPairs(qs: seq<ScoredId>, rows: seq<Row>): seq<SearchHit>
    requires AllGood(qs, rows)
  {
    seq(|qs|, i requires 0 <= i < |qs| && AllGood(qs, rows) => HitOf(qs[i], rows[qs[i].id]))
  }

  /** `hs` holds exactly the hits of the in-range pairs of `ps`, in order. */
  ghost predicate ResolvedAs(hs: seq<SearchHit>, ps: seq<ScoredId>, rows: seq<Row>) {
    AllGood(InRange(ps, rows), rows) && hs == HitsOfPairs(InRange(ps, rows), rows)
  }

  /** `ps[j]` is the first in-range pair whose record is refused. */
  ghost predicate FirstBad(ps: seq<ScoredId>, rows: seq<Row>, j: int) {
    && 0 <= j < |ps| && 0 <= ps[j].id < |rows| && !GoodMeta(rows[ps[j].id])
    && forall k :: 0 <= k < j && 0 <= ps[k].id < |rows| ==> GoodMeta(rows[ps[k].id])
  }

  lemma HitsOfPairsSnoc(qs: seq<ScoredId>, p: ScoredId, rows: seq<Row>)
    requires AllGood(qs, rows) && 0 <= p.id < |rows| && GoodMeta(rows[p.id])
    ensures AllGood(qs + [p], rows)
    ensures HitsOfPairs(qs + [p], rows) == HitsOfPairs(qs, rows) + [HitOf(p, rows[p.id])]
  {
    assert forall i :: 0 <= i < |qs| ==> (qs + [p])[i] == qs[i];
  }

  /** A successful resolution is complete: every pair that names an existing
      record yields its hit, in ranking order, and nothing else is returned. */
  lemma {:induction false} ResolveExact(ps: seq<ScoredId>, rows: seq<Row>)
    requires RealIds(ps)
    ensures Resolve(ps, rows).Success? ==> ResolvedAs(Resolve(ps, rows).value, ps, rows)
  {
    if ps != [] && Resolve(ps, rows).Success? {
      var init := ps[..|ps| - 1];
      var p := ps[|ps| - 1];
      ResolveExact(init, rows);
      assert Resolve(init, rows).Success?;
      if p.id < |rows| {
        HitsOfPairsSnoc(InRange(init, rows), p, rows);
      }
    }
  }

  /** A failed resolution names the first in-range pair whose record is
      refused. */
  lemma {:induction false} ResolveFirstBad(ps: seq<ScoredId>, rows: seq<Row>)
    requires RealIds(ps)
    ensures Resolve(ps, rows).Failure? ==>
      exists j :: FirstBad(ps, rows, j) && Resolve(ps, rows).error == InvalidMeta(ps[j].id)
  {
    if ps != [] && Resolve(ps, rows).Failure? {
      var init := ps[..|ps| - 1];
      var n := |ps| - 1;
      ResolveFirstBad(init, rows);
      if Resolve(init, rows).Failure? {
        var j :| FirstBad(init, rows, j) && Resolve(init, rows).error == InvalidMeta(init[j].id);
        assert ps[j] == init[j];
        assert forall k :: 0 <= k < j ==> ps[k] == init[k];
        assert FirstBad(ps, rows, j);
      } else {
        ResolveExact(init, rows);
        assert forall k :: 0 <= k < n ==> ps[k] == init[k];
        forall k | 0 <= k < n && 0 <= ps[k].id < |rows|
          ensures GoodMeta(rows[ps[k].id])
        {
          InRangeMembers(init, rows, init[k]);
          var qs := InRange(init, rows);
          var i :| 0 <= i < |qs| && qs[i] == init[k];
        }
        assert FirstBad(ps, rows, n);
      }
    }
  }

  /** A successful resolution is sound and complete: one hit per pair that
      names an existing record, in ranking order, each built from the record
      its pair names. */
  lemma ResolveFrom(ps: seq<ScoredId>, rows: seq<Row>)
    requires RealIds(ps)
    ensures Resolve(ps, rows).Success? ==>
      && |Resolve(ps, rows).value| <= |ps| && HitsFrom(Resolve(ps, rows).value, ps, rows)
      && ResolvedAs(Resolve(ps, rows).value, ps, rows)
  {
    ResolveSound(ps, rows);
    ResolveExact(ps, rows);
  }

  /** If every pair scores at least `b`, so does every hit. */
  lemma {:induction false} ResolveBound(ps: seq<ScoredId>, rows: seq<Row>, b: real)
    requires RealIds(ps)
    requires forall i :: 0 <= i < |ps| ==> ps[i].score >= b
    ensures Resolve(ps, rows).Success? ==>
      forall i :: 0 <= i < |Resolve(ps, rows).value| ==> Resolve(ps, rows).value[i].score >= b
  {
    if ps != [] {
      ResolveBound(ps[..|ps| - 1], rows, b);
    }
  }

  predicate HitsSortedDesc(hs: seq<SearchHit>) {
    forall i, j :: 0 <= i < j < |hs| ==> hs[i].score >= hs[j].score
  }

  /** Resolving a best-first ranking keeps it best-first. */
  lemma {:induction false} ResolveSorted(ps: seq<ScoredId>, rows: seq<Row>)
    requires RealIds(ps)
    requires SortedDesc(ps)
    ensures Resolve(ps, rows).Success? ==> HitsSortedDesc(Resolve(ps, rows).value)
  {
    if ps != [] {
      var init := ps[..|ps| - 1];
      ResolveSorted(init, rows);
      ResolveBound(init, rows, ps[|ps| - 1].score);
    }
  }

  /** Once a prefix of the ranking fails, the whole resolution fails the same way. */
  lemma {:induction false} ResolveFailureStays(ps: seq<ScoredId>, k: nat, rows: seq<Row>)
    requires RealIds(ps)
    requires k <= |ps| && Resolve(ps[..k], rows).Failure?
    ensures Resolve(ps, rows) == Resolve(ps[..k], rows)
  {
    if k < |ps| {
      var init := ps[..|ps| - 1];
      assert init[..k] == ps[..k];
      ResolveFailureStays(init, k, rows);
    } else {
      assert ps[..k] == ps;
    }
  }

  /** The best score among the hits: the first one's, if any. */
  function TopScore(hs: seq<SearchHit>): Option<real> {
    if hs == [] then None else Some(hs[0].score)
  }

  /** The hit-building loop of `retrieve`; `top` is set at the first hit. */
  method ResolveHits(ps: seq<ScoredId>, rows: seq<Row>)
    returns (res: Result<seq<SearchHit>, RetrieveError>, top: Option<real>)
    requires RealIds(ps)
    ensures res == Resolve(ps, rows)
    ensures res.Success? ==> top == TopScore(res.value)
  {
    var hits: seq<SearchHit> := [];
    top := None;
    for j := 0 to |ps|
      invariant Resolve(ps[..j], rows) == Success(hits)
      invariant top == TopScore(hits)
    {
      assert ps[..j + 1][..j] == ps[..j];
      var p := ps[j];
      if p.id >= |rows| {
        continue;
      }
      var row := rows[p.id];
      if !GoodMeta(row) {
        ResolveFailureStays(ps, j + 1, rows);
        return Failure(InvalidMeta(p.id)), top;
      }
      if top.None? {
        top := Some(p.score);
      }
      hits := hits + [HitOf(p, row)];
    }
    assert ps[..|ps|] == ps;
    res := Success(hits);
  }

  // ----- retrieve -----

  /** The k used by a call: the explicit one, else the retriever's. */
  function EffectiveK(r: Retriever, topK: Option<int>): int {
    if topK.Some? then topK.value else r.topK
  }

  /** The ranked pairs all name real ordinals and clear the threshold. */
  lemma RankedIds(zs: seq<ScoredId>, minScore: real)
    ensures RealIds(SortDesc(Kept(zs, minScore)))
    ensures forall i :: 0 <= i < |SortDesc(Kept(zs, minScore))| ==> SortDesc(Kept(zs, minScore))[i].score >= minScore
  {
    var ranked := SortDesc(Kept(zs, minScore));
    KeptSpec(zs, minScore);
    SortDescSpec(Kept(zs, minScore));
    forall i | 0 <= i < |ranked|
      ensures ranked[i].id >= 0 && ranked[i].score >= minScore
    {
      assert ranked[i] in multiset(Kept(zs, minScore));
    }
  }

  /** The kept pairs, best-first. */
  function Ranking(zs: seq<ScoredId>, minScore: real): seq<ScoredId> {
    SortDesc(Kept(zs, minScore))
  }

  /** Ranking and resolving the filtered pairs. */
  ghost function Ranked(r: Retriever, zs: seq<ScoredId>)
    : Result<(seq<SearchHit>, RetrieveMetrics), RetrieveError>
  {
    var ranked := Ranking(zs, r.minScore);
    RankedIds(zs, r.minScore);
    match Resolve(ranked, r.rows)
    case Failure(e) => Failure(e)
    case Success(hs) => Success((hs, RetrieveMetrics(CountIds(zs), |hs|, TopScore(hs))))
  }

  /** What `retrieve` returns for `query`, given the embedding service and
      the index search. */
  ghost function RetrieveOutcome(r: Retriever, service: Embedder.Service, search: Search,
                                 query: string, topK: Option<int>)
    : Result<(seq<SearchHit>, RetrieveMetrics), RetrieveError>
    requires Embedder.ValidEmbedder(r.embedder)
  {
    var q := Strip(query);
    if q == [] then Failure(EmptyQuery)
    else if |q| < 3 then Failure(QueryTooShort)
    else if EffectiveK(r, topK) <= 0 then Failure(BadTopK)
    else
      var emb := Embedder.EmbedOutcome(r.embedder, service, [q]).0;
      if emb.Failure? then Failure(EmbedFailed(emb.error))
      else if emb.value.vectors == [] then Failure(NoQueryVector)
      else Ranked(r, SearchedPairs(r, service, search, query, topK))
  }

  /** The (score, id) pairs the index returns for the stripped query's
      vector, or none when the query does not embed. */
  ghost function SearchedPairs(r: Retriever, service: Embedder.Service, search: Search,
                               query: string, topK: Option<int>): seq<ScoredId>
    requires Embedder.ValidEmbedder(r.embedder)
  {
    var emb := Embedder.EmbedOutcome(r.embedder, service, [Strip(query)]).0;
    if emb.Failure? || emb.value.vectors == [] then []
    else
      var (scores, ids) := search(emb.value.vectors[0], EffectiveK(r, topK));
      Zip(scores, ids)
  }

  /** `Retriever.retrieve`. */
  method Retrieve(r: Retriever, service: Embedder.Service, search: Search, query: string, topK: Option<int>)
    returns (res: Result<(seq<SearchHit>, RetrieveMetrics), RetrieveError>)
    requires Embedder.ValidEmbedder(r.embedder)
    ensures res == RetrieveOutcome(r, service, search, query, topK)
  {
    var q := Strip(query);
    if q == [] {
      return Failure(EmptyQuery);
    }
    if |q| < 3 {
      return Failure(QueryTooShort);
    }
    var k := EffectiveK(r, topK);
    if k <= 0 {
      return Failure(BadTopK);
    }
    var emb, _, _ := Embedder.EmbedTexts(r.embedder, service, [q]);
    if emb.Failure? {
      return Failure(EmbedFailed(emb.error));
    }
    if emb.value.vectors == [] {
      return Failure(NoQueryVector);
    }
    var (scores, ids) := search(emb.value.vectors[0], k);
    var candidates, pairs := FilterCandidates(scores, ids, r.minScore);
    RankedIds(Zip(scores, ids), r.minScore);
    var ranked := SortDesc(pairs);
    var hits, top := ResolveHits(ranked, r.rows);
    if hits.Failure? {
      return Failure(hits.error);
    }
    res := Success((hits.value, RetrieveMetrics(candidates, |hits.value|, top)));
  }

  /** `h` is the text and meta of a record whose meta validates. */
  ghost predicate FromRecord(h: SearchHit, rows: seq<Row>) {
    exists id :: 0 <= id < |rows| && GoodMeta(rows[id])
                 && h.text == RowText(rows[id]) && h.meta == rows[id].meta.value
  }

  /** Hits that clear the threshold, best-first, each built from a record. */
  ghost predicate GoodHits(hs: seq<SearchHit>, r: Retriever) {
    && HitsSortedDesc(hs)
    && (forall i :: 0 <= i < |hs| ==> hs[i].score >= r.minScore)
    && (forall i :: 0 <= i < |hs| ==> FromRecord(hs[i], r.rows))
  }

  /** Ranking promises: the hits are best-first, clear the threshold and come
      from the records; every kept pair that names an existing record yields
      its hit, in ranking order; at most one hit per candidate; the top score
      is the first hit's; and a failure names the first refused record in
      ranking order. */
  lemma RankedSpec(r: Retriever, zs: seq<ScoredId>)
    ensures var res, ranked := Ranked(r, zs), Ranking(zs, r.minScore);
      && (res.Failure? ==>
            exists j :: FirstBad(ranked, r.rows, j) && res.error == InvalidMeta(ranked[j].id))
      && (res.Success? ==>
            && GoodHits(res.value.0, r)
            && ResolvedAs(res.value.0, ranked, r.rows)
            && res.value.1.returned == |res.value.0| <= res.value.1.candidates == CountIds(zs)
            && res.value.1.topScore == TopScore(res.value.0))
  {
    var ks := Kept(zs, r.minScore);
    var ranked := Ranking(zs, r.minScore);
    RankedIds(zs, r.minScore);
    KeptSpec(zs, r.minScore);
    SortDescSpec(ks);
    assert |ranked| == |multiset(ranked)| == |multiset(ks)| == |ks|;
    ResolveSpec(ranked, r.rows);
    var res := Resolve(ranked, r.rows);
    if res.Success? {
      ResolveFrom(ranked, r.rows);
      ResolveSorted(ranked, r.rows);
      ResolveBound(ranked, r.rows, r.minScore);
      HitsFromRows(res.value, ranked, r);
    }
  }

  lemma HitsFromRows(hs: seq<SearchHit>, ps: seq<ScoredId>, r: Retriever)
    requires HitsFrom(hs, ps, r.rows)
    ensures forall i :: 0 <= i < |hs| ==> FromRecord(hs[i], r.rows)
  {
    forall i | 0 <= i < |hs|
      ensures FromRecord(hs[i], r.rows)
    {
      assert HitFromPair(hs[i], ps, r.rows);
      var j :| 0 <= j < |ps| && 0 <= ps[j].id < |r.rows| && GoodMeta(r.rows[ps[j].id])
               && hs[i] == HitOf(ps[j], r.rows[ps[j].id]);
      var id := ps[j].id;
      assert 0 <= id < |r.rows| && GoodMeta(r.rows[id]);
    }
  }

  /** `retrieve` refuses a blank query, then one shorter than three
      characters, then a non-positive k, all before the service is called;
      the "no vector" branch is never taken; past those checks and a failed
      embedding, the result is the ranking of the pairs the index returned,
      and a success satisfies the ranking promises, completeness included. */
  lemma RetrieveSpec(r: Retriever, service: Embedder.Service, search: Search, query: string, topK: Option<int>)
    requires Embedder.ValidEmbedder(r.embedder)
    ensures var res := RetrieveOutcome(r, service, search, query, topK);
      && (Strip(query) == [] <==> res == Failure(EmptyQuery))
      && (0 < |Strip(query)| < 3 <==> res == Failure(QueryTooShort))
      && (|Strip(query)| >= 3 && EffectiveK(r, topK) <= 0 <==> res == Failure(BadTopK))
      && !(res.Failure? && res.error.NoQueryVector?)
      && (|Strip(query)| >= 3 && EffectiveK(r, topK) > 0 && !(res.Failure? && res.error.EmbedFailed?) ==>
            res == Ranked(r, SearchedPairs(r, service, search, query, topK)))
      && (res.Success? ==>
            && GoodHits(res.value.0, r)
            && ResolvedAs(res.value.0, Ranking(SearchedPairs(r, service, search, query, topK), r.minScore), r.rows)
            && res.value.1.returned == |res.value.0| <= res.value.1.candidates
            && res.value.1.topScore == TopScore(res.value.0))
  {
    var q := Strip(query);
    if |q| >= 3 && EffectiveK(r, topK) > 0 {
      Embedder.EmbedOutcomeSpec(r.embedder, service, [q]);
      var emb := Embedder.EmbedOutcome(r.embedder, service, [q]).0;
      if emb.Success? {
        RankedSpec(r, SearchedPairs(r, service, search, query, topK));
      }
    }
  }

  /** `_snippet`: the whitespace-squashed text (the words of `text` joined
      by single spaces); when longer than `n`, its first `n` characters
      without their trailing whitespace, then a horizontal ellipsis. */
  function Snippet(text: string, n: nat := 360): (r: string)
    ensures SingleSpaced(Squash(text)) && SplitWords(Squash(text)) == SplitWords(text)
    ensures NonSpaces(Squash(text)) == NonSpaces(text)
    ensures |Squash(text)| <= n ==> r == Squash(text)
    ensures |Squash(text)| > n ==>
              1 <= |r| <= n + 1 && r[|r| - 1] == '\U{2026}' && Cut(Squash(text)[..n], r[..|r| - 1])
  {
    AbbreviateSpec(text, n, "\U{2026}");
    Abbreviate(text, n, "\U{2026}")
  }
}

=== FILE: schemas.dfy ===
/**
 * The request and response envelope of the question-answering endpoint
 * (app/schemas.py), with their default values.
 */
module Schemas {
  import opened Wrappers

  /** A question; pydantic requires at least one character. */
  datatype AskRequest = AskRequest(question: string)

  predicate ValidAskRequest(r: AskRequest) {
    |r.question| >= 1
  }

  /** One cited source of an answer. The page is absent by default. */
  datatype SourceItem = SourceItem(
    docId: string,
    source: string,
    chunkId: int,
    score: real,
    page: Option<int> := None,
    snippet: string)

  /** Token counts; each defaults to zero. */
  datatype Usage = Usage(inputTokens: int := 0, outputTokens: int := 0, totalTokens: int := 0)

  /** The answer envelope. By default it is ok, has no sources, zero latency,
      no usage, zero cost and no request id. */
  datatype AskResponse = AskResponse(
    ok: bool := true,
    answer: string,
    sources: seq<SourceItem> := [],
    latencyMs: int := 0,
    usage: Option<Usage> := None,
    costUsd: real := 0.0,
    requestId: Option<string> := None)
}

=== FILE: text.dfy ===
/**
 * Character and string helpers shared by the pipeline: Python's notion of
 * whitespace, `str.strip`/`lstrip`/`rstrip`, `" ".join(s.split())`,
 * decimal rendering of integers, substring tests and ASCII lower-casing.
 */
module Text {

  /** The characters for which Python's `str.isspace()` holds; `strip()` and
      `split()` with no argument remove exactly these. */
  predicate IsSpace(c: char) {
    c == ' ' || ('\t' <= c <= '\r') || ('\U{1C}' <= c <= '\U{1F}')
    || c == '\U{85}' || c == '\U{A0}' || c == '\U{1680}'
    || ('\U{2000}' <= c <= '\U{200A}') || c == '\U{2028}' || c == '\U{2029}'
    || c == '\U{202F}' || c == '\U{205F}' || c == '\U{3000}'
  }

  /** The class `[ \t]` of the cleaning regular expressions. */
  predicate IsHSpace(c: char) {
    c == ' ' || c == '\t'
  }

  /** Concatenation regroups freely. */
  lemma AppendAssoc<T>(a: seq<T>, b: seq<T>, c: seq<T>)
    ensures (a + b) + c == a + (b + c)
  {
  }

  /** Every character of `s[lo..hi]` is whitespace. */
  ghost predicate AllSpace(s: string, lo: int, hi: int)
    requires 0 <= lo && hi <= |s|
  {
    forall p :: lo <= p < hi ==> IsSpace(s[p])
  }

  /** No whitespace at either end. */
  ghost predicate IsStripped(s: string) {
    |s| == 0 || (!IsSpace(s[0]) && !IsSpace(s[|s| - 1]))
  }

  /** The first position of `s[lo..hi]` that is not whitespace, or `hi`. */
  function SkipSpaces(s: string, lo: int, hi: int): (a: int)
    requires 0 <= lo <= hi <= |s|
    ensures lo <= a <= hi
    decreases hi - lo
  {
    if lo == hi || !IsSpace(s[lo]) then lo else SkipSpaces(s, lo + 1, hi)
  }

  /** `SkipSpaces` passes over whitespace only and stops at a character that
      is not whitespace, unless it reaches `hi`. */
  lemma {:induction false} SkipSpacesSpec(s: string, lo: int, hi: int)
    requires 0 <= lo <= hi <= |s|
    ensures var a := SkipSpaces(s, lo, hi); AllSpace(s, lo, a) && (a < hi ==> !IsSpace(s[a]))
    decreases hi - lo
  {
    if lo < hi && IsSpace(s[lo]) {
      SkipSpacesSpec(s, lo + 1, hi);
    }
  }

  /** One past the last position of `s[lo..hi]` that is not whitespace, or `lo`. */
  function TrimEnd(s: string, lo: int, hi: int): (b: int)
    requires 0 <= lo <= hi <= |s|
    ensures lo <= b <= hi
    decreases hi - lo
  {
    if lo == hi || !IsSpace(s[hi - 1]) then hi else TrimEnd(s, lo, hi - 1)
  }

  /** `TrimEnd` passes back over whitespace only and stops after a character
      that is not whitespace, unless it reaches `lo`. */
  lemma {:induction false} TrimEndSpec(s: string, lo: int, hi: int)
    requires 0 <= lo <= hi <= |s|
    ensures var b := TrimEnd(s, lo, hi); AllSpace(s, b, hi) && (lo < b ==> !IsSpace(s[b - 1]))
    decreases hi - lo
  {
    if lo < hi && IsSpace(s[hi - 1]) {
      TrimEndSpec(s, lo, hi - 1);
    }
  }

  /** A whitespace run followed by a non-whitespace character is where
      `SkipSpaces` stops. */
  lemma {:induction false} SkipSpacesAt(s: string, lo: int, hi: int, a: int)
    requires 0 <= lo <= a < hi <= |s| && AllSpace(s, lo, a) && !IsSpace(s[a])
    ensures SkipSpaces(s, lo, hi) == a
    decreases hi - lo
  {
    if lo < a {
      SkipSpacesAt(s, lo + 1, hi, a);
    }
  }

  /** A non-whitespace character followed by a whitespace run is where
      `TrimEnd` stops. */
  lemma {:induction false} TrimEndAt(s: string, lo: int, hi: int, b: int)
    requires 0 <= lo < b <= hi <= |s| && AllSpace(s, b, hi) && !IsSpace(s[b - 1])
    ensures TrimEnd(s, lo, hi) == b
    decreases hi - lo
  {
    if b < hi {
      TrimEndAt(s, lo, hi - 1, b);
    }
  }

  /** Length of the maximal whitespace prefix. */
  function LeadingSpaces(s: string): (k: nat)
    ensures k <= |s|
  {
    SkipSpaces(s, 0, |s|)
  }

  /** The leading run is whitespace and is followed by a non-space. */
  lemma LeadingSpacesSpec(s: string)
    ensures var k := LeadingSpaces(s);
      (forall i :: 0 <= i < k ==> IsSpace(s[i])) && (k < |s| ==> !IsSpace(s[k]))
  {
    SkipSpacesSpec(s, 0, |s|);
  }

  /** Length of the maximal whitespace suffix. */
  function TrailingSpaces(s: string): (k: nat)
    ensures k <= |s|
  {
    |s| - TrimEnd(s, 0, |s|)
  }

  /** The trailing run is whitespace and is preceded by a non-space. */
  lemma TrailingSpacesSpec(s: string)
    ensures var k := TrailingSpaces(s);
      (forall i :: |s| - k <= i < |s| ==> IsSpace(s[i])) && (k < |s| ==> !IsSpace(s[|s| - 1 - k]))
  {
    TrimEndSpec(s, 0, |s|);
  }

  /** Python's `s.lstrip()`. */
  function LStrip(s: string): string {
    s[LeadingSpaces(s)..]
  }

  /** Python's `s.rstrip()`. */
  function RStrip(s: string): string {
    s[..|s| - TrailingSpaces(s)]
  }

  /** Python's `s.strip()`. */
  function Strip(s: string): string {
    LStrip(RStrip(s))
  }

  /** Stripping removes exactly the whitespace at both ends: it is empty
      exactly when `s` is all whitespace, and otherwise it is the slice
      between the two whitespace runs, with no whitespace at either end. */
  lemma {:induction false} StripSlice(s: string)
    ensures Strip(s) == [] <==> AllSpace(s, 0, |s|)
    ensures Strip(s) != [] ==>
              LeadingSpaces(s) + TrailingSpaces(s) < |s|
              && Strip(s) == s[LeadingSpaces(s)..|s| - TrailingSpaces(s)]
              && IsStripped(Strip(s))
  {
    var l, t := LeadingSpaces(s), TrailingSpaces(s);
    var r := RStrip(s);
    LeadingSpacesSpec(s);
    TrailingSpacesSpec(s);
    if l < |s| {
      // s[l] is not whitespace, so it survives rstrip and starts lstrip's result
      assert l < |s| - t;
      assert forall i :: 0 <= i < l ==> r[i] == s[i];
      SkipSpacesAt(r, 0, |r|, l);
      assert Strip(s) == s[l..|s| - t];
      assert s[|s| - 1 - t] == Strip(s)[|Strip(s)| - 1];
    } else {
      assert AllSpace(s, 0, |s|);
      assert t == |s|;
    }
  }

  /** A string with no whitespace at either end is its own strip. */
  lemma StripIdentity(s: string)
    requires IsStripped(s)
    ensures Strip(s) == s
  {
    if |s| > 0 {
      TrailingSpacesSpec(s);
      assert TrailingSpaces(s) == 0;
      assert RStrip(s) == s;
    }
  }

  /** Stripping twice is stripping once. */
  lemma StripTwice(s: string)
    ensures Strip(Strip(s)) == Strip(s)
  {
    StripSlice(s);
    if Strip(s) != [] {
      StripIdentity(Strip(s));
    }
  }

  /** The non-whitespace characters of `s`, in order. */
  function NonSpaces(s: string): string {
    if |s| == 0 then []
    else if IsSpace(s[0]) then NonSpaces(s[1..])
    else [s[0]] + NonSpaces(s[1..])
  }

  lemma {:induction false} NonSpacesAppend(a: string, b: string)
    ensures NonSpaces(a + b) == NonSpaces(a) + NonSpaces(b)
  {
    if |a| > 0 {
      assert (a + b)[1..] == a[1..] + b;
      NonSpacesAppend(a[1..], b);
    } else {
      assert a + b == b;
    }
  }

  /** Stripping removes whitespace only. */
  lemma StripKeepsContent(s: string)
    ensures NonSpaces(Strip(s)) == NonSpaces(s)
  {
    var r := RStrip(s);
    TrailingSpacesSpec(s);
    assert s == r + s[|r|..];
    NonSpacesAppend(r, s[|r|..]);
    AllSpaceNoContent(s[|r|..]);
    LStripKeepsContent(r);
  }

  /** Length of the maximal non-whitespace prefix (one word of `split()`). */
  function WordLength(s: string): (k: nat)
    ensures k <= |s|
  {
    if |s| == 0 || IsSpace(s[0]) then 0 else 1 + WordLength(s[1..])
  }

  /** The word is free of whitespace and ends at whitespace or at the end. */
  lemma {:induction false} WordLengthSpec(s: string)
    ensures var k := WordLength(s);
      (forall i :: 0 <= i < k ==> !IsSpace(s[i])) && (k < |s| ==> IsSpace(s[k]))
  {
    if |s| > 0 && !IsSpace(s[0]) {
      WordLengthSpec(s[1..]);
      assert forall i :: 1 <= i < |s| ==> s[i] == s[1..][i - 1];
    }
  }

  /** Python's `s.split()`: the maximal runs of non-whitespace characters. */
  function SplitWords(s: string): seq<string>
    decreases |s|
  {
    var t := LStrip(s);
    if |t| == 0 then []
    else
      var k := WordLength(t);
      [t[..k]] + SplitWords(t[k..])
  }

  /** A word of `split()`: non-empty, without whitespace. */
  ghost predicate IsWord(w: string) {
    w != [] && forall i :: 0 <= i < |w| ==> !IsSpace(w[i])
  }

  lemma {:induction false} SplitWordsAreWords(s: string)
    ensures forall i :: 0 <= i < |SplitWords(s)| ==> IsWord(SplitWords(s)[i])
    decreases |s|
  {
    var t := LStrip(s);
    if |t| > 0 {
      LeadingSpacesSpec(s);
      assert t[0] == s[LeadingSpaces(s)];
      var k := WordLength(t);
      WordLengthSpec(t);
      var rest := SplitWords(t[k..]);
      SplitWordsAreWords(t[k..]);
      assert k > 0 && forall i :: 0 <= i < k ==> t[..k][i] == t[i];
      assert IsWord(t[..k]);
      var ws := SplitWords(s);
      assert ws == [t[..k]] + rest;
      forall i | 0 <= i < |ws|
        ensures IsWord(ws[i])
      {
        if i > 0 {
          assert ws[i] == rest[i - 1] && IsWord(rest[i - 1]);
        } else {
          assert ws[i] == t[..k];
        }
      }
    }
  }

  lemma {:induction false} NoSpaceWord(w: string)
    requires forall i :: 0 <= i < |w| ==> !IsSpace(w[i])
    ensures NonSpaces(w) == w
  {
    if |w| > 0 {
      NoSpaceWord(w[1..]);
    }
  }

  /** `" ".join(ws)`. */
  function JoinWords(ws: seq<string>): string {
    if |ws| == 0 then []
    else if |ws| == 1 then ws[0]
    else ws[0] + " " + JoinWords(ws[1..])
  }

  /** `" ".join(s.split())`: every whitespace run becomes one space and the
      ends are trimmed. */
  function Squash(s: string): string {
    JoinWords(SplitWords(s))
  }

  /** Concatenation of the words, without separators. */
  function Concat(ws: seq<string>): string {
    if |ws| == 0 then [] else ws[0] + Concat(ws[1..])
  }

  lemma {:induction false} SplitWordsKeepsContent(s: string)
    ensures Concat(SplitWords(s)) == NonSpaces(s)
    decreases |s|
  {
    var t := LStrip(s);
    LStripKeepsContent(s);
    if |t| > 0 {
      var k := WordLength(t);
      WordKeepsContent(t);
      SplitWordsKeepsContent(t[k..]);
      assert SplitWords(s) == [t[..k]] + SplitWords(t[k..]);
    }
  }

  /** Leading whitespace holds no content. */
  lemma LStripKeepsContent(s: string)
    ensures NonSpaces(LStrip(s)) == NonSpaces(s)
  {
    var l := LeadingSpaces(s);
    LeadingSpacesSpec(s);
    assert s == s[..l] + LStrip(s);
    NonSpacesAppend(s[..l], LStrip(s));
    AllSpaceNoContent(s[..l]);
  }

  /** The first word of `t` is all content. */
  lemma WordKeepsContent(t: string)
    ensures var k := WordLength(t); NonSpaces(t) == t[..k] + NonSpaces(t[k..])
  {
    var k := WordLength(t);
    WordLengthSpec(t);
    assert t == t[..k] + t[k..];
    NonSpacesAppend(t[..k], t[k..]);
    NoSpaceWord(t[..k]);
  }

  lemma {:induction false} AllSpaceNoContent(s: string)
    requires forall i :: 0 <= i < |s| ==> IsSpace(s[i])
    ensures NonSpaces(s) == []
  {
    if |s| > 0 {
      AllSpaceNoContent(s[1..]);
    }
  }

  lemma {:induction false} JoinWordsContent(ws: seq<string>)
    requires forall i :: 0 <= i < |ws| ==> IsWord(ws[i])
    ensures NonSpaces(JoinWords(ws)) == Concat(ws)
  {
    if |ws| > 0 {
      NoSpaceWord(ws[0]);
    }
    if |ws| == 1 {
      assert Concat(ws[1..]) == [];
    } else if |ws| > 1 {
      JoinWordsContent(ws[1..]);
      NonSpacesAppend(ws[0] + " ", JoinWords(ws[1..]));
      NonSpacesAppend(ws[0], " ");
      assert NonSpaces(" ") == [];
    }
  }

  /** The shape of a joined word list: no whitespace at either end, every
      whitespace character is a single ' ' between two non-whitespace ones. */
  ghost predicate SingleSpaced(s: string) {
    IsStripped(s)
    && forall i :: 0 <= i < |s| && IsSpace(s[i]) ==>
         s[i] == ' ' && 0 < i < |s| - 1 && !IsSpace(s[i - 1]) && !IsSpace(s[i + 1])
  }

  lemma {:induction false} JoinWordsShape(ws: seq<string>)
    requires forall i :: 0 <= i < |ws| ==> IsWord(ws[i])
    ensures SingleSpaced(JoinWords(ws))
  {
    if |ws| > 1 {
      JoinWordsShape(ws[1..]);
      var w, rest := ws[0], JoinWords(ws[1..]);
      var s := w + " " + rest;
      assert rest != [] by { JoinWordsNonEmpty(ws[1..]); }
      forall i | 0 <= i < |s| && IsSpace(s[i])
        ensures s[i] == ' ' && 0 < i < |s| - 1 && !IsSpace(s[i - 1]) && !IsSpace(s[i + 1])
      {
        if i > |w| {
          assert s[i] == rest[i - |w| - 1];
          if i - |w| - 1 > 0 {
            assert s[i - 1] == rest[i - |w| - 2];
          }
          assert s[i + 1] == rest[i - |w|];
        }
      }
      assert s[|s| - 1] == rest[|rest| - 1];
    }
  }

  lemma {:induction false} JoinWordsNonEmpty(ws: seq<string>)
    requires |ws| > 0 && forall i :: 0 <= i < |ws| ==> ws[i] != []
    ensures JoinWords(ws) != []
  {
  }

  /** Leading whitespace up to a non-whitespace character is what `lstrip`
      removes. */
  lemma LStripAt(s: string, k: int)
    requires 0 <= k < |s| && AllSpace(s, 0, k) && !IsSpace(s[k])
    ensures LStrip(s) == s[k..]
  {
    SkipSpacesAt(s, 0, |s|, k);
  }

  /** A word followed by whitespace or by nothing is the first word. */
  lemma {:induction false} WordLengthOfWord(w: string, t: string)
    requires forall i :: 0 <= i < |w| ==> !IsSpace(w[i])
    requires t == [] || IsSpace(t[0])
    ensures WordLength(w + t) == |w|
  {
    if |w| > 0 {
      assert (w + t)[1..] == w[1..] + t;
      WordLengthOfWord(w[1..], t);
    } else {
      assert w + t == t;
    }
  }

  /** A word followed by whitespace or by nothing splits off first. */
  lemma SplitWordsFirst(w: string, rest: string)
    requires IsWord(w) && (rest == [] || IsSpace(rest[0]))
    ensures SplitWords(w + rest) == [w] + SplitWords(rest)
  {
    var s := w + rest;
    assert AllSpace(s, 0, 0) && s[0] == w[0];
    LStripAt(s, 0);
    WordLengthOfWord(w, rest);
    assert s[..|w|] == w && s[|w|..] == rest;
  }

  /** A space before a word does not change the split. */
  lemma SplitWordsSpace(j: string)
    requires j != [] && !IsSpace(j[0])
    ensures SplitWords(" " + j) == SplitWords(j)
  {
    var s := " " + j;
    assert AllSpace(s, 0, 1) && s[1] == j[0];
    LStripAt(s, 1);
    assert s[1..] == j;
    assert AllSpace(j, 0, 0);
    LStripAt(j, 0);
  }

  /** Splitting a space-joined list of words gives the words back. */
  lemma {:induction false} SplitJoinWords(ws: seq<string>)
    requires forall i :: 0 <= i < |ws| ==> IsWord(ws[i])
    ensures SplitWords(JoinWords(ws)) == ws
  {
    if |ws| == 0 {
      assert LeadingSpaces([]) == 0;
    } else if |ws| == 1 {
      SplitWordsFirst(ws[0], []);
      assert LeadingSpaces([]) == 0;
      assert ws[0] + [] == ws[0];
    } else {
      var j := JoinWords(ws[1..]);
      SplitJoinWords(ws[1..]);
      JoinWordsShape(ws[1..]);
      JoinWordsNonEmpty(ws[1..]);
      SplitWordsSpace(j);
      SplitWordsFirst(ws[0], " " + j);
      assert JoinWords(ws) == ws[0] + (" " + j);
    }
  }

  /** `" ".join(s.split())` keeps every non-whitespace character, in order,
      leaves single spaces between words with nothing at either end, and
      splits into the same words as `s`; so it is the one single-spaced
      text with the words of `s`. */
  lemma SquashSpec(s: string)
    ensures NonSpaces(Squash(s)) == NonSpaces(s)
    ensures SingleSpaced(Squash(s))
    ensures SplitWords(Squash(s)) == SplitWords(s)
  {
    SplitWordsKeepsContent(s);
    SplitWordsAreWords(s);
    JoinWordsContent(SplitWords(s));
    JoinWordsShape(SplitWords(s));
    SplitJoinWords(SplitWords(s));
  }

  /** `" ".join(text.split())` cut to `n` characters: when the squashed text
      is longer than `n`, its first `n` characters are right-stripped and
      `marker` is appended. */
  function Abbreviate(text: string, n: nat, marker: string): string {
    var t := Squash(text);
    if |t| <= n then t else RStrip(t[..n]) + marker
  }

  /** `head` is `u` with exactly its trailing whitespace removed. */
  ghost predicate Cut(u: string, head: string) {
    && head <= u
    && AllSpace(u, |head|, |u|)
    && (head == [] || !IsSpace(u[|head| - 1]))
  }

  /** `rstrip` removes exactly the trailing whitespace. */
  lemma RStripCut(u: string)
    ensures Cut(u, RStrip(u))
  {
    TrailingSpacesSpec(u);
  }

  /** A short text is only squashed. A long one keeps the first `n`
      characters of the squashed text minus exactly their trailing
      whitespace, followed by the marker. */
  lemma AbbreviateSpec(text: string, n: nat, marker: string)
    ensures var t, r := Squash(text), Abbreviate(text, n, marker);
      && NonSpaces(t) == NonSpaces(text) && SingleSpaced(t) && SplitWords(t) == SplitWords(text)
      && (|t| <= n ==> r == t)
      && (|t| > n ==> && |marker| <= |r| <= n + |marker|
                      && Cut(t[..n], r[..|r| - |marker|])
                      && r[|r| - |marker|..] == marker)
  {
    SquashSpec(text);
    var t := Squash(text);
    if |t| > n {
      var head := RStrip(t[..n]);
      RStripCut(t[..n]);
      var r := head + marker;
      assert Abbreviate(text, n, marker) == r;
      assert r[..|head|] == head && r[|head|..] == marker;
    }
  }

  function Min(a: int, b: int): int {
    if a <= b then a else b
  }

  function Max(a: int, b: int): int {
    if a >= b then a else b
  }

  function Digit(d: nat): (c: char)
    requires d < 10
    ensures '0' <= c <= '9' && c as int - '0' as int == d
  {
    ['0', '1', '2', '3', '4', '5', '6', '7', '8', '9'][d]
  }

  /** Python's `str(n)` for a natural number. */
  function NatToString(n: nat): (r: string)
    ensures |r| >= 1 && (forall i :: 0 <= i < |r| ==> '0' <= r[i] <= '9')
    ensures r[0] == '0' ==> n == 0 && r == "0"
  {
    if n < 10 then [Digit(n)] else NatToString(n / 10) + [Digit(n % 10)]
  }

  /** Python's `str(i)` for an integer. */
  function IntToString(i: int): string {
    if i < 0 then "-" + NatToString(-i) else NatToString(i)
  }

  /** The value of a string of decimal digits. */
  function DigitsValue(s: string): nat
    requires forall i :: 0 <= i < |s| ==> '0' <= s[i] <= '9'
  {
    if |s| == 0 then 0 else 10 * DigitsValue(s[..|s| - 1]) + (s[|s| - 1] as int - '0' as int)
  }

  /** Reading back the decimal rendering of `n` yields `n`. */
  lemma {:induction false} NatToStringRoundTrip(n: nat)
    ensures DigitsValue(NatToString(n)) == n
  {
    if n >= 10 {
      var r, q := NatToString(n), NatToString(n / 10);
      assert r == q + [Digit(n % 10)];
      assert r[..|r| - 1] == q;
      NatToStringRoundTrip(n / 10);
      assert DigitsValue(r) == 10 * DigitsValue(q) + n % 10;
    }
  }

  /** Python's `sub in s` on strings. */
  predicate IsSubstring(sub: string, s: string) {
    sub <= s || (|s| > 0 && IsSubstring(sub, s[1..]))
  }

  /** `sub` occurs in `s` starting at position `i`. */
  ghost predicate OccursAt(sub: string, s: string, i: int) {
    0 <= i && i + |sub| <= |s| && s[i..i + |sub|] == sub
  }

  /** `sub in s` holds exactly when `sub` occurs somewhere in `s`. */
  lemma {:induction false} IsSubstringSpec(sub: string, s: string)
    ensures IsSubstring(sub, s) <==> exists i :: OccursAt(sub, s, i)
  {
    if sub <= s {
      assert OccursAt(sub, s, 0);
    } else if |s| > 0 {
      IsSubstringSpec(sub, s[1..]);
      if exists j :: OccursAt(sub, s[1..], j) {
        var j :| OccursAt(sub, s[1..], j);
        assert s[1..][j..j + |sub|] == s[j + 1..j + 1 + |sub|];
        assert OccursAt(sub, s, j + 1);
      }
      if exists i :: OccursAt(sub, s, i) {
        var i :| OccursAt(sub, s, i);
        assert i != 0;
        assert s[1..][i - 1..i - 1 + |sub|] == s[i..i + |sub|];
        assert OccursAt(sub, s[1..], i - 1);
      }
    }
  }

  /** Python's `c.lower()` restricted to ASCII letters. */
  function LowerChar(c: char): char {
    if 'A' <= c <= 'Z' then (c as int + 32) as char else c
  }

  /** Python's `s.lower()` restricted to ASCII letters. */
  function Lower(s: string): (r: string)
    ensures |r| == |s| && forall i :: 0 <= i < |s| ==> r[i] == LowerChar(s[i])
  {
    if |s| == 0 then [] else [LowerChar(s[0])] + Lower(s[1..])
  }

  /** `s` repeated `k` times. */
  function Repeat(s: string, k: nat): (r: string)
    ensures |r| == k * |s|
  {
    if k == 0 then [] else Repeat(s, k - 1) + s
  }
}

=== FILE: types.dfy ===
/**
 * The record shapes of the retrieval core (app/rag/types.py). Field
 * constraints that pydantic enforces on construction are the `Valid...`
 * predicates; defaults are the constructors' default parameter values.
 */
module Types {
  import opened Wrappers

  /** The document kinds a chunk may come from. */
  datatype SourceType = Pdf | Txt | Md | Docx | Html | Unknown

  /** A piece of document text; its text has at least one character. */
  datatype Chunk = Chunk(text: string)

  predicate ValidChunk(c: Chunk) {
    |c.text| >= 1
  }

  /** Where a chunk comes from: document, position in the cleaned document
      text, optional page and file path. */
  datatype ChunkMeta = ChunkMeta(
    docId: string,
    source: SourceType := Unknown,
    chunkId: int,
    startChar: int,
    endChar: int,
    page: Option<int> := None,
    path: Option<string> := None)

  /** The constraints pydantic checks when a ChunkMeta is built: a non-empty
      document id, non-negative id and offsets, and a page of at least 1. */
  predicate ValidChunkMeta(m: ChunkMeta) {
    |m.docId| >= 1 && m.chunkId >= 0 && m.startChar >= 0 && m.endChar >= 0
    && ValidPage(m.page)
  }

  /** An optional page number is absent or at least 1. */
  predicate ValidPage(page: Option<int>) {
    page.None? || page.value >= 1
  }

  /** A retrieved chunk with its similarity score (higher is better). */
  datatype SearchHit = SearchHit(score: real, text: string, meta: ChunkMeta)

  /** A chunk together with its embedding vector, as stored by the indexer. */
  datatype EmbeddedChunk = EmbeddedChunk(vector: seq<real>, chunk: Chunk, meta: ChunkMeta)

  predicate ValidEmbeddedChunk(e: EmbeddedChunk) {
    ValidChunk(e.chunk) && ValidChunkMeta(e.meta)
  }
}

=== FILE: wrappers.dfy ===
/** Optional values and results with an error side, shared by every module. */
module Wrappers {

  /** Python's `Optional[T]`: `None` or a present value. */
  datatype Option<+T> = None | Some(value: T)

  /** The outcome of an operation that raises on failure in the source. */
  datatype Result<+T, +E> = Success(value: T) | Failure(error: E)
}
